=== FILE: README.md ===
# Pharmesol inbound sales assistant — a Dafny model

Pharmesol's assistant answers inbound calls from pharmacies. It looks the caller's phone
number up in a pharmacy directory. A known pharmacy is greeted by name, with its location and
a sentence about its prescription volume. An unknown caller is asked for a pharmacy name, a
location and a monthly volume, and a lead record is started for them. After that, turn by turn,
the assistant reads the caller's message:

- It classifies the intent: email request, callback request, introduction, pricing, greeting,
  general inquiry or unclear.
- It extracts entities (address, time preference, name, location, volume) and merges them into
  the lead.
- It picks a response strategy.
- It either runs an action (send an email, book a callback, log the lead, create a follow-up
  task, ask for an address) or asks a language model for the reply.

A session summary and a closing line finish the call.

The repository holds two assistants that share the prompt helpers:

- The current one has these modules:
  - `Models` (`core/models.py`): the directory record, the lead, the session object and its
    derived properties.
  - `Analysis` and `Flow` (`core/conversation_manager.py`): intent classification, entity
    extraction, lead merge, strategy and context line.
  - `Actions` (`core/action_handler.py`): the action dispatcher, its handlers, the email
    templates, the callback notes and the action summary.
  - `Chatbot` (`chatbot.py`): the orchestrator.
- The older self-contained one is `Legacy` (`api/llm.py`). It has its own keyword rules,
  word-scanning lead extraction and email and callback handlers.
- `Prompt` (`utils/prompt.py`) holds the location and volume fragments and the benefit
  bullets that both assistants use.

The objects whose fields the source updates in place are classes:
`Models.ConversationState`, `Actions.ActionHandler`, `Flow.ConversationFlowManager`,
`Chatbot.PharmacySalesChatbot` and `Legacy.PharmacyChatbot`. Their methods state the whole new
state: each field a method may change is given in its ensures, and its modifies clause keeps the
rest. Pure logic is functions and lemmas. The loops of the source are methods with
invariants:

- the two word scans of the older assistant;
- the pass over the history of `_get_actions_taken`;
- the counting passes of `get_action_summary`.

The collaborators are the directory, the mailer, the callback scheduler, the lead log, the
follow-up tracker, the language model and the clock-derived lead id. They live in `Effects.Environment`.
Each one is an arbitrary function of the trace of calls made so far, and each either returns or
raises. Every operation states which calls it appends to that trace and what it does with each
possible answer. What each handler of `core/action_handler.py` does is also written as a
function of the session's records and the trace: `SendEmailEffect`, `ScheduleCallbackEffect`,
`LogLeadEffect` and `FollowUpEffect` give the outcome and the trace after it. Each handler is
proved equal to its function, and so are the dispatcher and the orchestrator's email and callback
turns, so what a turn does is stated all the way up from the handler that does it.

The orchestrator's turn is stated through predicates over the session's values before and after
it:

- `TurnPrepared`: the analysis, the merge and the strategy;
- `EmailTurnDone`: the send and the conditional lead log, with their calls, history entries and
  recorded actions;
- `CallbackTurnDone`: the booking;
- `ModelTurnDone`: the model call, with its context line, strategy and window, and its reply.

The older assistant's branches are written the same way: `EmailRequestEffect`,
`SendTemplateEffect`, `CallbackRequestEffect` and `ModelReplyEffect` give the outcome, the lead
and the trace after each branch.

The session's `current_pharmacy_name` and `email_address` are `Models.NameOnRecord` and
`Models.EmailOnRecord` of its directory record and its lead record.

`Text` holds the ASCII string helpers: lower-casing, `split`, `strip`, `join`, substring
search and decimal conversion. `Wrappers` holds `Option` and `Result`. A Python value that may
be `None` is an `Option`. Python truthiness is `Models.Truthy` / `Models.TruthyInt`. An
exception the source raises or catches is `Result.Raised`.

## Model

| member | source | states |
|---|---|---|
| Models.VolumeTier | core/models.py:47-60 | The tier is high volume for at least 10000 prescriptions a month, medium for 5000 to 9999, low for 1000 to 4999, and startup for less or for a missing or zero volume. Each tier is an if-and-only-if. |
| Models.VolumeTierMonotone | core/models.py:47-60 | More prescriptions never give a lower tier. |
| Models.PharmacyData.LocationDisplay | core/models.py:36-45 | With both city and state truthy it gives the city, then ", ", then the state. With only one of them it gives that one, and with neither "Unknown location". |
| Models.FromApiResponse | core/models.py:62-73 | The name defaults to "Unknown Pharmacy" and the phone to "". Every other field is copied from the directory record. |
| Models.LeadData.FilledFields | core/models.py:92-100 | Counts the truthy fields among the five that count, so the result is at most 5. |
| Models.LeadData.CompletionPercentage | core/models.py:92-100 | Is 20 per filled field, so it is a multiple of 20 and at most 100. |
| Models.NewLead | core/conversation_manager.py:46-47 | A fresh lead holds the caller's phone, is 0% complete and is not complete. |
| Models.CompletionFull | core/models.py:87-100 | A lead is 100% complete if and only if its name, contact person, email, location and volume are all truthy. |
| Models.CompleteLeadAtLeastForty | core/models.py:87-100 | A lead that `is_complete` accepts is at least 40% complete. |
| Models.AddOnce | core/models.py:162-165 | The action is in the result. The result holds exactly the old actions plus it. |
| Models.AddOnceNoDuplicates | core/models.py:162-165 | Recording an action keeps the list free of duplicates. |
| Models.AddOnceIdempotent | core/models.py:162-165 | Recording the same action twice is the same as recording it once. |
| Models.AddOncePreservesOrder | core/models.py:162-165 | The old actions stay in order at the front, and at most one is added. |
| Models.ConversationState.constructor | core/models.py:110-119 | A new session has the given phone, status and records, and an empty history and action list. |
| Models.NameOnRecord | core/models.py:126-133 | The session's `current_pharmacy_name`: the directory name when there is a directory record, else a truthy lead name, else "your pharmacy". |
| Models.EmailOnRecord | core/models.py:144-151 | The session's `email_address`: the directory email when it is truthy, else a truthy lead email, else none. A found address is never empty. |
| Models.ConversationState.HasEmail | core/models.py:135-142 | Holds if and only if `email_address` finds an address. |
| Models.ConversationState.AddMessage | core/models.py:153-160 | Appends exactly one message with the given role and content. |
| Models.ConversationState.AddAction | core/models.py:162-165 | Records the action once and keeps the session invariant. |
| Analysis.ClassifyIntent | core/conversation_manager.py:84-115 | Applies the decision list in the source's order: email, callback, introduction, pricing, greeting, then general inquiry. Each outcome is an if-and-only-if on the keyword tests of the lowered message. An empty message is unclear. |
| Analysis.Confidence | core/conversation_manager.py:69-115 | Gives 0.8 for an email or callback request, 0.9 for an introduction, 0.7 for pricing, 0.6 for a greeting and 0.5 for a general inquiry. It is always between 0 and 1, and 0 only for an empty message. |
| Analysis.EmailBeatsCallback | core/conversation_manager.py:85-94 | A message that mentions both "email" and "callback" is an email request. |
| Analysis.CallingFromIsNeverIntroduction | core/conversation_manager.py:257-269 | "calling from" is also a callback keyword, so a message with it is never classified as an introduction. |
| Analysis.FirstContained | core/conversation_manager.py:333-343 | Gives a phrase that the text contains and such that no phrase before it in the list is contained. It gives none if and only if the text contains none of them. |
| Analysis.ExtractTimePreference | core/conversation_manager.py:333-343 | Gives the first phrase of the fixed priority list that the lowered message contains: no phrase listed before it occurs. It gives none if and only if the message contains none of them. |
| Analysis.TomorrowAfternoonBeatsTomorrow | core/conversation_manager.py:335-343 | "tomorrow afternoon" is listed before "tomorrow", so a message holding it (and not "tomorrow morning") gives "tomorrow afternoon", not "tomorrow". |
| Analysis.ExtractEmails | core/conversation_manager.py:244-250 | Gives exactly the address-shaped words of the message. |
| Analysis.Search | core/conversation_manager.py:281-312 | Gives the capture at the leftmost position where the pattern matches: it matches there and at no earlier position. It gives none if and only if it matches nowhere. |
| Analysis.FirstSome | core/conversation_manager.py:293-297 | Gives the first present result: every earlier one is missing. It gives none if and only if all are missing. |
| Analysis.FirstCapture | core/conversation_manager.py:293-310 | Gives the stripped capture of a pattern that matches and such that no pattern before it in the list matches. It gives none if and only if none matches. |
| Analysis.FirstPatternCapture | core/conversation_manager.py:293-310 | The same over `re.search` of each pattern in the message, ignoring case: the stripped capture of the first pattern in list order that matches anywhere, or none if and only if none does. |
| Analysis.ExtractPharmacyInfo | core/conversation_manager.py:281-312 | The name is the stripped capture of the first name pattern, in list order, that matches anywhere in the message ignoring case, and it is absent if and only if no name pattern matches. The location is the same over the location patterns. |
| Analysis.VolumeSearch | core/conversation_manager.py:314-331 | Gives the number captured at the leftmost position where the volume pattern matches: it matches there and at no earlier position. It gives none if and only if it matches nowhere. |
| Analysis.CapturedNumberParses | core/conversation_manager.py:327-329 | A captured number with its commas removed always parses, so the source's `int()` never raises on it. |
| Analysis.VolumeFrom | core/conversation_manager.py:314-331 | Gives the capture, commas removed and parsed, of the first pattern in list order that matches: no earlier pattern matches. It gives none if and only if none matches. |
| Analysis.ExtractRxVolume | core/conversation_manager.py:314-331 | Gives the number that the first of the "prescriptions", "rx", "volume" and "fill" patterns to match captures at its leftmost match, commas removed. It gives none if and only if no volume pattern matches the message. |
| Flow.MergeEntities | core/conversation_manager.py:119-146 | Every key present in the entities overwrites its lead field: email, pharmacy name, location, volume and contact person, each with the value as given. The phone, interests and notes never change. |
| Flow.MergeKeepsAbsentFields | core/conversation_manager.py:131-144 | For each of the five keys, an absent key leaves its field exactly as it was and a present key writes its value as given. |
| Flow.MergeIgnoresPreferredTime | core/conversation_manager.py:119-146 | The time preference never changes the lead. |
| Flow.MergeIdempotent | core/conversation_manager.py:119-146 | Merging the same entities twice is the same as merging them once. |
| Flow.MergeLastWriteWins | core/conversation_manager.py:131-144 | Two merges in a row equal one merge of the entities overlaid, so the later key wins. |
| Flow.MergeNeverLowersCompletion | core/conversation_manager.py:131-144 | Merging truthy values never lowers the completion percentage, and a complete lead stays complete. |
| Flow.EmptyNameLowersCompletion | core/conversation_manager.py:134-135 | The name is written whenever the key is present, so merging an empty name into any lead with a truthy name lowers its completion by exactly 20 points. |
| Flow.ShowOptional | core/conversation_manager.py:171 | A present value prints as itself. |
| Flow.IntentHints | core/conversation_manager.py:166-171 | There is at most one hint. It is present if and only if the intent is a callback and the time entity is present, and it reads "preferred_time: " followed by the time, or by "None". |
| Flow.SessionHints | core/conversation_manager.py:186-201 | There are no hints without a session. A known pharmacy gets "known_pharmacy" and "pharmacy_type: " with its tier. A new lead gets "new_lead", plus "lead_completeness: " with its percentage and "%" when a lead record exists. |
| Flow.SessionMarkerExclusive | core/conversation_manager.py:186-201 | Exactly one of "known_pharmacy" and "new_lead" is given, according to whether the pharmacy is known. |
| Flow.ConversationFlowManager.constructor | core/conversation_manager.py:27-31 | The manager starts without a session. |
| Flow.ConversationFlowManager.StartConversation | core/conversation_manager.py:33-56 | The new session is active and empty, and it holds a lead record exactly when no directory data is given. |
| Flow.ConversationFlowManager.AnalyzeUserMessage | core/conversation_manager.py:58-117 | Sets the intent and confidence as classified, the email when the message holds an address, and the time preference if and only if the intent is a callback. Name and location come only from introductions and the volume only from pricing inquiries. "ask_for_email" is suggested if and only if an email is asked for with no address given or on record. |
| Flow.ConversationFlowManager.IntentEntities | core/conversation_manager.py:84-115 | Each intent sets only its own entities and keeps the others. |
| Flow.ConversationFlowManager.UpdateLeadData | core/conversation_manager.py:119-146 | The lead becomes `MergeEntities` of the old lead. Nothing else in the session changes, and the session invariant is kept. |
| Flow.ConversationFlowManager.DetermineResponseStrategy | core/conversation_manager.py:148-203 | Each response type is an if-and-only-if on the intent and on whether an address is on record. The priority actions follow the type. Personalization is high if and only if the message is an introduction, or a pricing inquiry from a known pharmacy. The hints are the intent's followed by the session's. |
| Flow.SessionContextParts | core/conversation_manager.py:215-240 | Phone, status and message count come first. A known pharmacy then gets its name, its location display, its tier, its volume or "Unknown", and its email when truthy. A new lead gets its name or "Unknown", its completeness with "%", its email when truthy, and its volume last when truthy. |
| Flow.SessionContext | core/conversation_manager.py:215-242 | The context line of a session's values starts with the phone and contains every part. |
| Flow.ConversationFlowManager.ContextParts | core/conversation_manager.py:205-242 | The session's parts are `SessionContextParts` of its current phone, status, message count and records. The session's address appears among them whenever it has one. |
| Flow.ConversationFlowManager.ConversationContext | core/conversation_manager.py:205-242 | Gives "No active conversation" without a session. Otherwise it gives `SessionContext` of the session's current values. |
| Actions.ActionKindOf | core/action_handler.py:51-64 | A name finds a handler if and only if it is one of the six registered names, and the handler found carries that name. |
| Actions.ActionKindOfName | core/action_handler.py:51-58 | Every handler is found under its own name. |
| Actions.ResolveRecipient | core/action_handler.py:91 | A truthy address given with the request wins over a truthy stored one. A found address is never empty. |
| Actions.GivenAddressWins | core/action_handler.py:91 | A non-empty address given with the request is always the recipient. |
| Actions.NewLeadTier | core/action_handler.py:295-304 | A new lead's email tier is high from 10000, medium from 5000 and low below that. A missing or zero volume is startup. |
| Actions.NewLeadTierVersusVolumeTier | core/action_handler.py:295-304 | This tier equals the directory's tier, except that a truthy volume below 1000 is low instead of startup. |
| Actions.ExistingPharmacyEmail | core/action_handler.py:259-286 | The subject names the pharmacy. The body addresses the contact person, or "there", names the pharmacy, gives the volume or "significant" and the location display, and carries the benefits of the pharmacy's tier. |
| Actions.NewLeadEmail | core/action_handler.py:288-323 | The subject and body name the lead's pharmacy or "your pharmacy". The body carries the benefits of `NewLeadTier`. |
| Actions.EmailFor | core/action_handler.py:101-104 | With a directory record the email is the existing-pharmacy one. Otherwise the lead gets the welcome email. |
| Actions.LeadRecordOf | core/action_handler.py:166-176 | The lead record carries the lead's fields and its completion. The name defaults to "Unknown". The interests are "" when there are none, else joined with ", ". |
| Actions.CallbackNoteParts | core/action_handler.py:356-376 | A known pharmacy gets "Existing pharmacy: " and its name, then "Volume: N/month" exactly when its volume is truthy. A new lead gets "New lead: " and its name or "TBD", then "Estimated volume: N/month" exactly when its volume is truthy, then its completeness. The last two parts are the message count and the actions so far joined by ", ", or "None". |
| Actions.CallbackNotesFrame | core/action_handler.py:356-376 | The notes open with "Existing pharmacy:" or "New lead:" and end with the actions taken. |
| Actions.PreferredTimeAsWritten | core/action_handler.py:129 | The default applies only when no time was passed at all. A time passed as `None` is taken as it is. |
| Actions.PreferredTimeDefaultIsBypassed | chatbot.py:223-228 | The orchestrator always passes the time entity, so a callback request with no time phrase reads "Callback scheduled for None". |
| Actions.ResolvePreferredTime | core/action_handler.py:129 | A given time is used. A missing one, whether absent or `None`, becomes "during business hours". Where the source has a value, this agrees with it. |
| Actions.AskForEmailResult | core/action_handler.py:226-246 | Always succeeds and asks for an address. The wording changes after three messages. |
| Actions.AskForEmailNamesPharmacy | core/action_handler.py:226-246 | The first wording names the caller's pharmacy. |
| Actions.AskForCallbackDetailsResult | core/action_handler.py:248-257 | Always succeeds and asks for callback details. |
| Actions.CountSuccessful | core/action_handler.py:378-394 | The successful entries are never more than all entries. |
| Actions.CountAction | core/action_handler.py:378-394 | The entries of one action are never more than all entries. |
| Actions.Recent | core/action_handler.py:378-394 | Gives the last five entries, or all of them when there are fewer. |
| Actions.MapSumIncrement | core/action_handler.py:378-394 | Counting one more occurrence adds one to the total of the counts. |
| Actions.CountSuccesses | core/action_handler.py:378-394 | The one-pass count equals `CountSuccessful`. |
| Actions.CountActions | core/action_handler.py:378-394 | The per-action counts cover exactly the names in the history, each count is exact, and the counts sum to the history's length. |
| Actions.CountStep | core/action_handler.py:378-394 | Incrementing the count of the next entry keeps the counts exact. |
| Actions.CountActionAbsent | core/action_handler.py:378-394 | An action that never occurs has count zero. |
| Actions.Reported | core/action_handler.py:65-85 | A handler that returns is reported as it returned. A handler that raises becomes a failure reading "Action failed: " and the error. |
| Actions.Recorded | core/action_handler.py:67-76 | The name is in the new list exactly when it was there already or the action succeeded. Every other name is in it exactly when it was before. The old list stays at the front, and at most one name is added. |
| Actions.ActionHandler.constructor | core/action_handler.py:34-35 | The handler starts with an empty history. |
| Actions.ActionHandler.HandleSendEmail | core/action_handler.py:87-124 | Without a recipient it fails with no call made. A session with no record raises before any call. Otherwise it makes exactly one mail call with `EmailFor`. It succeeds if and only if the mailer returns true. A refusal or an exception gives the matching failure. Outcome and calls together are `SendEmailEffect` of the session's records. |
| Actions.ActionHandler.HandleCreateFollowUp | core/action_handler.py:198-224 | Makes exactly one task call with the session's name, phone and address. It succeeds if and only if the tracker returns. Outcome and calls together are `FollowUpEffect`. |
| Actions.ActionHandler.HandleScheduleCallback | core/action_handler.py:126-154 | Raises, with no call made, exactly when the session has no record. Otherwise it makes one scheduler call with the time as passed (the default only when no time was passed at all), the pharmacy name and the notes. On success a follow-up task follows, and the reply is "Callback scheduled for " and the time as Python prints it. A scheduler exception gives the matching failure. Outcome and calls together are `ScheduleCallbackEffect`. |
| Actions.ActionHandler.HandleLogLead | core/action_handler.py:156-196 | Fails without a lead, with no call made. Otherwise it makes exactly one log call with `LeadRecordOf`. It succeeds if and only if the log returns true, and then gives a lead id. Outcome and calls together are `LogLeadEffect`. |
| Actions.ActionHandler.RunHandler | core/action_handler.py:51-78 | Runs the handler for the kind. For the email, callback, log and follow-up kinds, outcome and calls are exactly that handler's effect, with the request's email and time and its task type or "general_follow_up". The two question kinds make no call. Only the email and callback handlers can raise, and only on a session with no record. |
| Actions.ActionHandler.ExecuteAction | core/action_handler.py:37-85 | An unknown name fails with "Unknown action type" and changes nothing. A handler that returns adds exactly one history entry, and a handler that raises adds none. The action list becomes `Recorded` of the result: the action is added once exactly when it succeeded. For each handler kind the result is `Reported` of that handler's effect, and the calls are exactly its calls. The two question kinds give their fixed results with no call. |
| Actions.ActionHandler.GetActionSummary | core/action_handler.py:378-394 | Gives the total, the successful count and their ratio (between 0 and 1), the exact per-action counts summing to the total, and the last five entries. |
| Prompt.FormatLocationInfo | utils/prompt.py:140-153 | Is empty without data or without a city and a state. Otherwise it starts with " in ". |
| Prompt.LocationInfoAgreesWithDisplay | utils/prompt.py:140-153 | The fragment equals " in " plus the session model's location display of the same record. |
| Prompt.FormatRxVolumeInfo | utils/prompt.py:155-168 | Gives the "learn more" sentence without a truthy volume. Otherwise it gives the message of the record's tier. |
| Prompt.BenefitLines | utils/prompt.py:170-195 | Gives one bullet without a volume, four from 10000 and three otherwise. Every line is a bullet. |
| Prompt.BenefitsAreBulletLines | utils/prompt.py:170-195 | Splitting the benefit text at newlines gives back exactly those bullet lines. |
| Prompt.BenefitsHaveNoTrailingNewline | utils/prompt.py:170-195 | The benefit text is non-empty and neither starts nor ends with a newline. |
| Chatbot.VolumePhrase | chatbot.py:300-327 | The greeting's volume sentence is empty if and only if there is no truthy volume. |
| Chatbot.VolumePhraseByTier | chatbot.py:300-327 | High and medium volume get their own sentences. Every other truthy volume gets the growth sentence. |
| Chatbot.LocationPhrase | chatbot.py:300-327 | Gives " in " plus the location display when a city is present, else nothing. |
| Chatbot.GreetingFor | chatbot.py:300-327 | A known pharmacy is greeted by name, then its `LocationPhrase`, then "." with its `VolumePhrase` and the closing question. An unknown caller gets the new-lead questions. |
| Chatbot.GreetingLocation | chatbot.py:300-327 | A known pharmacy's greeting names its location exactly when the record has a city. |
| Chatbot.FallbackFor | chatbot.py:329-335 | Asks for an address if and only if none is on record. |
| Chatbot.FallbackDistinguishesEmail | chatbot.py:329-335 | The two fallbacks differ. |
| Chatbot.RecentWindow | chatbot.py:270 | The model sees the last six messages, or all of them. |
| Chatbot.RecentWindowEndsWithLatest | chatbot.py:270 | The window always ends with the latest message. |
| Chatbot.LlmReply | chatbot.py:237-298 | Gives the stripped completion, or the fallback when the call raised. |
| Chatbot.KnownPharmacy | chatbot.py:85-136 | A caller is known if and only if the lookup returned a non-empty record, which is then converted. |
| Chatbot.EmailTurnActions | chatbot.py:204-221 | After an email turn "send_email" is recorded exactly when it was already or the email went out. "log_lead" is recorded exactly when it was already or the logging ran and succeeded. No other name changes. |
| Chatbot.EmailTurnSteps | chatbot.py:204-221 | A send followed, exactly when the email went out to a caller outside the directory, by a logging step together meet `EmailTurnDone`. |
| Chatbot.PharmacySalesChatbot.constructor | chatbot.py:34-83 | The chatbot starts without a session. Its handler starts with an empty history. |
| Chatbot.PharmacySalesChatbot.StartConversation | chatbot.py:85-136 | Makes exactly one lookup and starts an active session with the pharmacy found, or with a lead when there is none. The greeting is the session's only message. |
| Chatbot.PharmacySalesChatbot.GenerateLlmResponse | chatbot.py:237-298 | Makes exactly one model call. The call carries the manager's `ConversationContext`, the strategy and the recent window. The reply is `LlmReply` of its answer. |
| Chatbot.PharmacySalesChatbot.HandleWithStrategy | chatbot.py:182-235 | The ask strategy runs "ask_for_email" with no call, adds its history entry and records it on the session. The email strategy meets `EmailTurnDone` with `entities.get('email')`, and the callback strategy meets `CallbackTurnDone` with `entities.get('preferred_time')`. Every other strategy, the conversational one and also `acknowledge_intro` and `pricing_discussion`, meets `ModelTurnDone` with the session's context line, and changes neither the history nor the action list. The reply is the action's message, the apology or the model's reply, as the source picks it. |
| Chatbot.PharmacySalesChatbot.EmailTurn | chatbot.py:204-221 | Meets `EmailTurnDone`. The send reports `SendEmailEffect` of the records with the email entity. A lead is logged, on the calls the send left, exactly when the email went out to a caller outside the directory. The calls, the history and the action list (`EmailTurnActions`) are exactly those of the steps that ran. The reply is the result's message or the apology. |
| Chatbot.PharmacySalesChatbot.CallbackTurn | chatbot.py:223-231 | Meets `CallbackTurnDone`. The booking uses the time entity, passed even when it has no value, and reports `ScheduleCallbackEffect`. The calls are exactly its calls. The history gains one "schedule_callback" entry, and the action list records it exactly when the booking succeeded. The reply is the result's message. |
| Chatbot.PharmacySalesChatbot.RunSendEmail | chatbot.py:204-209 | The result and calls are `SendEmailEffect` with the email entity. The history gains one "send_email" entry, and the action list becomes `Recorded` of the result. |
| Chatbot.PharmacySalesChatbot.RunLogLead | chatbot.py:215-217 | The result and calls are `LogLeadEffect` of the lead record. The history gains one "log_lead" entry, and the action list becomes `Recorded` of the result. |
| Chatbot.PharmacySalesChatbot.PrepareTurn | chatbot.py:154-171 | Appends the caller's message and meets `TurnPrepared`: the message is analysed, the entities are merged only when there are some and a lead exists, and the strategy is decided after the merge. The status, the pharmacy record and the action list stay. |
| Chatbot.PharmacySalesChatbot.TakeTurn | chatbot.py:154-174 | Prepares the turn (`TurnPrepared`) and dispatches on the strategy. The history gains only the caller's message, and the status and pharmacy record stay. Each strategy's result, calls, history entries and action list are stated as for `HandleWithStrategy`, on the records after the merge and the history that holds the new message. |
| Chatbot.PharmacySalesChatbot.ProcessMessage | chatbot.py:138-180 | Raises before a session, with no call made. Otherwise the history gains the caller's message and then the reply. The status and pharmacy record stay, the turn meets `TurnPrepared`, and each strategy's result, calls, history entries and action list are stated as for `TakeTurn`, with the message count including the new message. |
| Chatbot.PharmacySalesChatbot.GetConversationSummary | chatbot.py:337-375 | Nothing before a session. Then the summary holds the session's fields and exactly one of the pharmacy and lead parts. Its action summary holds the handler's total, successful count, success rate, exact per-action counts and recent entries. |
| Chatbot.PharmacySalesChatbot.EndConversation | chatbot.py:377-389 | A generic thanks without a session. Otherwise the closing names the session's pharmacy. |
| Legacy.KnownPharmacyGreeting | api/llm.py:73-83 | Opens with the pharmacy's name and contains the location and volume fragments of the same record. |
| Legacy.KnownGreetingShowsLocation | api/llm.py:73-83 | A pharmacy with a city or a state hears its location exactly as the session model displays it. |
| Legacy.OpeningGreeting | api/llm.py:47-71 | A non-empty record gets the known-pharmacy greeting. Otherwise the unknown-caller greeting. |
| Legacy.FirstEmailIn | api/llm.py:205-210 | Gives a word with an "@" and a "." such that no earlier word has both. It gives none if and only if no word has both. |
| Legacy.LastEmailBefore | api/llm.py:180-183 | The scan keeps a word with both among the first n such that no later word among them has both. It gives none if and only if there is none. |
| Legacy.SoleAddressFoundByBothScans | api/llm.py:180-210 | When exactly one word is an address, the first-match and last-match scans agree on it. |
| Legacy.NameEndingAt | api/llm.py:185-191 | At the store word i, from the third word on, the name is the two words before it and the word, joined by spaces. At the second word it is the first two words. |
| Legacy.LastStoreIndex | api/llm.py:185-191 | Gives the last store word after the first word, or 0 if and only if there is none. |
| Legacy.LastStoreName | api/llm.py:185-191 | The name scan leaves the name read at the last store word, or none if and only if there is no store word after the first word. |
| Legacy.IndexOf | api/llm.py:193-200 | Gives the first position of the word. |
| Legacy.LocationAfterIn | api/llm.py:193-200 | Gives the word after the first "in", or none if and only if no "in" has a word after it. |
| Legacy.ScanForEmail | api/llm.py:180-183 | The loop's result equals `LastEmailBefore` over all words. |
| Legacy.ScanForStoreName | api/llm.py:185-191 | The loop's result equals `LastStoreName` over all words. |
| Legacy.ExtractedLead | api/llm.py:175-200 | Never removes a key. The email becomes the last address-shaped word, if any. The name becomes the name at the last store word, if the message mentions "pharmacy" or "drug" and there is one. The location becomes the word after the first "in", if the message mentions "located" or "in " and there is one. Otherwise each field stays. |
| Legacy.EmailTarget | api/llm.py:205-218 | Gives the first address in the message, else a non-empty stored one. It gives none if and only if both are missing. |
| Legacy.LegacyEmailFor | api/llm.py:220-241 | The template is the existing-pharmacy one if and only if the pharmacy is known. The name is the directory name or the lead name, defaulting to "your pharmacy", and the subject ends with it. The contact is always "there". |
| Legacy.NewLeadEmailHasOneBullet | api/llm.py:231-232 | The older lead never holds a volume, so a new lead always gets the single "scalable solutions" bullet. |
| Legacy.SentReply | api/llm.py:251 | The confirmation names the address. |
| Legacy.CallbackTime | api/llm.py:255-262 | One if-and-only-if per slot, on the lower-cased message: "tomorrow during business hours" exactly when it contains "tomorrow"; "this afternoon" exactly when it contains "afternoon" but not "tomorrow"; "tomorrow morning" exactly when it contains "morning" but neither of those; "during business hours" exactly when it contains none of the three. |
| Legacy.TomorrowOutranksTimeOfDay | api/llm.py:255-262 | A message naming tomorrow is booked for "tomorrow during business hours", even when it also names an afternoon or a morning. |
| Legacy.CallbackContact | api/llm.py:264-269 | Gives the directory name, or its default, for a non-empty record. Otherwise it gives a truthy lead name, and else "there". |
| Legacy.ClosingName | api/llm.py:288-298 | Gives the directory name, else the lead name, with "your pharmacy" as the default. |
| Legacy.CallbackAndClosingAgree | api/llm.py:264-298 | The callback and the closing name the same party exactly when a name is known. |
| Legacy.CallbackNotes | api/llm.py:271-277 | The notes give the history's length. |
| Legacy.FollowUpEmail | api/llm.py:279-284 | The follow-up carries an address exactly when the lead has a truthy one. |
| Legacy.CallbackReply | api/llm.py:286 | The confirmation gives the time and the phone. |
| Legacy.Closing | utils/prompt.py:122 | The closing names the pharmacy. |
| Legacy.LlmOutcome | api/llm.py:118-139 | Gives the completion stripped of white space at both ends, or the technical-difficulties apology when the call raised. |
| Legacy.MessageActions | api/llm.py:310-321 | A caller's message shows no action. An assistant message shows "email_sent" if and only if it mentions the sent marker or "email". It shows "callback_scheduled" if and only if it mentions "scheduled a callback" or "callback". When it shows both, they come in that order. |
| Legacy.ActionsShownBy | api/llm.py:313-320 | The loop body gives `MessageActions` of the message. |
| Legacy.ActionsTakenOf | api/llm.py:310-321 | At most two actions per message, each one of the two names. |
| Legacy.ActionsTakenSnoc | api/llm.py:310-321 | One more message adds exactly the actions it shows. |
| Legacy.UserMessageAddsNoAction | api/llm.py:310-321 | A caller's message leaves the summary's actions as they were. |
| Legacy.PharmacyChatbot.constructor | api/llm.py:28-45 | The assistant starts with no history, no pharmacy, an empty lead and no phone. |
| Legacy.PharmacyChatbot.StartConversation | api/llm.py:47-71 | Sets the phone and the pharmacy. The history becomes just the greeting. |
| Legacy.PharmacyChatbot.ExtractLeadInformation | api/llm.py:175-200 | The lead becomes `ExtractedLead` of the message. |
| Legacy.PharmacyChatbot.HandleEmailRequest | api/llm.py:202-251 | Without an address it asks for one, with no call made. Otherwise it makes one mail call with `LegacyEmailFor`. For a new lead it also stores the address and makes one log call. An exception from either call propagates. Outcome, lead and calls together are `EmailRequestEffect`. |
| Legacy.PharmacyChatbot.SendTemplateEmail | api/llm.py:220-251 | The sending half of the email request, for a known address: one mail call with `LegacyEmailFor`. For a new lead whose mail went out it also stores the address and makes one log call. Outcome, lead and calls together are `SendTemplateEffect`. |
| Legacy.PharmacyChatbot.HandleCallbackRequest | api/llm.py:253-286 | Raises before a conversation, with no call made. Otherwise it makes one scheduler call with `CallbackTime`, `CallbackContact` and `CallbackNotes` and, unless that raised, one follow-up call with `FollowUpEmail`. It gives the callback confirmation if and only if both return. Outcome and calls together are `CallbackRequestEffect`. |
| Legacy.PharmacyChatbot.GenerateLlmResponse | api/llm.py:118-139 | Makes exactly one model call with the directory data, the lead, the phone and the history. The reply is `LlmOutcome` of its answer. |
| Legacy.PharmacyChatbot.ProcessUserMessage | api/llm.py:89-116 | Appends the caller's message. An email request is handled first, then a callback request, and neither appends its reply. Otherwise the lead is read when the message has contact details, and the model's reply is appended. Each branch's outcome, lead and calls are stated: `EmailRequestEffect`, then `CallbackRequestEffect` with the history holding the caller's message, then `ModelReplyEffect` over that history. |
| Legacy.PharmacyChatbot.AnswerRequest | api/llm.py:99-105 | The caller's message is appended. An email request is answered by `EmailRequestEffect`, and otherwise the callback request by `CallbackRequestEffect` over the history holding that message. A callback leaves the lead as it was. |
| Legacy.PharmacyChatbot.ReplyWithModel | api/llm.py:108-116 | Reads the lead when the message has contact details, asks the model and appends the reply. Lead, reply and calls together are `ModelReplyEffect`: without a phone the apology with no call, otherwise one model call with the lead as read and `LlmOutcome` of its answer. |
| Legacy.PharmacyChatbot.EndConversation | api/llm.py:288-298 | The closing names `ClosingName` and is appended to the history. |
| Legacy.PharmacyChatbot.GetActionsTaken | api/llm.py:310-321 | The loop's result equals `ActionsTakenOf` of the history. |
| Legacy.PharmacyChatbot.GetConversationSummary | api/llm.py:300-308 | Raises before a conversation. Otherwise it gives the phone, the pharmacy, the lead, the history length and `ActionsTakenOf`. |

## Left out

- Timestamps, `conversation_id`, `started_at` and every clock read are left out. The lead id comes from the clock, so it is an opaque function of the call trace.
- Logging, `DebugContext` and `monitor_performance` are left out. They do not change any value the model states.
- The OpenAI client is left out: the API key check, the model name, the token limits, the prompt prose and the system message text (`_prepare_system_message`, api/llm.py:141-155). The model call is a collaborator, and its arguments are the values the prompt is built from.
- The HTTP client of the pharmacy directory and the health check are left out. The directory is a collaborator.
- The context-manager enter and exit of the chatbot are left out.
- `ActionRequest` (core/models.py:167-187) is left out. No core path constructs it.
- The `metadata` of a message (core/models.py:103-108, 153-158) is left out. No core caller passes any, so it is always empty.
- The fixed prose of the email templates is left out. An email body is the values filled into its slots.
- The older assistant's existing-pharmacy template has no slot for the benefit text, so the model leaves that part of its body empty.
- `Actions.VolumeBenefits` has no ensures. It is the templates' fixed bullet text without their indentation.
- The fallback branch of `_get_volume_benefits` cannot be reached, because every tier has an entry. The model has no such branch.
- Lower-casing, white space and digits are ASCII only. There is no Unicode case folding.
- Regular expressions are written as hand-coded matchers. The email pattern is tested on whitespace-separated words. The name and location patterns are matched segment by segment between "," and ".".
- `ApiRecord.NonEmpty` sees only the seven known keys of a directory record. A dictionary holding only other keys, or only `None` values, is truthy in Python, and the model cannot represent it.
- Models.FromApiResponse: a directory key is either present with a value or absent, so a key present with a `None` value cannot be represented. In Python, `dict.get(key, default)` returns that `None`, so the name or phone would be `None`. The model gives the default instead ("Unknown Pharmacy", "").
- Legacy.KnownPharmacyGreeting, Legacy.LegacyEmailFor, Legacy.CallbackContact and Legacy.ClosingName: for the same reason, a directory name present as `None` gets "your pharmacy" in the model. The source would print "None", for example "calling from None".
- `success_rate` is a `real`, not a floating-point number.
- `list(set(...))[0]` in `analyze_user_message` is an arbitrary element of the set, because Python's set order is not specified.
- Flow.ConversationFlowManager.DetermineResponseStrategy: requires a session for an email request, where the source raises `AttributeError` on a missing session.
- Flow.ConversationFlowManager.AnalyzeUserMessage: requires a session when it has to ask whether one has an email, where the source raises on a missing session.
- Flow.ConversationFlowManager.ContextParts: requires a session with a pharmacy or a lead record. The source cannot reach the case with neither.
- Actions.EmailFor: requires a pharmacy or a lead record. `HandleSendEmail` models the raise the source hits without one.
- Actions.CallbackNoteParts: requires a pharmacy or a lead record. `HandleScheduleCallback` models the raise the source hits without one.
- Legacy.ActionsTakenOf: only the one-message extension (`Legacy.ActionsTakenSnoc`) is proved, not a general law for appending histories.
- The older assistant never appends its email and callback replies to the history. So `_get_actions_taken` never reports them, and the model keeps that (`Legacy.UserMessageAddsNoAction`, `Legacy.PharmacyChatbot.ProcessUserMessage`).
- A message that mentions both an email and a callback is an email request, because the code tests for an email first (`Analysis.EmailBeatsCallback`).
- "calling from" is both a callback keyword and an introduction indicator. The code tests callbacks first, so such a message is never an introduction (`Analysis.CallingFromIsNeverIntroduction`).

## Findings

| source | as written | input that shows it | evidently intended | confidence | as-written member | corrected member |
|---|---|---|---|---|---|---|
| chatbot.py:223-228 with core/action_handler.py:129 | The orchestrator passes `preferred_time=entities.get('preferred_time')`, which is `None` when the message names no time. The handler's `kwargs.get('preferred_time', 'during business hours')` then keeps `None`, because the key is present. | A callback request without a time phrase, such as "Please call me back". The scheduler is booked for `None` and the reply reads "Callback scheduled for None". | The default "during business hours" applies whenever no time was found. | not executed | Actions.PreferredTimeAsWritten, Actions.PreferredTimeDefaultIsBypassed, Actions.ActionHandler.HandleScheduleCallback | Actions.ResolvePreferredTime |

=== FILE: actions.dfy ===
/**
 * The action handler: a dispatcher from action names to handlers that keeps
 * an action history and marks an action as taken on the session only when it
 * succeeded, and the handlers for email, callback, lead logging, follow-up
 * tasks and the two canned questions.
 */
module Actions {
  import opened Wrappers
  import opened Text
  import opened Models
  import opened Effects

  /** The outcome of one action; its timestamp is not modelled. */
  datatype ActionResult = ActionResult(success: bool, message: string, data: Details)

  /** One entry of the action history; its timestamp is not modelled. */
  datatype HistoryEntry = HistoryEntry(action: string, success: bool, details: Details)

  /** The keyword arguments of `execute_action`; a key is present when its field is `Some`. */
  datatype Kwargs = Kwargs(email: Option<Option<string>>, preferredTime: Option<Option<string>>, taskType: Option<string>)

  const NoKwargs: Kwargs := Kwargs(None, None, None)

  datatype ActionKind =
    | SendEmailAction
    | ScheduleCallbackAction
    | LogLeadAction
    | CreateFollowUpAction
    | AskForEmailAction
    | AskForCallbackDetailsAction
  {
    /** The name the action is registered under. */
    function Name(): string {
      match this
      case SendEmailAction => "send_email"
      case ScheduleCallbackAction => "schedule_callback"
      case LogLeadAction => "log_lead"
      case CreateFollowUpAction => "create_follow_up"
      case AskForEmailAction => "ask_for_email"
      case AskForCallbackDetailsAction => "ask_for_callback_details"
    }
  }

  const ActionNames: seq<string> :=
    ["send_email", "schedule_callback", "log_lead", "create_follow_up", "ask_for_email", "ask_for_callback_details"]

  /** The dispatcher's table: the handler registered under a name, if any. */
  function ActionKindOf(name: string): (k: Option<ActionKind>)
    ensures k.Some? ==> k.value.Name() == name
    ensures k.None? <==> name !in ActionNames
  {
    if name == "send_email" then Some(SendEmailAction)
    else if name == "schedule_callback" then Some(ScheduleCallbackAction)
    else if name == "log_lead" then Some(LogLeadAction)
    else if name == "create_follow_up" then Some(CreateFollowUpAction)
    else if name == "ask_for_email" then Some(AskForEmailAction)
    else if name == "ask_for_callback_details" then Some(AskForCallbackDetailsAction)
    else None
  }

  /** Every handler is found under its own name. */
  lemma ActionKindOfName(k: ActionKind)
    ensures ActionKindOf(k.Name()) == Some(k)
  {
  }

  // ---------------------------------------------------------------------------
  // Recipient, templates and notes

  /** `kwargs.get('email') or state.email_address`, with a falsy result meaning "no address". */
  function ResolveRecipient(kwEmail: Option<Option<string>>, stored: Option<string>): (to: Option<string>)
    ensures to.Some? ==> to.value != ""
    ensures kwEmail.Some? && Truthy(kwEmail.value) ==> to == kwEmail.value
    ensures !(kwEmail.Some? && Truthy(kwEmail.value)) ==> to == (if Truthy(stored) then stored else None)
  {
    if kwEmail.Some? && Truthy(kwEmail.value) then kwEmail.value
    else if Truthy(stored) then stored
    else None
  }

  /** An address given with the request takes precedence over the one on record. */
  lemma GivenAddressWins(e: string, stored: Option<string>)
    requires e != ""
    ensures ResolveRecipient(Some(Some(e)), stored) == Some(e)
  {
  }

  /** The benefit bullets of each tier (the template's fixed prose). */
  function VolumeBenefits(t: PharmacyType): seq<string> {
    match t
    case HighVolume => [
      "• Premium tier pricing with significant volume discounts",
      "• Dedicated account manager for personalized service",
      "• Priority inventory allocation and emergency delivery",
      "• Advanced inventory management tools and reporting",
      "• Flexible payment terms and credit options"]
    case MediumVolume => [
      "• Volume-based pricing tiers with competitive rates",
      "• Reliable delivery scheduling (2-3 times per week)",
      "• Account management support and regular check-ins",
      "• Inventory optimization assistance",
      "• Emergency delivery services when needed"]
    case LowVolume => [
      "• Competitive pricing structure designed for growing pharmacies",
      "• Flexible delivery options (weekly or bi-weekly)",
      "• Growth-oriented service packages",
      "• Inventory management support",
      "• No minimum order requirements to start"]
    case Startup => [
      "• Startup-friendly pricing with room to grow",
      "• Flexible minimum order requirements",
      "• Business development support and guidance",
      "• Scalable solutions that adapt to your growth",
      "• Educational resources for pharmacy operations"]
  }

  /** The tier whose benefits a new lead's email describes. */
  function NewLeadTier(rxVolume: Option<int>): (t: PharmacyType)
    ensures t == HighVolume <==> TruthyInt(rxVolume) && rxVolume.value >= 10000
    ensures t == MediumVolume <==> TruthyInt(rxVolume) && 5000 <= rxVolume.value < 10000
    ensures t == LowVolume <==> TruthyInt(rxVolume) && rxVolume.value < 5000
    ensures t == Startup <==> !TruthyInt(rxVolume)
  {
    if TruthyInt(rxVolume) then
      if rxVolume.value >= 10000 then HighVolume
      else if rxVolume.value >= 5000 then MediumVolume
      else LowVolume
    else Startup
  }

  /**
   * The new-lead email agrees with the pharmacy tier except below 1000
   * prescriptions, where a lead is offered the low-volume benefits while a
   * directory pharmacy of the same volume counts as a startup.
   */
  lemma NewLeadTierVersusVolumeTier(rxVolume: Option<int>)
    ensures NewLeadTier(rxVolume) ==
      (if TruthyInt(rxVolume) && rxVolume.value < 1000 then LowVolume else VolumeTier(rxVolume))
  {
  }

  /** The follow-up email for a pharmacy found in the directory. */
  function ExistingPharmacyEmail(p: PharmacyData): (mail: Email)
    ensures mail.subject == "Following up on your call - " + p.name
    ensures mail.body.ExistingPharmacyBody? && mail.body.benefits == VolumeBenefits(p.Tier())
    ensures mail.body.contact == (if Truthy(p.contactPerson) then p.contactPerson.value else "there")
    ensures mail.body.pharmacyName == p.name && mail.body.location == p.LocationDisplay()
    ensures mail.body.volume == (if TruthyInt(p.rxVolume) then IntToString(p.rxVolume.value) else "significant")
  {
    Email(
      "Following up on your call - " + p.name,
      ExistingPharmacyBody(
        if Truthy(p.contactPerson) then p.contactPerson.value else "there",
        p.name,
        if TruthyInt(p.rxVolume) then IntToString(p.rxVolume.value) else "significant",
        VolumeBenefits(p.Tier()),
        p.LocationDisplay()))
  }

  /** The welcome email for a new lead. */
  function NewLeadEmail(lead: LeadData): (mail: Email)
    ensures var name := if Truthy(lead.pharmacyName) then lead.pharmacyName.value else "your pharmacy";
      mail.subject == "Welcome to Pharmesol - " + name
      && mail.body == NewLeadBody(
           if Truthy(lead.contactPerson) then lead.contactPerson.value else "there",
           name, VolumeBenefits(NewLeadTier(lead.rxVolume)))
  {
    var name := if Truthy(lead.pharmacyName) then lead.pharmacyName.value else "your pharmacy";
    Email(
      "Welcome to Pharmesol - " + name,
      NewLeadBody(if Truthy(lead.contactPerson) then lead.contactPerson.value else "there",
                  name, VolumeBenefits(NewLeadTier(lead.rxVolume))))
  }

  /** The email a session gets: by the pharmacy's tier when known, else by the lead's volume. */
  function EmailFor(pharmacy: Option<PharmacyData>, lead: Option<LeadData>): (mail: Email)
    requires pharmacy.Some? || lead.Some?
    ensures pharmacy.Some? ==> mail == ExistingPharmacyEmail(pharmacy.value)
    ensures pharmacy.None? ==> mail == NewLeadEmail(lead.value)
  {
    if pharmacy.Some? then ExistingPharmacyEmail(pharmacy.value)
    else NewLeadEmail(lead.value)
  }

  /** The lead dictionary handed to the lead log. */
  function LeadRecordOf(lead: LeadData): (r: LeadRecord)
    ensures r.pharmacyName == (if Truthy(lead.pharmacyName) then lead.pharmacyName.value else "Unknown")
    ensures r.phone == lead.phone && r.email == lead.email && r.location == lead.location
    ensures r.rxVolume == lead.rxVolume && r.contactPerson == lead.contactPerson && r.notes == lead.notes
    ensures r.completionPercentage == lead.CompletionPercentage()
    ensures lead.interests == [] ==> r.interests == ""
    ensures lead.interests != [] ==> r.interests == Join(lead.interests, ", ")
  {
    LeadRecord(
      if Truthy(lead.pharmacyName) then lead.pharmacyName.value else "Unknown",
      lead.phone, lead.email, lead.location, lead.rxVolume, lead.contactPerson,
      lead.CompletionPercentage(),
      if lead.interests != [] then Join(lead.interests, ", ") else "",
      lead.notes)
  }

  /**
   * The parts of the callback notes: who is calling, the session size and the
   * actions so far, from the session's two records, its message count and its
   * actions taken.
   */
  function CallbackNoteParts(
    pharmacy: Option<PharmacyData>, lead: Option<LeadData>, messageCount: nat, actionsTaken: seq<string>)
    : (parts: seq<string>)
    requires pharmacy.Some? || lead.Some?
    ensures 3 <= |parts| <= 5
    ensures parts[|parts| - 2] == "Conversation length: " + IntToString(messageCount) + " messages"
    ensures parts[|parts| - 1] ==
      "Actions taken: " + (if actionsTaken != [] then Join(actionsTaken, ", ") else "None")
    ensures pharmacy.Some? ==> parts[0] == "Existing pharmacy: " + pharmacy.value.name
    ensures pharmacy.Some? ==> var p := pharmacy.value;
      && |parts| == (if TruthyInt(p.rxVolume) then 4 else 3)
      && (TruthyInt(p.rxVolume) ==> parts[1] == "Volume: " + IntToString(p.rxVolume.value) + "/month")
    ensures pharmacy.None? ==> var l := lead.value;
      && parts[0] == "New lead: " + (if Truthy(l.pharmacyName) then l.pharmacyName.value else "TBD")
      && |parts| == (if TruthyInt(l.rxVolume) then 5 else 4)
      && (TruthyInt(l.rxVolume) ==> parts[1] == "Estimated volume: " + IntToString(l.rxVolume.value) + "/month")
    ensures pharmacy.None? ==>
      parts[|parts| - 3] == "Lead completeness: " + IntToString(lead.value.CompletionPercentage()) + "%"
  {
    var head :=
      if pharmacy.Some? then
        var p := pharmacy.value;
        ["Existing pharmacy: " + p.name]
        + (if TruthyInt(p.rxVolume) then ["Volume: " + IntToString(p.rxVolume.value) + "/month"] else [])
      else
        var lead := lead.value;
        ["New lead: " + (if Truthy(lead.pharmacyName) then lead.pharmacyName.value else "TBD")]
        + (if TruthyInt(lead.rxVolume) then ["Estimated volume: " + IntToString(lead.rxVolume.value) + "/month"] else [])
        + ["Lead completeness: " + IntToString(lead.CompletionPercentage()) + "%"];
    head
    + ["Conversation length: " + IntToString(messageCount) + " messages",
       "Actions taken: " + (if actionsTaken != [] then Join(actionsTaken, ", ") else "None")]
  }

  /** The notes text: the parts joined by " | ". */
  function NotesFor(pharmacy: Option<PharmacyData>, lead: Option<LeadData>, messageCount: nat, actionsTaken: seq<string>)
    : string
    requires pharmacy.Some? || lead.Some?
  {
    Join(CallbackNoteParts(pharmacy, lead, messageCount, actionsTaken), " | ")
  }

  /** `_generate_callback_notes` of a session. */
  function CallbackNotes(st: ConversationState): string
    reads st
    requires st.pharmacyData.Some? || st.leadData.Some?
  {
    NotesFor(st.pharmacyData, st.leadData, |st.messages|, st.actionsTaken)
  }

  /** The notes open with the caller and close with the actions taken. */
  lemma CallbackNotesFrame(st: ConversationState)
    requires st.pharmacyData.Some? || st.leadData.Some?
    ensures st.IsKnownPharmacy() ==> "Existing pharmacy: " + st.pharmacyData.value.name <= CallbackNotes(st)
    ensures !st.IsKnownPharmacy() ==> "New lead: " <= CallbackNotes(st)
    ensures var notes := CallbackNotes(st);
      var tail := "Actions taken: " + (if st.actionsTaken != [] then Join(st.actionsTaken, ", ") else "None");
      |tail| <= |notes| && notes[|notes| - |tail|..] == tail
  {
    var parts := CallbackNoteParts(st.pharmacyData, st.leadData, |st.messages|, st.actionsTaken);
    JoinStartsWithFirst(parts, " | ");
    JoinEndsWithLast(parts, " | ");
    if !st.IsKnownPharmacy() {
      assert "New lead: " <= parts[0];
    }
  }

  /** The preferred time as the handler reads it: `kwargs.get('preferred_time', default)`. */
  function PreferredTimeAsWritten(kw: Option<Option<string>>): (t: Option<string>)
    ensures kw.None? ==> t == Some("during business hours")
    ensures kw.Some? ==> t == kw.value
  {
    if kw.Some? then kw.value else Some("during business hours")
  }

  /**
   * The orchestrator always passes the key, with the value `None` when no time
   * phrase was found, so the default is never used and the confirmation reads
   * "Callback scheduled for None".
   */
  lemma PreferredTimeDefaultIsBypassed()
    ensures PreferredTimeAsWritten(Some(None)) == None
    ensures "Callback scheduled for " + ShowTime(PreferredTimeAsWritten(Some(None))) == "Callback scheduled for None"
  {
  }

  /** `f"{t}"` of an optional time. */
  function ShowTime(t: Option<string>): string {
    if t.Some? then t.value else "None"
  }

  /** The preferred time with the default also applied to a missing value. */
  function ResolvePreferredTime(kw: Option<Option<string>>): (t: string)
    ensures kw.Some? && kw.value.Some? ==> t == kw.value.value
    ensures kw.None? || kw.value.None? ==> t == "during business hours"
    ensures PreferredTimeAsWritten(kw).Some? ==> t == PreferredTimeAsWritten(kw).value
  {
    if kw.Some? && kw.value.Some? then kw.value.value else "during business hours"
  }

  const CollectEmail: Details := map["action_required" := "collect_email"]

  function AskForEmailFirst(pharmacyName: string): string {
    "I'd be happy to send you detailed "
    + "information about our services! Could "
    + "you please provide your email address "
    + "so I can send you everything "
    + pharmacyName + " needs to know about Pharmesol?"
  }

  const AskForEmailLater: string :=
    "To send you our comprehensive service "
    + "information, I'll need your email "
    + "address. What's the best email to reach "
    + "you at?"

  /** `_handle_ask_for_email`: always succeeds; the wording changes after three messages. */
  function AskForEmailResult(messageCount: nat, pharmacyName: string): (r: ActionResult)
    ensures r.success && r.data == CollectEmail
    ensures r.message == if messageCount > 3 then AskForEmailLater else AskForEmailFirst(pharmacyName)
  {
    ActionResult(true, if messageCount > 3 then AskForEmailLater else AskForEmailFirst(pharmacyName), map["action_required" := "collect_email"])
  }

  /** The first wording addresses the caller's pharmacy by name. */
  lemma AskForEmailNamesPharmacy(messageCount: nat, pharmacyName: string)
    requires messageCount <= 3
    ensures Contains(AskForEmailResult(messageCount, pharmacyName).message, pharmacyName)
  {
    ContainsInfix(
      "I'd be happy to send you detailed "
      + "information about our services! Could "
      + "you please provide your email address "
      + "so I can send you everything ",
      pharmacyName, " needs to know about Pharmesol?");
  }

  /** `_handle_ask_for_callback_details`: always succeeds with a fixed question. */
  function AskForCallbackDetailsResult(): (r: ActionResult)
    ensures r.success && r.data == map["action_required" := "collect_callback_details"]
  {
    ActionResult(
      true,
      "I'd be happy to schedule a callback for "
      + "you! What time works best - would you "
      + "prefer morning or afternoon, and which "
      + "day this week?",
      map["action_required" := "collect_callback_details"])
  }

  /** The error Python reports when a session has neither record and a lead field is read. */
  const MissingLeadError: string := "'NoneType' object has no attribute " + "'pharmacy_name'"

  // ---------------------------------------------------------------------------
  // Action summary

  function CountSuccessful(h: seq<HistoryEntry>): (n: nat)
    ensures n <= |h|
  {
    if h == [] then 0 else CountSuccessful(h[..|h| - 1]) + (if h[|h| - 1].success then 1 else 0)
  }

  function CountAction(h: seq<HistoryEntry>, a: string): (n: nat)
    ensures n <= |h|
  {
    if h == [] then 0 else CountAction(h[..|h| - 1], a) + (if h[|h| - 1].action == a then 1 else 0)
  }

  function ActionSet(h: seq<HistoryEntry>): set<string> {
    set e | e in h :: e.action
  }

  /** The last five entries, or all of them. */
  function Recent(h: seq<HistoryEntry>): (r: seq<HistoryEntry>)
    ensures |r| == if |h| < 5 then |h| else 5
    ensures r == h[|h| - |r|..]
  {
    if |h| < 5 then h else h[|h| - 5..]
  }

  /** The sum of the counts of a map. */
  ghost function MapSum(m: map<string, nat>): nat
    decreases |m.Keys|
  {
    if m.Keys == {} then 0
    else
      var k :| k in m.Keys;
      m[k] + MapSum(m - {k})
  }

  lemma {:induction false} MapSumRemove(m: map<string, nat>, k: string)
    requires k in m
    ensures MapSum(m) == m[k] + MapSum(m - {k})
    decreases |m.Keys|
  {
    var j :| j in m.Keys && MapSum(m) == m[j] + MapSum(m - {j});
    if j != k {
      MapSumRemove(m - {j}, k);
      MapSumRemove(m - {k}, j);
      assert (m - {j}) - {k} == (m - {k}) - {j};
    }
  }

  /** Counting one more occurrence of a key adds one to the sum. */
  lemma MapSumIncrement(m: map<string, nat>, k: string)
    ensures MapSum(m[k := (if k in m then m[k] else 0) + 1]) == MapSum(m) + 1
  {
    var m' := m[k := (if k in m then m[k] else 0) + 1];
    MapSumRemove(m', k);
    assert m' - {k} == m - {k};
    if k in m {
      MapSumRemove(m, k);
    } else {
      assert m - {k} == m;
    }
  }

  datatype ActionSummary = ActionSummary(
    totalActions: nat,
    successfulActions: nat,
    successRate: real,
    actionTypes: map<string, nat>,
    recentActions: seq<HistoryEntry>)

  // ---------------------------------------------------------------------------
  // What each handler does, as a function of the session and the trace

  /** What running a handler did: its outcome, a raise included, and the trace after it. */
  datatype Effect = Effect(outcome: Result<ActionResult>, calls: seq<Call>)

  /** `_handle_create_follow_up` after the trace `calls`: one task request, whose failure is reported. */
  function FollowUpEffect(
    env: Environment, phone: string, pharmacy: Option<PharmacyData>, lead: Option<LeadData>,
    taskType: string, calls: seq<Call>): Effect
  {
    var trace := calls + [FollowUp(NameOnRecord(pharmacy, lead), phone, Some(EmailOnRecord(pharmacy, lead)), taskType)];
    var result := match env.tasks(trace)
      case Raised(err) => ActionResult(false, "Follow-up task creation failed: " + err, map[])
      case Ok(details) => ActionResult(true, "Follow-up task created", details);
    Effect(Ok(result), trace)
  }

  /** `_handle_send_email` after the trace `calls`. */
  function SendEmailEffect(
    env: Environment, pharmacy: Option<PharmacyData>, lead: Option<LeadData>,
    kwEmail: Option<Option<string>>, calls: seq<Call>): Effect
  {
    var to := ResolveRecipient(kwEmail, EmailOnRecord(pharmacy, lead));
    if to.None? then Effect(Ok(ActionResult(false, "No email address available", map[])), calls)
    else if pharmacy.None? && lead.None? then Effect(Raised(MissingLeadError), calls)
    else
      var mail := EmailFor(pharmacy, lead);
      var trace := calls + [Mail(to.value, mail.subject, mail.body)];
      var result := match env.mailer(trace)
        case Raised(err) => ActionResult(false, "Email error: " + err, map[])
        case Ok(sent) =>
          if sent then ActionResult(true, "Email sent successfully to " + to.value,
                                    map["email" := to.value, "subject" := mail.subject])
          else ActionResult(false, "Email sending failed", map[]);
      Effect(Ok(result), trace)
  }

  /**
   * `_handle_schedule_callback` after the trace `calls`, for a session with
   * `messageCount` messages and `actionsTaken` recorded: the callback is
   * booked for the time as given, and a booked callback gets a follow-up task.
   */
  function ScheduleCallbackEffect(
    env: Environment, phone: string, pharmacy: Option<PharmacyData>, lead: Option<LeadData>,
    kwTime: Option<Option<string>>, messageCount: nat, actionsTaken: seq<string>, calls: seq<Call>): Effect
  {
    if pharmacy.None? && lead.None? then Effect(Raised(MissingLeadError), calls)
    else
      var time := PreferredTimeAsWritten(kwTime);
      var notes := NotesFor(pharmacy, lead, messageCount, actionsTaken);
      var trace := calls + [Callback(phone, time, NameOnRecord(pharmacy, lead), notes)];
      match env.scheduler(trace)
      case Raised(err) => Effect(Ok(ActionResult(false, "Callback scheduling failed: " + err, map[])), trace)
      case Ok(details) =>
        Effect(Ok(ActionResult(true, "Callback scheduled for " + ShowTime(time), details)),
               FollowUpEffect(env, phone, pharmacy, lead, "callback_follow_up", trace).calls)
  }

  /** `_handle_log_lead` after the trace `calls`. */
  function LogLeadEffect(env: Environment, lead: Option<LeadData>, calls: seq<Call>): Effect {
    if lead.None? then Effect(Ok(ActionResult(false, "No lead data to log", map[])), calls)
    else
      var trace := calls + [Log(LeadRecordOf(lead.value))];
      var result := match env.leadLog(trace)
        case Raised(err) => ActionResult(false, "Lead logging error: " + err, map[])
        case Ok(logged) =>
          if logged then ActionResult(true, "Lead information logged successfully",
                                      map["lead_id" := "LEAD-" + env.leadId(trace)])
          else ActionResult(false, "Lead logging failed", map[]);
      Effect(Ok(result), trace)
  }

  /** What `execute_action` reports for a handler's outcome: a raise becomes a failure. */
  function Reported(e: Effect): (r: ActionResult)
    ensures e.outcome.Ok? ==> r == e.outcome.value
    ensures e.outcome.Raised? ==> !r.success && r.message == "Action failed: " + e.outcome.error
  {
    if e.outcome.Raised? then ActionResult(false, "Action failed: " + e.outcome.error, map[]) else e.outcome.value
  }

  /**
   * The session's action list after an action ran: the name is added, once,
   * exactly when the action succeeded, and every other name keeps its place.
   */
  function Recorded(actions: seq<string>, name: string, r: ActionResult): (after: seq<string>)
    ensures name in after <==> name in actions || r.success
    ensures forall x :: x != name ==> (x in after <==> x in actions)
    ensures actions <= after && |after| <= |actions| + 1
  {
    if r.success then AddOnce(actions, name) else actions
  }

  // ---------------------------------------------------------------------------
  // The handler

  class ActionHandler {
    var actionHistory: seq<HistoryEntry>
    const env: Environment

    constructor (env: Environment)
      ensures this.env == env && actionHistory == []
    {
      this.env := env;
      actionHistory := [];
    }

    /** `_handle_send_email`: resolve the recipient, fill the template, send. */
    method HandleSendEmail(state: ConversationState, kwEmail: Option<Option<string>>) returns (r: Result<ActionResult>)
      modifies env`calls
      ensures var to := ResolveRecipient(kwEmail, state.EmailAddress());
        && (to.None? ==> r == Ok(ActionResult(false, "No email address available", map[])) && env.calls == old(env.calls))
        && (r.Raised? ==> to.Some? && state.pharmacyData.None? && state.leadData.None? && env.calls == old(env.calls))
        && (to.Some? && (state.pharmacyData.Some? || state.leadData.Some?) ==>
              var mail := EmailFor(state.pharmacyData, state.leadData);
              env.calls == old(env.calls) + [Mail(to.value, mail.subject, mail.body)]
              && r.Ok? && (r.value.success <==> env.mailer(env.calls) == Ok(true))
              && (r.value.success ==> r.value == ActionResult(true, "Email sent successfully to " + to.value,
                                                            map["email" := to.value, "subject" := mail.subject]))
              && (env.mailer(env.calls) == Ok(false) ==> r.value == ActionResult(false, "Email sending failed", map[]))
              && (env.mailer(env.calls).Raised? ==>
                    r.value == ActionResult(false, "Email error: " + env.mailer(env.calls).error, map[])))
      ensures Effect(r, env.calls) == old(SendEmailEffect(env, state.pharmacyData, state.leadData, kwEmail, env.calls))
    {
      var to := ResolveRecipient(kwEmail, state.EmailAddress());
      if to.None? {
        return Ok(ActionResult(false, "No email address available", map[]));
      }
      if state.pharmacyData.None? && state.leadData.None? {
        return Raised(MissingLeadError);
      }
      var mail := EmailFor(state.pharmacyData, state.leadData);
      var sent := env.SendEmail(to.value, mail.subject, mail.body);
      match sent {
        case Raised(e) =>
          r := Ok(ActionResult(false, "Email error: " + e, map[]));
        case Ok(success) =>
          if success {
            r := Ok(ActionResult(true, "Email sent successfully to " + to.value,
                                 map["email" := to.value, "subject" := mail.subject]));
          } else {
            r := Ok(ActionResult(false, "Email sending failed", map[]));
          }
      }
    }

    /** `_handle_create_follow_up`: one task, with the phone and the address on record. */
    method HandleCreateFollowUp(state: ConversationState, taskType: string) returns (r: ActionResult)
      modifies env`calls
      ensures env.calls == old(env.calls)
        + [FollowUp(state.CurrentPharmacyName(), state.phoneNumber, Some(state.EmailAddress()), taskType)]
      ensures r.success <==> env.tasks(env.calls).Ok?
      ensures r.success ==> r == ActionResult(true, "Follow-up task created", env.tasks(env.calls).value)
      ensures !r.success ==>
        r == ActionResult(false, "Follow-up task creation failed: " + env.tasks(env.calls).error, map[])
      ensures Effect(Ok(r), env.calls)
        == old(FollowUpEffect(env, state.phoneNumber, state.pharmacyData, state.leadData, taskType, env.calls))
    {
      var task := env.CreateFollowUpTask(state.CurrentPharmacyName(), state.phoneNumber, Some(state.EmailAddress()), taskType);
      match task {
        case Raised(e) =>
          r := ActionResult(false, "Follow-up task creation failed: " + e, map[]);
        case Ok(details) =>
          r := ActionResult(true, "Follow-up task created", details);
      }
    }

    /**
     * `_handle_schedule_callback`: one callback, then a follow-up task created
     * directly (so it is neither recorded in the history nor marked as taken).
     */
    method HandleScheduleCallback(state: ConversationState, kwTime: Option<Option<string>>) returns (r: Result<ActionResult>)
      modifies env`calls
      ensures r.Raised? <==> state.pharmacyData.None? && state.leadData.None?
      ensures r.Raised? ==> env.calls == old(env.calls)
      ensures r.Ok? ==>
        var time := PreferredTimeAsWritten(kwTime);
        var call := Callback(state.phoneNumber, time, state.CurrentPharmacyName(), CallbackNotes(state));
        var scheduled := env.scheduler(old(env.calls) + [call]);
        && (scheduled.Ok? ==>
              env.calls == old(env.calls) + [call,
                FollowUp(state.CurrentPharmacyName(), state.phoneNumber, Some(state.EmailAddress()), "callback_follow_up")]
              && r.value == ActionResult(true, "Callback scheduled for " + ShowTime(time), scheduled.value))
        && (scheduled.Raised? ==>
              env.calls == old(env.calls) + [call]
              && r.value == ActionResult(false, "Callback scheduling failed: " + scheduled.error, map[]))
      ensures Effect(r, env.calls) ==
        old(ScheduleCallbackEffect(env, state.phoneNumber, state.pharmacyData, state.leadData,
                                   kwTime, |state.messages|, state.actionsTaken, env.calls))
    {
      var time := PreferredTimeAsWritten(kwTime);
      var contactName := state.CurrentPharmacyName();
      if state.pharmacyData.None? && state.leadData.None? {
        return Raised(MissingLeadError);
      }
      var notes := CallbackNotes(state);
      var scheduled := env.ScheduleCallback(state.phoneNumber, time, contactName, notes);
      match scheduled {
        case Raised(e) =>
          r := Ok(ActionResult(false, "Callback scheduling failed: " + e, map[]));
        case Ok(details) =>
          var _ := HandleCreateFollowUp(state, "callback_follow_up");
          r := Ok(ActionResult(true, "Callback scheduled for " + ShowTime(time), details));
      }
    }

    /** `_handle_log_lead`: logs the lead record, or fails without one. */
    method HandleLogLead(state: ConversationState) returns (r: ActionResult)
      modifies env`calls
      ensures state.leadData.None? ==>
        r == ActionResult(false, "No lead data to log", map[]) && env.calls == old(env.calls)
      ensures state.leadData.Some? ==>
        env.calls == old(env.calls) + [Log(LeadRecordOf(state.leadData.value))]
        && (r.success <==> env.leadLog(env.calls) == Ok(true))
        && (r.success ==> r.data == map["lead_id" := "LEAD-" + env.leadId(env.calls)])
      ensures Effect(Ok(r), env.calls) == old(LogLeadEffect(env, state.leadData, env.calls))
    {
      if state.leadData.None? {
        return ActionResult(false, "No lead data to log", map[]);
      }
      var logged := env.LogLeadInformation(LeadRecordOf(state.leadData.value));
      match logged {
        case Raised(e) =>
          r := ActionResult(false, "Lead logging error: " + e, map[]);
        case Ok(success) =>
          if success {
            r := ActionResult(true, "Lead information logged successfully",
                              map["lead_id" := "LEAD-" + env.leadId(env.calls)]);
          } else {
            r := ActionResult(false, "Lead logging failed", map[]);
          }
      }
    }

    /** Runs the handler registered for `kind`; only the two handlers that read lead fields can raise. */
    method RunHandler(kind: ActionKind, state: ConversationState, kw: Kwargs) returns (outcome: Result<ActionResult>)
      modifies env`calls
      ensures outcome.Raised? ==>
        (kind == SendEmailAction || kind == ScheduleCallbackAction)
        && state.pharmacyData.None? && state.leadData.None? && env.calls == old(env.calls)
      ensures kind == AskForEmailAction ==>
        outcome == Ok(AskForEmailResult(|state.messages|, state.CurrentPharmacyName())) && env.calls == old(env.calls)
      ensures kind == AskForCallbackDetailsAction ==>
        outcome == Ok(AskForCallbackDetailsResult()) && env.calls == old(env.calls)
      ensures kind == SendEmailAction ==>
        Effect(outcome, env.calls) == old(SendEmailEffect(env, state.pharmacyData, state.leadData, kw.email, env.calls))
      ensures kind == ScheduleCallbackAction ==>
        Effect(outcome, env.calls) ==
        old(ScheduleCallbackEffect(env, state.phoneNumber, state.pharmacyData, state.leadData,
                                   kw.preferredTime, |state.messages|, state.actionsTaken, env.calls))
      ensures kind == LogLeadAction ==> Effect(outcome, env.calls) == old(LogLeadEffect(env, state.leadData, env.calls))
      ensures kind == CreateFollowUpAction ==>
        Effect(outcome, env.calls)
        == old(FollowUpEffect(env, state.phoneNumber, state.pharmacyData, state.leadData,
                              kw.taskType.GetOr("general_follow_up"), env.calls))
    {
      match kind {
        case SendEmailAction =>
          outcome := HandleSendEmail(state, kw.email);
        case ScheduleCallbackAction =>
          outcome := HandleScheduleCallback(state, kw.preferredTime);
        case LogLeadAction =>
          var result := HandleLogLead(state);
          outcome := Ok(result);
        case CreateFollowUpAction =>
          var result := HandleCreateFollowUp(state, kw.taskType.GetOr("general_follow_up"));
          outcome := Ok(result);
        case AskForEmailAction =>
          outcome := Ok(AskForEmailResult(|state.messages|, state.CurrentPharmacyName()));
        case AskForCallbackDetailsAction =>
          outcome := Ok(AskForCallbackDetailsResult());
      }
    }

    /**
     * `execute_action`: an unknown name fails and changes nothing; a handler
     * that returns adds exactly one history entry and, on success, marks the
     * action on the session; a handler that raises adds neither.
     */
    method ExecuteAction(actionType: string, state: ConversationState, kw: Kwargs) returns (r: ActionResult)
      modifies this`actionHistory, state`actionsTaken, env`calls
      ensures ActionKindOf(actionType).None? ==>
        r == ActionResult(false, "Unknown action type: " + actionType, map[])
        && actionHistory == old(actionHistory) && env.calls == old(env.calls)
        && state.actionsTaken == old(state.actionsTaken)
      ensures actionHistory == old(actionHistory)
        || actionHistory == old(actionHistory) + [HistoryEntry(actionType, r.success, r.data)]
      ensures actionHistory == old(actionHistory) ==> !r.success && state.actionsTaken == old(state.actionsTaken)
      ensures actionHistory != old(actionHistory) ==>
        state.actionsTaken == (if r.success then AddOnce(old(state.actionsTaken), actionType) else old(state.actionsTaken))
      ensures state.actionsTaken == Recorded(old(state.actionsTaken), actionType, r)
      ensures ActionKindOf(actionType).Some? && actionHistory == old(actionHistory) ==> "Action failed: " <= r.message
      ensures ActionKindOf(actionType).Some? && (state.pharmacyData.Some? || state.leadData.Some?) ==>
        actionHistory == old(actionHistory) + [HistoryEntry(actionType, r.success, r.data)]
      ensures ActionKindOf(actionType) == Some(AskForEmailAction) ==>
        r == AskForEmailResult(|old(state.messages)|, old(state.CurrentPharmacyName())) && env.calls == old(env.calls)
      ensures ActionKindOf(actionType) == Some(AskForCallbackDetailsAction) ==>
        r == AskForCallbackDetailsResult() && env.calls == old(env.calls)
      ensures ActionKindOf(actionType) == Some(SendEmailAction) ==>
        var e := old(SendEmailEffect(env, state.pharmacyData, state.leadData, kw.email, env.calls));
        r == Reported(e) && env.calls == e.calls
      ensures ActionKindOf(actionType) == Some(ScheduleCallbackAction) ==>
        var e := old(ScheduleCallbackEffect(env, state.phoneNumber, state.pharmacyData, state.leadData,
                                            kw.preferredTime, |state.messages|, state.actionsTaken, env.calls));
        r == Reported(e) && env.calls == e.calls
      ensures ActionKindOf(actionType) == Some(LogLeadAction) ==>
        var e := old(LogLeadEffect(env, state.leadData, env.calls));
        r == Reported(e) && env.calls == e.calls
      ensures ActionKindOf(actionType) == Some(CreateFollowUpAction) ==>
        var e := old(FollowUpEffect(env, state.phoneNumber, state.pharmacyData, state.leadData,
                                    kw.taskType.GetOr("general_follow_up"), env.calls));
        r == Reported(e) && env.calls == e.calls
      ensures old(state.Valid()) ==> state.Valid()
    {
      var kind := ActionKindOf(actionType);
      if kind.None? {
        return ActionResult(false, "Unknown action type: " + actionType, map[]);
      }
      var outcome := RunHandler(kind.value, state, kw);
      if outcome.Raised? {
        return ActionResult(false, "Action failed: " + outcome.error, map[]);
      }
      r := outcome.value;
      actionHistory := actionHistory + [HistoryEntry(actionType, r.success, r.data)];
      if r.success {
        state.AddAction(actionType);
      }
    }

    /** `get_action_summary`: totals, per-action counts and the most recent entries. */
    method GetActionSummary() returns (s: ActionSummary)
      ensures s.totalActions == |actionHistory|
      ensures s.successfulActions == CountSuccessful(actionHistory) <= s.totalActions
      ensures s.successRate ==
        (if s.totalActions > 0 then s.successfulActions as real / s.totalActions as real else 0.0)
      ensures 0.0 <= s.successRate <= 1.0
      ensures s.actionTypes.Keys == ActionSet(actionHistory)
      ensures forall a :: a in s.actionTypes ==> s.actionTypes[a] == CountAction(actionHistory, a)
      ensures MapSum(s.actionTypes) == s.totalActions
      ensures s.recentActions == Recent(actionHistory)
    {
      var h := actionHistory;
      var successful := CountSuccesses(h);
      var counts := CountActions(h);
      var total := |h|;
      var rate := 0.0;
      if total > 0 {
        RatioBounds(successful, total);
        rate := successful as real / total as real;
      }
      s := ActionSummary(total, successful, rate, counts, if h != [] then Recent(h) else []);
    }
  }

  /** A share of a positive total lies between zero and one. */
  lemma RatioBounds(part: nat, total: nat)
    requires 0 < total && part <= total
    ensures 0.0 <= part as real / total as real <= 1.0
  {
    var q := part as real / total as real;
    assert q * total as real == part as real;
  }

  /** The successful entries, counted in one pass. */
  method CountSuccesses(h: seq<HistoryEntry>) returns (n: nat)
    ensures n == CountSuccessful(h)
  {
    n := 0;
    var i := 0;
    while i < |h|
      invariant 0 <= i <= |h|
      invariant n == CountSuccessful(h[..i])
    {
      assert h[..i + 1][..i] == h[..i];
      if h[i].success {
        n := n + 1;
      }
      i := i + 1;
    }
    assert h[..|h|] == h;
  }

  /** `counts` holds exactly the per-name counts of the first `n` entries. */
  ghost predicate CountsExact(h: seq<HistoryEntry>, n: nat, counts: map<string, nat>)
    requires n <= |h|
  {
    counts.Keys == ActionSet(h[..n]) && forall a :: a in counts ==> counts[a] == CountAction(h[..n], a)
  }

  /** The entries per action name, counted in one pass. */
  method CountActions(h: seq<HistoryEntry>) returns (counts: map<string, nat>)
    ensures counts.Keys == ActionSet(h)
    ensures forall a :: a in counts ==> counts[a] == CountAction(h, a)
    ensures MapSum(counts) == |h|
  {
    counts := map[];
    var i := 0;
    while i < |h|
      invariant 0 <= i <= |h|
      invariant CountsExact(h, i, counts)
      invariant MapSum(counts) == i
    {
      var a := h[i].action;
      CountStep(h, i, counts);
      MapSumIncrement(counts, a);
      counts := counts[a := (if a in counts then counts[a] else 0) + 1];
      i := i + 1;
    }
    assert h[..|h|] == h;
  }

  /** One step of `CountActions`: incrementing the count of `h[i]` keeps the counts exact. */
  lemma CountStep(h: seq<HistoryEntry>, i: nat, counts: map<string, nat>)
    requires i < |h|
    requires CountsExact(h, i, counts)
    ensures var a := h[i].action;
      CountsExact(h, i + 1, counts[a := (if a in counts then counts[a] else 0) + 1])
  {
    var a := h[i].action;
    var next := counts[a := (if a in counts then counts[a] else 0) + 1];
    assert h[..i + 1][..i] == h[..i];
    assert h[..i + 1] == h[..i] + [h[i]];
    assert ActionSet(h[..i + 1]) == ActionSet(h[..i]) + {a};
    if a !in counts {
      CountActionAbsent(h[..i], a);
    }
    forall b | b in next
      ensures next[b] == CountAction(h[..i + 1], b)
    {
      assert CountAction(h[..i + 1], b) == CountAction(h[..i], b) + (if a == b then 1 else 0);
    }
  }

  /** An action that never occurs has count zero. */
  lemma {:induction false} CountActionAbsent(h: seq<HistoryEntry>, a: string)
    requires a !in ActionSet(h)
    ensures CountAction(h, a) == 0
  {
    if h != [] {
      assert h[|h| - 1] in h;
      assert a !in ActionSet(h[..|h| - 1]) by {
        forall e | e in h[..|h| - 1] ensures e.action != a {
          assert e in h;
        }
      }
      CountActionAbsent(h[..|h| - 1], a);
    }
  }
}

=== FILE: analysis.dfy ===
/**
 * Message analysis: the keyword decision list that picks an intent and the
 * pattern-based extractors that pull entities out of free text.
 *
 * The extractors follow the regular expressions of the conversation manager
 * with their leftmost-match and greedy semantics written out over runs of
 * characters other than `,` and `.` (a "segment"); case-insensitive matching
 * compares the ASCII-lowered message, and captures are cut from the original.
 */
module Analysis {
  import opened Wrappers
  import opened Text

  datatype Intent =
    | Unclear
    | GeneralInquiry
    | RequestEmail
    | RequestCallback
    | PharmacyIntroduction
    | PricingInquiry
    | Greeting
  {
    function Value(): string {
      match this
      case Unclear => "unclear"
      case GeneralInquiry => "general_inquiry"
      case RequestEmail => "request_email"
      case RequestCallback => "request_callback"
      case PharmacyIntroduction => "pharmacy_introduction"
      case PricingInquiry => "pricing_inquiry"
      case Greeting => "greeting"
    }
  }

  // ---------------------------------------------------------------------------
  // Intent decision list

  const EmailKeywords: seq<string> := ["email", "send me", "mail me", "information", "details", "send"]
  const CallbackKeywords: seq<string> := ["callback", "call back", "call me", "schedule", "call", "phone"]
  const IntroductionIndicators: seq<string> :=
    ["pharmacy", "calling from", "i'm from", "located", "we fill", "prescriptions"]
  const PricingKeywords: seq<string> := ["pricing", "price", "cost", "rates", "volume", "discount", "competitive"]
  const GreetingKeywords: seq<string> := ["hello", "hi", "hey", "good morning", "good afternoon"]

  predicate IsEmailRequest(lower: string) { ContainsAny(lower, EmailKeywords) }
  predicate IsCallbackRequest(lower: string) { ContainsAny(lower, CallbackKeywords) }
  predicate IsPharmacyIntroduction(lower: string) { ContainsAny(lower, IntroductionIndicators) }
  predicate IsPricingInquiry(lower: string) { ContainsAny(lower, PricingKeywords) }
  predicate IsGreeting(lower: string) { ContainsAny(lower, GreetingKeywords) }

  /** The intent of a message: the first rule of the decision list that fires. */
  function ClassifyIntent(message: string): (intent: Intent)
    ensures intent == Unclear <==> message == ""
    ensures message != "" ==> var m := Lower(message);
      && (intent == RequestEmail <==> IsEmailRequest(m))
      && (intent == RequestCallback <==> !IsEmailRequest(m) && IsCallbackRequest(m))
      && (intent == PharmacyIntroduction <==>
            !IsEmailRequest(m) && !IsCallbackRequest(m) && IsPharmacyIntroduction(m))
      && (intent == PricingInquiry <==>
            !IsEmailRequest(m) && !IsCallbackRequest(m) && !IsPharmacyIntroduction(m) && IsPricingInquiry(m))
      && (intent == Greeting <==>
            !IsEmailRequest(m) && !IsCallbackRequest(m) && !IsPharmacyIntroduction(m)
            && !IsPricingInquiry(m) && IsGreeting(m))
      && (intent == GeneralInquiry <==>
            !IsEmailRequest(m) && !IsCallbackRequest(m) && !IsPharmacyIntroduction(m)
            && !IsPricingInquiry(m) && !IsGreeting(m))
  {
    if message == "" then Unclear
    else
      var m := Lower(message);
      if IsEmailRequest(m) then RequestEmail
      else if IsCallbackRequest(m) then RequestCallback
      else if IsPharmacyIntroduction(m) then PharmacyIntroduction
      else if IsPricingInquiry(m) then PricingInquiry
      else if IsGreeting(m) then Greeting
      else GeneralInquiry
  }

  /** The fixed confidence reported with each intent. */
  function Confidence(intent: Intent): (c: real)
    ensures 0.0 <= c <= 1.0
    ensures c == 0.0 <==> intent == Unclear
  {
    match intent
    case Unclear => 0.0
    case GeneralInquiry => 0.5
    case RequestEmail => 0.8
    case RequestCallback => 0.8
    case PharmacyIntroduction => 0.9
    case PricingInquiry => 0.7
    case Greeting => 0.6
  }

  /** A message asking both for an email and for a callback is an email request. */
  lemma EmailBeatsCallback(message: string)
    requires Contains(Lower(message), "email") && Contains(Lower(message), "callback")
    ensures ClassifyIntent(message) == RequestEmail
  {
    assert "email" in EmailKeywords;
  }

  /**
   * "calling from" contains "call", a callback keyword, so a caller who
   * introduces themselves that way is never classified as an introduction.
   */
  lemma CallingFromIsNeverIntroduction(message: string)
    requires Contains(Lower(message), "calling from")
    ensures ClassifyIntent(message) in {RequestEmail, RequestCallback}
  {
    assert OccursAt("calling from", "call", 0);
    ContainsTransitive(Lower(message), "calling from", "call");
    assert "call" in CallbackKeywords;
  }

  // ---------------------------------------------------------------------------
  // Preferred callback time

  const TimePhrases: seq<string> := [
    "tomorrow morning", "tomorrow afternoon", "tomorrow",
    "this afternoon", "this morning", "next week",
    "monday", "tuesday", "wednesday", "thursday", "friday"]

  /** Phrase `k` occurs in `m` and no phrase before it does. */
  predicate IsFirstContained(m: string, phrases: seq<string>, k: int) {
    0 <= k < |phrases| && Contains(m, phrases[k]) && forall j :: 0 <= j < k ==> !Contains(m, phrases[j])
  }

  /** The first of `phrases`, in list order, that occurs in `m`. */
  function FirstContained(m: string, phrases: seq<string>): (r: Option<string>)
    ensures r.Some? ==> exists k :: IsFirstContained(m, phrases, k) && phrases[k] == r.value
    ensures r.None? <==> forall k :: 0 <= k < |phrases| ==> !Contains(m, phrases[k])
    decreases |phrases|
  {
    if phrases == [] then None
    else if Contains(m, phrases[0]) then
      assert IsFirstContained(m, phrases, 0);
      Some(phrases[0])
    else
      var r := FirstContained(m, phrases[1..]);
      assert forall k :: 1 <= k < |phrases| ==> phrases[k] == phrases[1..][k - 1];
      assert r.Some? ==> exists k :: IsFirstContained(m, phrases, k) && phrases[k] == r.value by {
        if r.Some? {
          var k :| IsFirstContained(m, phrases[1..], k) && phrases[1..][k] == r.value;
          assert IsFirstContained(m, phrases, k + 1);
        }
      }
      r
  }

  /** The callback time the (lowered) message mentions: the first phrase of the fixed priority list it contains. */
  function ExtractTimePreference(lower: string): (r: Option<string>)
    ensures r.Some? ==> exists k :: IsFirstContained(lower, TimePhrases, k) && r.value == TimePhrases[k]
    ensures r.None? <==> forall k :: 0 <= k < |TimePhrases| ==> !Contains(lower, TimePhrases[k])
  {
    FirstContained(lower, TimePhrases)
  }

  /** A phrase listed before a shorter one it contains wins: "tomorrow afternoon" is never read as "tomorrow". */
  lemma TomorrowAfternoonBeatsTomorrow(lower: string)
    requires Contains(lower, "tomorrow afternoon") && !Contains(lower, "tomorrow morning")
    ensures ExtractTimePreference(lower) == Some("tomorrow afternoon")
  {
    var r := ExtractTimePreference(lower);
    var k :| IsFirstContained(lower, TimePhrases, k) && r.value == TimePhrases[k];
    assert Contains(lower, TimePhrases[1]);
    assert !Contains(lower, TimePhrases[0]);
  }

  // ---------------------------------------------------------------------------
  // Email addresses

  predicate IsLocalChar(c: char) { IsLetter(c) || IsDigit(c) || c in "._%+-" }
  predicate IsDomainChar(c: char) { IsLetter(c) || IsDigit(c) || c in ".-" }

  /** `local@host.tld`: a non-empty local part, one `@`, and a top-level domain of two or more letters. */
  predicate IsEmailToken(w: string) {
    exists a | 0 < a < |w| :: w[a] == '@'
      && (forall i :: 0 <= i < a ==> IsLocalChar(w[i]))
      && (forall i :: a < i < |w| ==> IsDomainChar(w[i]))
      && exists d | a + 1 < d < |w| - 2 :: w[d] == '.' && forall i :: d < i < |w| ==> IsLetter(w[i])
  }

  /** The distinct email addresses of a message, as whitespace-separated words. */
  function ExtractEmails(message: string): (emails: set<string>)
    ensures forall e :: e in emails ==> IsEmailToken(e) && e in Words(message)
    ensures forall w :: w in Words(message) && IsEmailToken(w) ==> w in emails
  {
    set w | w in Words(message) && IsEmailToken(w)
  }

  // ---------------------------------------------------------------------------
  // Pharmacy name and location

  predicate IsDelimiter(c: char) { c == ',' || c == '.' }

  /** End of the greedy run `[^,.]*` that starts at `i`. */
  function SegmentEnd(s: string, i: nat): (e: nat)
    requires i <= |s|
    ensures i <= e <= |s| && (e == |s| || IsDelimiter(s[e]))
    ensures forall k :: i <= k < e ==> !IsDelimiter(s[k])
    decreases |s| - i
  {
    if i == |s| || IsDelimiter(s[i]) then i else SegmentEnd(s, i + 1)
  }

  /** End of the greedy run `\s*` that starts at `i`. */
  function SpaceEnd(s: string, i: nat): (e: nat)
    requires i <= |s|
    ensures i <= e <= |s| && (e == |s| || !IsSpace(s[e]))
    ensures forall k :: i <= k < e ==> IsSpace(s[k])
    decreases |s| - i
  {
    if i == |s| || !IsSpace(s[i]) then i else SpaceEnd(s, i + 1)
  }

  /** The shapes of the name and location patterns. */
  datatype Pattern =
    | Run(prefix: string)                       // prefix([^,.]+)
    | RunEndingWith(prefix: string, word: string) // prefix([^,.]+word)
    | RunAround(word: string)                  // ([^,.]*word[^,.]*)
    | RunWithState(prefix: string)              // prefix([^,.]+,?\s*[A-Z]{2})

  const NamePatterns: seq<Pattern> :=
    [Run("calling from "), Run("i'm from "), RunEndingWith("at ", "pharmacy"), RunAround("pharmacy")]
  const LocationPatterns: seq<Pattern> :=
    [RunWithState("in "), Run("located in "), RunWithState("from ")]

  /** The last start `k` in `[lo, hi)` of `word` lying wholly before `hi`, searching down from `k0`. */
  function LastOccurrence(l: string, word: string, lo: nat, k0: int, hi: nat): (r: Option<nat>)
    requires hi <= |l|
    ensures r.Some? ==> lo <= r.value <= k0 && r.value + |word| <= hi && OccursAt(l, word, r.value)
    ensures r.Some? ==> forall k :: r.value < k <= k0 && k + |word| <= hi ==> !OccursAt(l, word, k)
    ensures r.None? ==> forall k :: lo <= k <= k0 && k + |word| <= hi ==> !OccursAt(l, word, k)
    decreases k0 - lo
  {
    if k0 < lo then None
    else if k0 + |word| <= hi && OccursAt(l, word, k0) then Some(k0)
    else LastOccurrence(l, word, lo, k0 - 1, hi)
  }

  /** Where `,?\s*[A-Z]{2}` ends when tried at `p`, if it matches there. */
  function StateCodeEnd(s: string, p: nat): (r: Option<nat>)
    requires p <= |s|
    ensures r.Some? ==> p + 2 <= r.value <= |s| && IsLetter(s[r.value - 1]) && IsLetter(s[r.value - 2])
  {
    var q := if p < |s| && s[p] == ',' then p + 1 else p;
    var r := SpaceEnd(s, q);
    if r + 2 <= |s| && IsLetter(s[r]) && IsLetter(s[r + 1]) then Some(r + 2) else None
  }

  /** The largest split point `p` in `(c, p0]` at which a state code follows. */
  function LastStateSplit(s: string, c: nat, p0: nat): (r: Option<nat>)
    requires p0 <= |s|
    ensures r.Some? ==> c < r.value <= p0 && StateCodeEnd(s, r.value).Some?
    ensures r.None? ==> forall p :: c < p <= p0 ==> StateCodeEnd(s, p).None?
    decreases p0
  {
    if p0 <= c then None
    else if StateCodeEnd(s, p0).Some? then Some(p0)
    else LastStateSplit(s, c, p0 - 1)
  }

  /** The text group 1 of `pat` captures when its match starts at `i`, if it matches there. */
  function MatchAt(pat: Pattern, l: string, s: string, i: nat): (r: Option<string>)
    requires |l| == |s| && i <= |s|
  {
    match pat
    case Run(prefix) =>
      if !OccursAt(l, prefix, i) then None
      else
        var c := i + |prefix|;
        var e := SegmentEnd(s, c);
        if e > c then Some(s[c..e]) else None
    case RunEndingWith(prefix, word) =>
      if !OccursAt(l, prefix, i) then None
      else
        var c := i + |prefix|;
        var e := SegmentEnd(s, c);
        (match LastOccurrence(l, word, c + 1, e - 1, e)
         case Some(k) => Some(s[c..k + |word|])
         case None => None)
    case RunAround(word) =>
      var e := SegmentEnd(s, i);
      if LastOccurrence(l, word, i, e - 1, e).Some? then Some(s[i..e]) else None
    case RunWithState(prefix) =>
      if !OccursAt(l, prefix, i) then None
      else
        var c := i + |prefix|;
        var e := SegmentEnd(s, c);
        (match LastStateSplit(s, c, e)
         case Some(p) => Some(s[c..StateCodeEnd(s, p).value])
         case None => None)
  }

  /** `re.search`: the match of `pat` with the leftmost start at or after `i`. */
  function Search(pat: Pattern, l: string, s: string, i: nat): (r: Option<string>)
    requires |l| == |s| && i <= |s| + 1
    ensures r.Some? ==> exists j :: (i <= j <= |s| && MatchAt(pat, l, s, j) == r
      && forall k :: i <= k < j ==> MatchAt(pat, l, s, k).None?)
    ensures r.None? ==> forall k :: i <= k <= |s| ==> MatchAt(pat, l, s, k).None?
    decreases |s| + 1 - i
  {
    if i > |s| then None
    else if MatchAt(pat, l, s, i).Some? then MatchAt(pat, l, s, i)
    else Search(pat, l, s, i + 1)
  }

  /** Entry `k` is the first success among `results`. */
  predicate IsFirstSome(results: seq<Option<string>>, k: int) {
    0 <= k < |results| && results[k].Some? && forall j :: 0 <= j < k ==> results[j].None?
  }

  /** The first success, in list order. */
  function FirstSome(results: seq<Option<string>>): (r: Option<string>)
    ensures r.Some? ==> exists k :: IsFirstSome(results, k) && r == results[k]
    ensures r.None? <==> forall k :: 0 <= k < |results| ==> results[k].None?
    decreases |results|
  {
    if results == [] then None
    else if results[0].Some? then
      assert IsFirstSome(results, 0);
      results[0]
    else
      var r := FirstSome(results[1..]);
      assert forall k :: 1 <= k < |results| ==> results[k] == results[1..][k - 1];
      assert r.Some? ==> exists k :: IsFirstSome(results, k) && r == results[k] by {
        if r.Some? {
          var k :| IsFirstSome(results[1..], k) && r == results[1..][k];
          assert IsFirstSome(results, k + 1);
        }
      }
      r
  }

  /** Pattern `k` is the first of `pats` that `search` finds. */
  predicate IsFirstHit(pats: seq<Pattern>, search: Pattern -> Option<string>, k: int) {
    0 <= k < |pats| && search(pats[k]).Some? && forall j :: 0 <= j < k ==> search(pats[j]).None?
  }

  /** The stripped capture of the first pattern, in list order, that `search` finds. */
  function FirstCapture(pats: seq<Pattern>, search: Pattern -> Option<string>): (r: Option<string>)
    ensures r.Some? ==> exists k :: IsFirstHit(pats, search, k) && r.value == Strip(search(pats[k]).value)
    ensures r.None? <==> forall k :: 0 <= k < |pats| ==> search(pats[k]).None?
  {
    var results := seq(|pats|, k requires 0 <= k < |pats| => search(pats[k]));
    assert forall j :: 0 <= j < |pats| ==> results[j] == search(pats[j]);
    var first := FirstSome(results);
    assert first.Some? ==> exists k :: IsFirstHit(pats, search, k) && first == search(pats[k]) by {
      if first.Some? {
        var k :| IsFirstSome(results, k) && first == results[k];
        assert IsFirstHit(pats, search, k);
      }
    }
    if first.Some? then Some(Strip(first.value)) else None
  }

  /** `re.search` of a pattern over the lowered message, with captures cut from the original. */
  function SearchIn(message: string): Pattern -> Option<string> {
    pat => Search(pat, Lower(message), message, 0)
  }

  /** Pattern `k` is the first of `pats` that matches anywhere in the message, ignoring case. */
  predicate IsFirstMatch(pats: seq<Pattern>, message: string, k: int) {
    0 <= k < |pats| && Search(pats[k], Lower(message), message, 0).Some?
    && forall j :: 0 <= j < k ==> Search(pats[j], Lower(message), message, 0).None?
  }

  /** The stripped capture of the first pattern, in list order, that matches anywhere. */
  function FirstPatternCapture(pats: seq<Pattern>, message: string): (r: Option<string>)
    ensures r.Some? ==> exists k :: (IsFirstMatch(pats, message, k)
      && r.value == Strip(Search(pats[k], Lower(message), message, 0).value))
    ensures r.None? <==> forall k :: 0 <= k < |pats| ==> Search(pats[k], Lower(message), message, 0).None?
  {
    var r := FirstCapture(pats, SearchIn(message));
    assert r.Some? ==> exists k :: (IsFirstMatch(pats, message, k)
      && r.value == Strip(Search(pats[k], Lower(message), message, 0).value)) by {
      if r.Some? {
        var k :| IsFirstHit(pats, SearchIn(message), k) && r.value == Strip(SearchIn(message)(pats[k]).value);
        assert IsFirstMatch(pats, message, k);
      }
    }
    r
  }

  /** `_extract_pharmacy_info`: an optional pharmacy name and an optional location. */
  datatype PharmacyInfo = PharmacyInfo(pharmacyName: Option<string>, location: Option<string>)

  /**
   * The name is the stripped capture of the first name pattern that matches
   * anywhere, the location that of the first location pattern; a key is
   * absent when none of its patterns matches.
   */
  function ExtractPharmacyInfo(message: string): (info: PharmacyInfo)
    ensures info.pharmacyName.Some? ==> exists k :: (IsFirstMatch(NamePatterns, message, k)
      && info.pharmacyName.value == Strip(Search(NamePatterns[k], Lower(message), message, 0).value))
    ensures info.pharmacyName.None? <==>
      forall k :: 0 <= k < |NamePatterns| ==> Search(NamePatterns[k], Lower(message), message, 0).None?
    ensures info.location.Some? ==> exists k :: (IsFirstMatch(LocationPatterns, message, k)
      && info.location.value == Strip(Search(LocationPatterns[k], Lower(message), message, 0).value))
    ensures info.location.None? <==>
      forall k :: 0 <= k < |LocationPatterns| ==> Search(LocationPatterns[k], Lower(message), message, 0).None?
  {
    PharmacyInfo(FirstPatternCapture(NamePatterns, message), FirstPatternCapture(LocationPatterns, message))
  }

  // ---------------------------------------------------------------------------
  // Prescription volume

  /** The shapes of the volume patterns. */
  datatype VolumePattern =
    | NumberBefore(word: string)  // (\d+,?\d*)\s*word
    | NumberAfter(word: string)   // word.*?(\d+,?\d*)

  const VolumePatterns: seq<VolumePattern> :=
    [NumberBefore("prescriptions"), NumberBefore("rx"), NumberAfter("volume"), NumberAfter("fill")]

  /** End of the greedy run `\d*` that starts at `i`. */
  function DigitEnd(s: string, i: nat): (e: nat)
    requires i <= |s|
    ensures i <= e <= |s| && (e == |s| || !IsDigit(s[e]))
    ensures forall k :: i <= k < e ==> IsDigit(s[k])
    decreases |s| - i
  {
    if i == |s| || !IsDigit(s[i]) then i else DigitEnd(s, i + 1)
  }

  /** End of the greedy `\d+,?\d*` that starts at the digit `s[g]`. */
  function NumberEnd(s: string, g: nat): (e: nat)
    requires g < |s| && IsDigit(s[g])
    ensures g < e <= |s|
  {
    var d := DigitEnd(s, g);
    if d < |s| && s[d] == ',' then DigitEnd(s, d + 1) else d
  }

  /** The lazy `.*?` followed by a digit: the first digit at or after `j` on the same line. */
  function FirstDigitOnLine(s: string, j: nat): (r: Option<nat>)
    requires j <= |s|
    ensures r.Some? ==> j <= r.value < |s| && IsDigit(s[r.value])
    decreases |s| - j
  {
    if j == |s| || s[j] == '\n' then None
    else if IsDigit(s[j]) then Some(j)
    else FirstDigitOnLine(s, j + 1)
  }

  /** The number group 1 captures when the match starts at `i`, if it matches there. */
  function VolumeMatchAt(pat: VolumePattern, l: string, s: string, i: nat): (r: Option<string>)
    requires |l| == |s| && i <= |s|
    ensures r.Some? ==> (r.value != [] && IsDigit(r.value[0])
      && forall k :: 0 <= k < |r.value| ==> IsDigit(r.value[k]) || r.value[k] == ',')
  {
    match pat
    case NumberBefore(word) =>
      if i < |s| && IsDigit(s[i]) then
        var e := NumberEnd(s, i);
        if OccursAt(l, word, SpaceEnd(s, e)) then Some(s[i..e]) else None
      else None
    case NumberAfter(word) =>
      if !OccursAt(l, word, i) then None
      else
        (match FirstDigitOnLine(s, i + |word|)
         case Some(g) => Some(s[g..NumberEnd(s, g)])
         case None => None)
  }

  /** `j` is the leftmost start at or after `i` where `pat` matches. */
  predicate IsLeftmostVolumeMatch(pat: VolumePattern, l: string, s: string, i: nat, j: int) {
    |l| == |s| && i <= j <= |s| && VolumeMatchAt(pat, l, s, j).Some?
    && forall k :: i <= k < j ==> VolumeMatchAt(pat, l, s, k).None?
  }

  /** `re.search` for a volume pattern: the match with the leftmost start at or after `i`. */
  function VolumeSearch(pat: VolumePattern, l: string, s: string, i: nat): (r: Option<string>)
    requires |l| == |s| && i <= |s| + 1
    ensures r.Some? ==> exists j :: IsLeftmostVolumeMatch(pat, l, s, i, j) && VolumeMatchAt(pat, l, s, j) == r
    ensures r.None? ==> forall k :: i <= k <= |s| ==> VolumeMatchAt(pat, l, s, k).None?
    decreases |s| + 1 - i
  {
    if i > |s| then None
    else if VolumeMatchAt(pat, l, s, i).Some? then
      assert IsLeftmostVolumeMatch(pat, l, s, i, i);
      VolumeMatchAt(pat, l, s, i)
    else
      var r := VolumeSearch(pat, l, s, i + 1);
      assert r.Some? ==> exists j :: IsLeftmostVolumeMatch(pat, l, s, i, j) && VolumeMatchAt(pat, l, s, j) == r by {
        if r.Some? {
          var j :| IsLeftmostVolumeMatch(pat, l, s, i + 1, j) && VolumeMatchAt(pat, l, s, j) == r;
          assert IsLeftmostVolumeMatch(pat, l, s, i, j);
        }
      }
      r
  }

  /** Dropping the separator from a captured number leaves a non-empty run of digits. */
  lemma {:induction false} RemoveCommaKeepsDigits(c: string)
    requires forall k :: 0 <= k < |c| ==> IsDigit(c[k]) || c[k] == ','
    ensures AllDigits(Remove(c, ','))
    ensures c != [] && IsDigit(c[0]) ==> Remove(c, ',') != []
    decreases |c|
  {
    if c != [] {
      RemoveCommaKeepsDigits(c[1..]);
    }
  }

  /** Every captured number parses, so `int()` never raises on a capture. */
  lemma CapturedNumberParses(pat: VolumePattern, l: string, s: string, i: nat)
    requires |l| == |s| && i <= |s| + 1
    requires VolumeSearch(pat, l, s, i).Some?
    ensures ParseNat(Remove(VolumeSearch(pat, l, s, i).value, ',')).Some?
  {
    var c := VolumeSearch(pat, l, s, i).value;
    RemoveCommaKeepsDigits(c);
  }

  /** Pattern `k` is the first of `pats` that matches anywhere in the message. */
  predicate IsFirstVolumeHit(pats: seq<VolumePattern>, message: string, k: int) {
    0 <= k < |pats| && VolumeSearch(pats[k], Lower(message), message, 0).Some?
    && forall j :: 0 <= j < k ==> VolumeSearch(pats[j], Lower(message), message, 0).None?
  }

  /**
   * The first pattern, in list order, whose capture parses, with commas
   * dropped; since every capture parses, that is the first pattern that matches.
   */
  function VolumeFrom(pats: seq<VolumePattern>, message: string): (r: Option<nat>)
    ensures r.Some? ==> exists k :: (IsFirstVolumeHit(pats, message, k)
      && r == ParseNat(Remove(VolumeSearch(pats[k], Lower(message), message, 0).value, ',')))
    ensures r.None? <==> forall k :: 0 <= k < |pats| ==> VolumeSearch(pats[k], Lower(message), message, 0).None?
    decreases |pats|
  {
    if pats == [] then None
    else
      var r := VolumeFrom(pats[1..], message);
      assert forall k :: 1 <= k < |pats| ==> pats[k] == pats[1..][k - 1];
      match VolumeSearch(pats[0], Lower(message), message, 0)
      case Some(capture) =>
        CapturedNumberParses(pats[0], Lower(message), message, 0);
        assert IsFirstVolumeHit(pats, message, 0);
        (match ParseNat(Remove(capture, ','))
         case Some(v) => Some(v)
         case None => r)
      case None =>
        assert r.Some? ==> exists k :: (IsFirstVolumeHit(pats, message, k)
          && r == ParseNat(Remove(VolumeSearch(pats[k], Lower(message), message, 0).value, ','))) by {
          if r.Some? {
            var k :| IsFirstVolumeHit(pats[1..], message, k)
              && r == ParseNat(Remove(VolumeSearch(pats[1..][k], Lower(message), message, 0).value, ','));
            assert IsFirstVolumeHit(pats, message, k + 1);
          }
        }
        r
  }

  /**
   * `_extract_rx_volume`: the number captured by the first volume pattern
   * that matches anywhere, at its leftmost match, with commas dropped.
   */
  function ExtractRxVolume(message: string): (r: Option<nat>)
    ensures r.Some? ==> exists k :: (IsFirstVolumeHit(VolumePatterns, message, k)
      && r == ParseNat(Remove(VolumeSearch(VolumePatterns[k], Lower(message), message, 0).value, ',')))
    ensures r.None? <==> forall k :: 0 <= k < |VolumePatterns| ==>
      VolumeSearch(VolumePatterns[k], Lower(message), message, 0).None?
  {
    VolumeFrom(VolumePatterns, message)
  }
}

=== FILE: chatbot.dfy ===
/**
 * The orchestrator of the sales assistant: it starts a session from a
 * directory lookup and then, turn by turn, appends the caller's message,
 * analyses it, merges what it found into the lead, decides a strategy,
 * dispatches to an action or to the language model, and appends the reply.
 *
 * The chatbot and its flow manager share one session object: the chatbot's
 * `conversationState` is the manager's `state`.
 */
module Chatbot {
  import opened Wrappers
  import opened Text
  import opened Models
  import opened Analysis
  import opened Flow
  import opened Effects
  import opened Actions

  const NotStartedError: string :=
    "Conversation not started. "
    + "Call start_conversation() first."

  const NewLeadGreeting: string :=
    "Thank you for calling Pharmesol! "
    + "I don't have your information in our "
    + "system yet.\n\nCould you please tell me:\n"
    + "1. Your pharmacy name\n2. Your location  \n"
    + "3. Approximately how many "
    + "prescriptions you fill per month\n\n"
    + "This will help me understand how we "
    + "can best support your pharmacy's needs."

  const HighVolumePhrase: string :=
    " With your high prescription volume, "
    + "you'd be an excellent fit for our "
    + "premium tier services."

  const MediumVolumePhrase: string :=
    " Your prescription volume puts you in "
    + "a great position to benefit from our "
    + "bulk pricing."

  const GrowthPhrase: string :=
    " We can offer competitive pricing and "
    + "room to grow with our flexible service "
    + "options."

  const EmailFallback: string :=
    "I'd be happy to help you with "
    + "information about Pharmesol's services. "
    + "Could you please provide your email "
    + "address so I can send you detailed "
    + "information?"

  const SpecialistFallback: string :=
    "Thank you for your interest in "
    + "Pharmesol. Let me connect you with one "
    + "of our specialists who can provide "
    + "detailed information about our "
    + "services. Would you prefer a callback "
    + "or email follow-up?"

  const EmailApology: string :=
    "I apologize, but I'm having trouble "
    + "sending the email right now. Could you "
    + "please provide your email address "
    + "again?"

  const GreetingOpening: string := "Great! I see you're calling from "
  const GreetingClosing: string := " How can Pharmesol help you today?"

  /** The volume sentence of the greeting: none without a volume. */
  function VolumePhrase(rxVolume: Option<int>): (s: string)
    ensures s == "" <==> !TruthyInt(rxVolume)
  {
    if !TruthyInt(rxVolume) then ""
    else if rxVolume.value >= 10000 then HighVolumePhrase
    else if rxVolume.value >= 5000 then MediumVolumePhrase
    else GrowthPhrase
  }

  /**
   * The phrase follows the directory's tiers at the top; every other truthy
   * volume, including one the directory counts as a startup, gets the growth
   * phrase.
   */
  lemma VolumePhraseByTier(rxVolume: Option<int>)
    requires TruthyInt(rxVolume)
    ensures VolumePhrase(rxVolume) ==
      match VolumeTier(rxVolume)
      case HighVolume => HighVolumePhrase
      case MediumVolume => MediumVolumePhrase
      case _ => GrowthPhrase
  {
  }

  /** The location part of the greeting: present only with a city. */
  function LocationPhrase(p: PharmacyData): (s: string)
    ensures Truthy(p.city) ==> s == " in " + p.LocationDisplay()
    ensures !Truthy(p.city) ==> s == ""
  {
    if Truthy(p.city) then " in " + p.LocationDisplay() else ""
  }

  /** `_generate_greeting`: the pharmacy by name when known, else the new-lead questions. */
  function GreetingFor(p: Option<PharmacyData>): (g: string)
    ensures p.None? ==> g == NewLeadGreeting
    ensures p.Some? ==> GreetingOpening + p.value.name <= g
    ensures p.Some? ==>
      var tail := "." + VolumePhrase(p.value.rxVolume) + GreetingClosing;
      |g| == |GreetingOpening + p.value.name| + |LocationPhrase(p.value)| + |tail|
      && g[|GreetingOpening + p.value.name|..|g| - |tail|] == LocationPhrase(p.value)
      && g[|g| - |tail|..] == tail
  {
    if p.None? then NewLeadGreeting
    else
      var head := GreetingOpening + p.value.name;
      var rest := "." + VolumePhrase(p.value.rxVolume) + GreetingClosing;
      assert head <= head + (LocationPhrase(p.value) + rest);
      head + LocationPhrase(p.value) + rest
  }

  /** A known pharmacy's greeting names its location exactly when the record has a city. */
  lemma GreetingLocation(p: PharmacyData)
    ensures Truthy(p.city) ==> Contains(GreetingFor(Some(p)), " in " + p.LocationDisplay())
    ensures !Truthy(p.city) ==>
      GreetingFor(Some(p)) == GreetingOpening + p.name + ("." + VolumePhrase(p.rxVolume) + GreetingClosing)
  {
    var head := GreetingOpening + p.name;
    var rest := "." + VolumePhrase(p.rxVolume) + GreetingClosing;
    if Truthy(p.city) {
      ContainsInfix(head, LocationPhrase(p), rest);
    } else {
      assert head + LocationPhrase(p) == head;
    }
  }

  /** `_generate_fallback_response`: ask for an email iff none is on record. */
  function FallbackFor(hasEmail: bool): (s: string)
    ensures !hasEmail ==> s == EmailFallback
    ensures hasEmail ==> s == SpecialistFallback
  {
    if !hasEmail then EmailFallback else SpecialistFallback
  }

  /** The two fallbacks differ, so the reply tells whether an email is on record. */
  lemma FallbackDistinguishesEmail()
    ensures FallbackFor(true) != FallbackFor(false)
  {
    assert EmailFallback[0] == 'I';
    assert SpecialistFallback[0] == 'T';
  }

  /** The history the language model sees: the last six messages, or all of them. */
  function RecentWindow(ms: seq<ConversationMessage>): (w: seq<ConversationMessage>)
    ensures |w| == if |ms| < 6 then |ms| else 6
    ensures w == ms[|ms| - |w|..]
  {
    if |ms| < 6 then ms else ms[|ms| - 6..]
  }

  /** The window always ends with the latest message. */
  lemma RecentWindowEndsWithLatest(ms: seq<ConversationMessage>, m: ConversationMessage)
    ensures var w := RecentWindow(ms + [m]); w != [] && w[|w| - 1] == m
  {
  }

  /** The reply of the language-model path: the stripped text, or the fallback when the call raised. */
  function LlmReply(reply: Result<string>, hasEmail: bool): (s: string)
    ensures reply.Ok? ==> s == Strip(reply.value)
    ensures reply.Raised? ==> s == FallbackFor(hasEmail)
  {
    if reply.Ok? then Strip(reply.value) else FallbackFor(hasEmail)
  }

  /** The pharmacy a lookup yields: none when it raised or returned an empty record. */
  function KnownPharmacy(found: Result<Option<ApiRecord>>): (p: Option<PharmacyData>)
    ensures p.Some? <==> found.Ok? && found.value.Some? && found.value.value.NonEmpty()
    ensures p.Some? ==> p.value == FromApiResponse(found.value.value)
  {
    if found.Ok? && found.value.Some? && found.value.value.NonEmpty() then Some(FromApiResponse(found.value.value))
    else None
  }

  /**
   * The history after an email turn: the `send_email` entry, then a `log_lead`
   * entry exactly when the email to a caller outside the directory was sent.
   */
  ghost predicate EmailTurnHistory(h0: seq<HistoryEntry>, h: seq<HistoryEntry>, sent: ActionResult, knownPharmacy: bool) {
    var logs := sent.success && !knownPharmacy;
    |h| == |h0| + (if logs then 2 else 1)
    && h[..|h0| + 1] == h0 + [HistoryEntry("send_email", sent.success, sent.data)]
    && (logs ==> h[|h0| + 1].action == "log_lead")
  }

  /**
   * The session's actions after an email turn: `send_email` once the email
   * went out, then `log_lead` once the new lead was logged; `logged` is the
   * outcome of the logging when it ran.
   */
  function EmailTurnActions(actions: seq<string>, sent: ActionResult, logged: Option<ActionResult>): (after: seq<string>)
    ensures "send_email" in after <==> "send_email" in actions || sent.success
    ensures "log_lead" in after <==> "log_lead" in actions || (logged.Some? && logged.value.success)
    ensures forall x :: x != "send_email" && x != "log_lead" ==> (x in after <==> x in actions)
  {
    var afterSend := Recorded(actions, "send_email", sent);
    if logged.Some? then Recorded(afterSend, "log_lead", logged.value) else afterSend
  }

  /** `entities.get('preferred_time')`: the time phrase, or `None` when the key is absent or holds no value. */
  function PreferredTimeEntity(e: Entities): Option<string> {
    if e.preferredTime.Some? then e.preferredTime.value else None
  }

  /**
   * The first half of a turn, on values: `a` is the analysis of `message`,
   * the lead `lead0` absorbed its entities into `lead` when there were any,
   * and `s` is the strategy for the intent, where `hasEmail` says whether an
   * address is on record after the merge.
   */
  ghost predicate TurnPrepared(
    message: string, lead0: Option<LeadData>, a: MessageAnalysis, s: Strategy, lead: Option<LeadData>, hasEmail: bool)
  {
    && lead == (if a.entities.NonEmpty() && lead0.Some? then Some(MergeEntities(lead0.value, a.entities)) else lead0)
    && a.intent == ClassifyIntent(message) && a.confidence == Confidence(a.intent)
    && (s.responseType == SendEmail <==> a.intent == RequestEmail && hasEmail)
    && (s.responseType == AskForEmail <==> a.intent == RequestEmail && !hasEmail)
    && (s.responseType == ScheduleCallback <==> a.intent == RequestCallback)
  }

  /**
   * A turn the language model answers, on values: exactly one completion call
   * with context line `context`, strategy `s` and `window` is appended to
   * `calls0`, and the reply is the model's answer to it, or the fallback when
   * it raised.
   */
  ghost predicate ModelTurnDone(
    env: Environment, context: string, s: Strategy, window: seq<ConversationMessage>, hasEmail: bool,
    calls0: seq<Call>, calls: seq<Call>, response: string)
  {
    && |calls| == |calls0| + 1 && calls[..|calls0|] == calls0
    && calls[|calls0|].Completion? && calls[|calls0|].context == context
    && calls[|calls0|].strategy == s && calls[|calls0|].window == window
    && response == LlmReply(env.model(calls), hasEmail)
  }

  /**
   * An email turn, from the session's values before it (`calls0`, `actions0`,
   * `h0`) to those after it: `send_email` ran with the `email` entity and
   * reported `sent`; when that email went out to a caller outside the
   * directory, `log_lead` ran next on the calls the send left; the action list
   * and the history record both runs.
   */
  ghost predicate EmailTurnDone(
    env: Environment, pharmacy: Option<PharmacyData>, lead: Option<LeadData>, email: Option<string>,
    calls0: seq<Call>, actions0: seq<string>, h0: seq<HistoryEntry>,
    sent: ActionResult, calls: seq<Call>, actions: seq<string>, h: seq<HistoryEntry>)
  {
    var e := SendEmailEffect(env, pharmacy, lead, Some(email), calls0);
    var logs := sent.success && pharmacy.None?;
    && sent == Reported(e)
    && calls == (if logs then LogLeadEffect(env, lead, e.calls).calls else e.calls)
    && actions == EmailTurnActions(actions0, sent, if logs then Some(Reported(LogLeadEffect(env, lead, e.calls))) else None)
    && EmailTurnHistory(h0, h, sent, pharmacy.Some?)
  }

  /** An email turn put together from its two steps: the send, then the logging when it ran. */
  lemma EmailTurnSteps(
    env: Environment, pharmacy: Option<PharmacyData>, lead: Option<LeadData>, email: Option<string>,
    calls0: seq<Call>, actions0: seq<string>, h0: seq<HistoryEntry>,
    sent: ActionResult, calls1: seq<Call>, actions1: seq<string>, h1: seq<HistoryEntry>,
    logged: Option<ActionResult>, calls: seq<Call>, actions: seq<string>, h: seq<HistoryEntry>)
    requires var e := SendEmailEffect(env, pharmacy, lead, Some(email), calls0);
      sent == Reported(e) && calls1 == e.calls
    requires actions1 == Recorded(actions0, "send_email", sent)
    requires h1 == h0 + [HistoryEntry("send_email", sent.success, sent.data)]
    requires logged.Some? <==> sent.success && pharmacy.None?
    requires logged.None? ==> calls == calls1 && actions == actions1 && h == h1
    requires logged.Some? ==>
      var l := LogLeadEffect(env, lead, calls1);
      && logged.value == Reported(l) && calls == l.calls
      && actions == Recorded(actions1, "log_lead", logged.value)
      && h == h1 + [HistoryEntry("log_lead", logged.value.success, logged.value.data)]
    ensures EmailTurnDone(env, pharmacy, lead, email, calls0, actions0, h0, sent, calls, actions, h)
  {
  }

  /**
   * A callback turn, from the session's values before it to those after it:
   * `schedule_callback` ran with the `preferred_time` entity `time` and
   * reported `booked`, which the history records and, on success, the action
   * list too.
   */
  ghost predicate CallbackTurnDone(
    env: Environment, phone: string, pharmacy: Option<PharmacyData>, lead: Option<LeadData>, time: Option<string>,
    messageCount: nat, calls0: seq<Call>, actions0: seq<string>, h0: seq<HistoryEntry>,
    booked: ActionResult, calls: seq<Call>, actions: seq<string>, h: seq<HistoryEntry>)
  {
    var e := ScheduleCallbackEffect(env, phone, pharmacy, lead, Some(time), messageCount, actions0, calls0);
    && booked == Reported(e) && calls == e.calls
    && actions == Recorded(actions0, "schedule_callback", booked)
    && h == h0 + [HistoryEntry("schedule_callback", booked.success, booked.data)]
  }

  datatype PharmacySummary = PharmacySummary(name: string, location: string, pharmacyType: string, volume: Option<int>)

  datatype LeadSummary = LeadSummary(
    pharmacyName: Option<string>, completionPercentage: nat, hasEmail: bool, estimatedVolume: Option<int>)

  datatype ConversationSummary = ConversationSummary(
    phoneNumber: string,
    status: string,
    messageCount: nat,
    actionsTaken: seq<string>,
    isKnownPharmacy: bool,
    hasEmail: bool,
    pharmacy: Option<PharmacySummary>,
    lead: Option<LeadSummary>,
    actionSummary: ActionSummary)

  class PharmacySalesChatbot {
    const manager: ConversationFlowManager
    const handler: ActionHandler
    const env: Environment
    var conversationState: ConversationState?

    /** The handler uses this chatbot's collaborators, and a started session is the manager's. */
    ghost predicate Valid()
      reads this, manager, handler, conversationState
    {
      handler.env == env
      && (conversationState != null ==> conversationState == manager.state && conversationState.Valid())
    }

    constructor (env: Environment)
      ensures Valid() && this.env == env && conversationState == null
      ensures fresh(manager) && fresh(handler) && manager.state == null && handler.actionHistory == []
    {
      this.env := env;
      manager := new ConversationFlowManager();
      handler := new ActionHandler(env);
      conversationState := null;
    }

    /** `start_conversation`: look the caller up, start the session, greet. */
    method StartConversation(phone: string) returns (greeting: string)
      requires Valid()
      modifies this, manager, env`calls
      ensures Valid()
      ensures env.calls == old(env.calls) + [Lookup(phone)]
      ensures conversationState != null && fresh(conversationState)
      ensures conversationState.pharmacyData == KnownPharmacy(env.directory(env.calls))
      ensures conversationState.leadData.Some? <==> conversationState.pharmacyData.None?
      ensures conversationState.phoneNumber == phone && conversationState.status == Active
      ensures conversationState.actionsTaken == []
      ensures conversationState.messages == [ConversationMessage(Assistant, greeting)]
      ensures greeting == GreetingFor(conversationState.pharmacyData)
    {
      var found := env.FindPharmacyByPhone(phone);
      var pharmacy := KnownPharmacy(found);
      var st := manager.StartConversation(phone, pharmacy);
      conversationState := st;
      greeting := GreetingFor(pharmacy);
      st.AddMessage(Assistant, greeting);
    }

    /** The language-model path: context, strategy and the recent window, or the fallback. */
    method GenerateLlmResponse(s: Strategy) returns (response: string)
      requires Valid() && conversationState != null
      modifies env`calls
      ensures |env.calls| == |old(env.calls)| + 1 && env.calls[..|old(env.calls)|] == old(env.calls)
      ensures var c := env.calls[|old(env.calls)|];
        c.Completion? && c.strategy == s && c.window == RecentWindow(conversationState.messages)
        && c.context == manager.ConversationContext()
        && c.context == SessionContext(conversationState.phoneNumber, conversationState.status,
                                       |conversationState.messages|, conversationState.pharmacyData,
                                       conversationState.leadData)
      ensures response == LlmReply(env.model(env.calls), conversationState.HasEmail())
    {
      var context := manager.ConversationContext();
      var window := RecentWindow(conversationState.messages);
      var reply := env.Complete(context, s, window);
      response := LlmReply(reply, conversationState.HasEmail());
    }

    /**
     * `_handle_message_with_strategy`: the two question and callback types
     * answer with the action's message, an email answers with its message or
     * the apology (and logs a new lead on success), and everything else goes
     * to the language model. `action` is the result of the first action run.
     */
    method HandleWithStrategy(a: MessageAnalysis, s: Strategy) returns (response: string, ghost action: Option<ActionResult>)
      requires Valid() && conversationState != null
      modifies conversationState`actionsTaken, handler`actionHistory, env`calls
      ensures Valid()
      ensures s.responseType == AskForEmail ==>
        action == Some(AskForEmailResult(|conversationState.messages|, conversationState.CurrentPharmacyName()))
        && response == action.value.message && env.calls == old(env.calls)
        && handler.actionHistory == old(handler.actionHistory) + [HistoryEntry("ask_for_email", true, CollectEmail)]
        && conversationState.actionsTaken == AddOnce(old(conversationState.actionsTaken), "ask_for_email")
      ensures s.responseType == SendEmail ==>
        action.Some?
        && response == (if action.value.success then action.value.message else EmailApology)
        && EmailTurnDone(env, conversationState.pharmacyData, conversationState.leadData, a.entities.email,
                         old(env.calls), old(conversationState.actionsTaken), old(handler.actionHistory),
                         action.value, env.calls, conversationState.actionsTaken, handler.actionHistory)
      ensures s.responseType == ScheduleCallback ==>
        action.Some? && response == action.value.message
        && CallbackTurnDone(env, conversationState.phoneNumber, conversationState.pharmacyData,
                            conversationState.leadData, PreferredTimeEntity(a.entities), |conversationState.messages|,
                            old(env.calls), old(conversationState.actionsTaken), old(handler.actionHistory),
                            action.value, env.calls, conversationState.actionsTaken, handler.actionHistory)
      ensures s.responseType.ModelAnswers() ==>
        action.None? && handler.actionHistory == old(handler.actionHistory)
        && conversationState.actionsTaken == old(conversationState.actionsTaken)
        && ModelTurnDone(env, SessionContext(conversationState.phoneNumber, conversationState.status,
                                             |conversationState.messages|, conversationState.pharmacyData,
                                             conversationState.leadData),
                         s, RecentWindow(conversationState.messages), conversationState.HasEmail(),
                         old(env.calls), env.calls, response)
    {
      var st := conversationState;
      if s.responseType == AskForEmail {
        var result := handler.ExecuteAction("ask_for_email", st, NoKwargs);
        action := Some(result);
        response := result.message;
      } else if s.responseType == SendEmail {
        var result;
        response, result := EmailTurn(a);
        action := Some(result);
      } else if s.responseType == ScheduleCallback {
        var result;
        response, result := CallbackTurn(a);
        action := Some(result);
      } else {
        action := None;
        response := GenerateLlmResponse(s);
      }
    }

    /**
     * The email strategy: send to the address in the message, else the one on
     * record; a new lead is logged once the email went out.
     */
    method EmailTurn(a: MessageAnalysis) returns (response: string, sent: ActionResult)
      requires Valid() && conversationState != null
      modifies conversationState`actionsTaken, handler`actionHistory, env`calls
      ensures Valid()
      ensures response == (if sent.success then sent.message else EmailApology)
      ensures EmailTurnDone(env, conversationState.pharmacyData, conversationState.leadData, a.entities.email,
                            old(env.calls), old(conversationState.actionsTaken), old(handler.actionHistory),
                            sent, env.calls, conversationState.actionsTaken, handler.actionHistory)
    {
      var st := conversationState;
      ghost var calls0, actions0, h0 := env.calls, st.actionsTaken, handler.actionHistory;
      sent := RunSendEmail(a.entities.email);
      ghost var calls1, actions1, h1 := env.calls, st.actionsTaken, handler.actionHistory;
      ghost var logged: Option<ActionResult> := None;
      if sent.success {
        if !st.IsKnownPharmacy() {
          var l := RunLogLead();
          logged := Some(l);
        }
        response := sent.message;
      } else {
        response := EmailApology;
      }
      EmailTurnSteps(env, st.pharmacyData, st.leadData, a.entities.email, calls0, actions0, h0,
                     sent, calls1, actions1, h1, logged, env.calls, st.actionsTaken, handler.actionHistory);
    }

    /** `execute_action('send_email', ...)` with the message's `email` entity. */
    method RunSendEmail(email: Option<string>) returns (sent: ActionResult)
      requires Valid() && conversationState != null
      modifies conversationState`actionsTaken, handler`actionHistory, env`calls
      ensures Valid()
      ensures var e := SendEmailEffect(env, conversationState.pharmacyData, conversationState.leadData,
                                       Some(email), old(env.calls));
        && sent == Reported(e) && env.calls == e.calls
        && conversationState.actionsTaken == Recorded(old(conversationState.actionsTaken), "send_email", sent)
        && handler.actionHistory == old(handler.actionHistory) + [HistoryEntry("send_email", sent.success, sent.data)]
    {
      sent := handler.ExecuteAction("send_email", conversationState, NoKwargs.(email := Some(email)));
    }

    /** `execute_action('log_lead')`. */
    method RunLogLead() returns (logged: ActionResult)
      requires Valid() && conversationState != null
      modifies conversationState`actionsTaken, handler`actionHistory, env`calls
      ensures Valid()
      ensures var e := LogLeadEffect(env, conversationState.leadData, old(env.calls));
        && logged == Reported(e) && env.calls == e.calls
        && conversationState.actionsTaken == Recorded(old(conversationState.actionsTaken), "log_lead", logged)
        && handler.actionHistory == old(handler.actionHistory) + [HistoryEntry("log_lead", logged.success, logged.data)]
    {
      logged := handler.ExecuteAction("log_lead", conversationState, NoKwargs);
    }

    /** The callback strategy: book for the time phrase of the message, which may be missing. */
    method CallbackTurn(a: MessageAnalysis) returns (response: string, booked: ActionResult)
      requires Valid() && conversationState != null
      modifies conversationState`actionsTaken, handler`actionHistory, env`calls
      ensures Valid()
      ensures response == booked.message
      ensures CallbackTurnDone(env, conversationState.phoneNumber, conversationState.pharmacyData,
                               conversationState.leadData, PreferredTimeEntity(a.entities), |conversationState.messages|,
                               old(env.calls), old(conversationState.actionsTaken), old(handler.actionHistory),
                               booked, env.calls, conversationState.actionsTaken, handler.actionHistory)
    {
      // the key is always passed, possibly with no value
      var time := PreferredTimeEntity(a.entities);
      booked := handler.ExecuteAction("schedule_callback", conversationState, NoKwargs.(preferredTime := Some(time)));
      response := booked.message;
    }

    /**
     * The first half of a turn: the caller's message is appended, analysed and
     * merged into the lead, and only then is the strategy decided.
     */
    method PrepareTurn(message: string) returns (a: MessageAnalysis, s: Strategy)
      requires Valid() && conversationState != null
      modifies conversationState
      ensures Valid()
      ensures var st := conversationState;
        && st.messages == old(st.messages) + [ConversationMessage(User, message)]
        && st.pharmacyData == old(st.pharmacyData) && st.actionsTaken == old(st.actionsTaken)
        && st.status == old(st.status)
        && TurnPrepared(message, old(st.leadData), a, s, st.leadData, st.HasEmail())
    {
      var st := conversationState;
      st.AddMessage(User, message);
      a := manager.AnalyzeUserMessage(message);
      if a.entities.NonEmpty() && st.leadData.Some? {
        manager.UpdateLeadData(a.entities);
      }
      s := manager.DetermineResponseStrategy(a);
    }

    /** A turn of `process_message` up to the reply: prepare it, then dispatch on the strategy. */
    method TakeTurn(message: string) returns (response: string, a: MessageAnalysis, s: Strategy, ghost action: Option<ActionResult>)
      requires Valid() && conversationState != null
      modifies conversationState, handler`actionHistory, env`calls
      ensures Valid()
      ensures var st := conversationState;
        && st.messages == old(st.messages) + [ConversationMessage(User, message)]
        && st.pharmacyData == old(st.pharmacyData) && st.status == old(st.status)
        && TurnPrepared(message, old(st.leadData), a, s, st.leadData, st.HasEmail())
      ensures s.responseType == AskForEmail ==>
        action == Some(AskForEmailResult(|conversationState.messages|, conversationState.CurrentPharmacyName()))
        && conversationState.actionsTaken == AddOnce(old(conversationState.actionsTaken), "ask_for_email")
        && env.calls == old(env.calls)
        && handler.actionHistory == old(handler.actionHistory) + [HistoryEntry("ask_for_email", true, CollectEmail)]
        && response == action.value.message
      ensures s.responseType == SendEmail ==>
        action.Some?
        && response == (if action.value.success then action.value.message else EmailApology)
        && EmailTurnDone(env, conversationState.pharmacyData, conversationState.leadData, a.entities.email,
                         old(env.calls), old(conversationState.actionsTaken), old(handler.actionHistory),
                         action.value, env.calls, conversationState.actionsTaken, handler.actionHistory)
      ensures s.responseType == ScheduleCallback ==>
        action.Some? && response == action.value.message
        && CallbackTurnDone(env, conversationState.phoneNumber, conversationState.pharmacyData,
                            conversationState.leadData, PreferredTimeEntity(a.entities), |conversationState.messages|,
                            old(env.calls), old(conversationState.actionsTaken), old(handler.actionHistory),
                            action.value, env.calls, conversationState.actionsTaken, handler.actionHistory)
      ensures s.responseType.ModelAnswers() ==>
        action.None? && handler.actionHistory == old(handler.actionHistory)
        && conversationState.actionsTaken == old(conversationState.actionsTaken)
        && ModelTurnDone(env, SessionContext(conversationState.phoneNumber, conversationState.status,
                                             |conversationState.messages|, conversationState.pharmacyData,
                                             conversationState.leadData),
                         s, RecentWindow(conversationState.messages), conversationState.HasEmail(),
                         old(env.calls), env.calls, response)
    {
      a, s := PrepareTurn(message);
      assert |conversationState.messages| == |old(conversationState.messages)| + 1;
      response, action := HandleWithStrategy(a, s);
    }

    /**
     * `process_message`: without a session it raises; otherwise the caller's
     * message is appended first and the reply last, the entities are merged
     * into the lead before the strategy is decided, and the reply comes from
     * the dispatch.
     */
    method ProcessMessage(message: string)
      returns (r: Result<string>, a: MessageAnalysis, s: Strategy, ghost action: Option<ActionResult>)
      requires Valid()
      modifies conversationState, handler`actionHistory, env`calls
      ensures Valid()
      ensures conversationState == null ==>
        r == Raised(NotStartedError) && env.calls == old(env.calls)
        && handler.actionHistory == old(handler.actionHistory)
      ensures conversationState != null ==>
        var st := conversationState;
        && r.Ok?
        && st.messages == old(st.messages) + [ConversationMessage(User, message), ConversationMessage(Assistant, r.value)]
        && st.pharmacyData == old(st.pharmacyData) && st.status == old(st.status)
        && TurnPrepared(message, old(st.leadData), a, s, st.leadData, st.HasEmail())
      ensures conversationState != null && s.responseType == AskForEmail ==>
        action == Some(AskForEmailResult(|old(conversationState.messages)| + 1, conversationState.CurrentPharmacyName()))
        && conversationState.actionsTaken == AddOnce(old(conversationState.actionsTaken), "ask_for_email")
        && env.calls == old(env.calls)
        && handler.actionHistory == old(handler.actionHistory) + [HistoryEntry("ask_for_email", true, CollectEmail)]
        && r.value == action.value.message
      ensures conversationState != null && s.responseType == SendEmail ==>
        action.Some?
        && r.value == (if action.value.success then action.value.message else EmailApology)
        && EmailTurnDone(env, conversationState.pharmacyData, conversationState.leadData, a.entities.email,
                         old(env.calls), old(conversationState.actionsTaken), old(handler.actionHistory),
                         action.value, env.calls, conversationState.actionsTaken, handler.actionHistory)
      ensures conversationState != null && s.responseType == ScheduleCallback ==>
        action.Some? && r.value == action.value.message
        && CallbackTurnDone(env, conversationState.phoneNumber, conversationState.pharmacyData,
                            conversationState.leadData, PreferredTimeEntity(a.entities), |old(conversationState.messages)| + 1,
                            old(env.calls), old(conversationState.actionsTaken), old(handler.actionHistory),
                            action.value, env.calls, conversationState.actionsTaken, handler.actionHistory)
      ensures conversationState != null && s.responseType.ModelAnswers() ==>
        action.None? && handler.actionHistory == old(handler.actionHistory)
        && conversationState.actionsTaken == old(conversationState.actionsTaken)
        && ModelTurnDone(env, SessionContext(conversationState.phoneNumber, conversationState.status,
                                             |old(conversationState.messages)| + 1, conversationState.pharmacyData,
                                             conversationState.leadData),
                         s, RecentWindow(old(conversationState.messages) + [ConversationMessage(User, message)]),
                         conversationState.HasEmail(), old(env.calls), env.calls, r.value)
    {
      if conversationState == null {
        r := Raised(NotStartedError);
        a := MessageAnalysis(Unclear, NoEntities, 0.0, None);
        s := Strategy(Conversational, [], [], Medium);
        action := None;
        return;
      }
      var st := conversationState;
      var response;
      response, a, s, action := TakeTurn(message);
      ghost var turn := st.messages;
      assert |turn| == |old(st.messages)| + 1;
      assert RecentWindow(turn) == RecentWindow(old(st.messages) + [ConversationMessage(User, message)]);
      st.AddMessage(Assistant, response);
      r := Ok(response);
    }

    /** `get_conversation_summary`: nothing before a session; then the session and the action summary. */
    method GetConversationSummary() returns (summary: Option<ConversationSummary>)
      requires Valid()
      ensures summary.None? <==> conversationState == null
      ensures summary.Some? ==>
        var st := conversationState;
        var c := summary.value;
        && c.phoneNumber == st.phoneNumber && c.status == st.status.Value()
        && c.messageCount == |st.messages| && c.actionsTaken == st.actionsTaken
        && c.isKnownPharmacy == st.IsKnownPharmacy() && c.hasEmail == st.HasEmail()
        && (c.pharmacy.Some? <==> st.pharmacyData.Some?)
        && (c.pharmacy.Some? ==>
              c.pharmacy.value == PharmacySummary(st.pharmacyData.value.name, st.pharmacyData.value.LocationDisplay(),
                                                  st.pharmacyData.value.Tier().Value(), st.pharmacyData.value.rxVolume))
        && (c.lead.Some? <==> st.leadData.Some?)
        && (c.lead.Some? ==>
              c.lead.value == LeadSummary(st.leadData.value.pharmacyName, st.leadData.value.CompletionPercentage(),
                                          Truthy(st.leadData.value.email), st.leadData.value.rxVolume))
        && (c.pharmacy.Some? <==> c.lead.None?)
        && c.actionSummary.totalActions == |handler.actionHistory|
        && c.actionSummary.successfulActions == CountSuccessful(handler.actionHistory)
        && c.actionSummary.recentActions == Recent(handler.actionHistory)
        && c.actionSummary.successRate ==
             (if handler.actionHistory != []
              then CountSuccessful(handler.actionHistory) as real / |handler.actionHistory| as real
              else 0.0)
        && c.actionSummary.actionTypes.Keys == ActionSet(handler.actionHistory)
        && (forall k :: k in c.actionSummary.actionTypes ==>
              c.actionSummary.actionTypes[k] == CountAction(handler.actionHistory, k))
    {
      if conversationState == null {
        return None;
      }
      var st := conversationState;
      var pharmacy := if st.pharmacyData.Some? then
          var p := st.pharmacyData.value;
          Some(PharmacySummary(p.name, p.LocationDisplay(), p.Tier().Value(), p.rxVolume))
        else None;
      var lead := if st.leadData.Some? then
          var l := st.leadData.value;
          Some(LeadSummary(l.pharmacyName, l.CompletionPercentage(), Truthy(l.email), l.rxVolume))
        else None;
      var actions := handler.GetActionSummary();
      summary := Some(ConversationSummary(
        st.phoneNumber, st.status.Value(), |st.messages|, st.actionsTaken,
        st.IsKnownPharmacy(), st.HasEmail(), pharmacy, lead, actions));
    }

    /** `end_conversation`: a closing that names the caller's pharmacy once a session exists. */
    function EndConversation(): (closing: string)
      reads this, conversationState
      ensures conversationState == null ==> closing == "Thank you for your interest in Pharmesol!"
      ensures conversationState != null ==> Contains(closing, conversationState.CurrentPharmacyName())
    {
      if conversationState == null then "Thank you for your interest in Pharmesol!"
      else
        var name := conversationState.CurrentPharmacyName();
        var head := "Thank you for your time today. " + "I look forward to supporting ";
        var tail := "'s continued success with Pharmesol's " + "reliable distribution services.";
        ContainsInfix(head, name, tail);
        head + name + tail
    }
  }
}

=== FILE: effects.dfy ===
/**
 * The collaborators the assistant calls but that are not modelled: the
 * pharmacy directory, the mailer, the callback scheduler, the lead log, the
 * task tracker and the language model.
 *
 * Each collaborator is an arbitrary function of everything invoked so far
 * (the trace `calls`, ending with the current call) that either returns or
 * raises. The trace is what the rest of the model states its effects against.
 */
module Effects {
  import opened Wrappers
  import opened Models
  import opened Flow

  /** A dictionary returned by a collaborator or carried by an action result. */
  type Details = map<string, string>

  /** Which of the two email templates of the older assistant is filled in. */
  datatype LegacyTemplate = ExistingPharmacyTemplate | NewLeadTemplate

  /** An email body as the values filled into its template; the template's fixed prose is not modelled. */
  datatype EmailBody =
    | ExistingPharmacyBody(contact: string, pharmacyName: string, volume: string, benefits: seq<string>, location: string)
    | NewLeadBody(contact: string, pharmacyName: string, benefits: seq<string>)
    | LegacyBody(template: LegacyTemplate, contact: string, pharmacyName: string, benefitText: string)

  /** An outgoing email: its subject and the values filled into its body. */
  datatype Email = Email(subject: string, body: EmailBody)

  /** The lead dictionary handed to the lead log. */
  datatype LeadRecord = LeadRecord(
    pharmacyName: string,
    phone: string,
    email: Option<string>,
    location: Option<string>,
    rxVolume: Option<int>,
    contactPerson: Option<string>,
    completionPercentage: nat,
    interests: string,
    notes: string)

  /** The lead dictionary of the older assistant: only the keys it ever writes. */
  datatype LegacyLead = LegacyLead(email: Option<string>, pharmacyName: Option<string>, location: Option<string>)
  {
    /** Truthiness of the dictionary: some key is present. */
    predicate NonEmpty() {
      email.Some? || pharmacyName.Some? || location.Some?
    }
  }

  const EmptyLegacyLead: LegacyLead := LegacyLead(None, None, None)

  /** One invocation of a collaborator, with the arguments it was given. */
  datatype Call =
    | Lookup(phone: string)
    | Mail(to: string, subject: string, body: EmailBody)
    // `preferredTime` is `None` when the caller passed the key without a value
    | Callback(phone: string, preferredTime: Option<string>, contactName: string, notes: string)
    | Log(record: LeadRecord)
    | LegacyLog(lead: LegacyLead)
    // `contactEmail` is absent (`None`), or present with a possibly missing value
    | FollowUp(pharmacyName: string, contactPhone: string, contactEmail: Option<Option<string>>, taskType: string)
    | Completion(context: string, strategy: Strategy, window: seq<ConversationMessage>)
    | LegacyCompletion(pharmacy: Option<ApiRecord>, lead: LegacyLead, phone: string, history: seq<ConversationMessage>)

  class Environment {
    const directory: seq<Call> -> Result<Option<ApiRecord>>
    const mailer: seq<Call> -> Result<bool>
    const scheduler: seq<Call> -> Result<Details>
    const leadLog: seq<Call> -> Result<bool>
    const tasks: seq<Call> -> Result<Details>
    const model: seq<Call> -> Result<string>
    /** The opaque lead identifier derived from the clock. */
    const leadId: seq<Call> -> string
    var calls: seq<Call>

    constructor (
      directory: seq<Call> -> Result<Option<ApiRecord>>,
      mailer: seq<Call> -> Result<bool>,
      scheduler: seq<Call> -> Result<Details>,
      leadLog: seq<Call> -> Result<bool>,
      tasks: seq<Call> -> Result<Details>,
      model: seq<Call> -> Result<string>,
      leadId: seq<Call> -> string)
      ensures this.directory == directory && this.mailer == mailer && this.scheduler == scheduler
      ensures this.leadLog == leadLog && this.tasks == tasks && this.model == model && this.leadId == leadId
      ensures calls == []
    {
      this.directory := directory;
      this.mailer := mailer;
      this.scheduler := scheduler;
      this.leadLog := leadLog;
      this.tasks := tasks;
      this.model := model;
      this.leadId := leadId;
      calls := [];
    }

    method FindPharmacyByPhone(phone: string) returns (r: Result<Option<ApiRecord>>)
      modifies this`calls
      ensures calls == old(calls) + [Lookup(phone)] && r == directory(calls)
    {
      calls := calls + [Lookup(phone)];
      r := directory(calls);
    }

    method SendEmail(to: string, subject: string, body: EmailBody) returns (r: Result<bool>)
      modifies this`calls
      ensures calls == old(calls) + [Mail(to, subject, body)] && r == mailer(calls)
    {
      calls := calls + [Mail(to, subject, body)];
      r := mailer(calls);
    }

    method ScheduleCallback(phone: string, preferredTime: Option<string>, contactName: string, notes: string)
      returns (r: Result<Details>)
      modifies this`calls
      ensures calls == old(calls) + [Callback(phone, preferredTime, contactName, notes)] && r == scheduler(calls)
    {
      calls := calls + [Callback(phone, preferredTime, contactName, notes)];
      r := scheduler(calls);
    }

    method LogLeadInformation(record: LeadRecord) returns (r: Result<bool>)
      modifies this`calls
      ensures calls == old(calls) + [Log(record)] && r == leadLog(calls)
    {
      calls := calls + [Log(record)];
      r := leadLog(calls);
    }

    method LogLegacyLead(lead: LegacyLead) returns (r: Result<bool>)
      modifies this`calls
      ensures calls == old(calls) + [LegacyLog(lead)] && r == leadLog(calls)
    {
      calls := calls + [LegacyLog(lead)];
      r := leadLog(calls);
    }

    method CreateFollowUpTask(pharmacyName: string, phone: string, email: Option<Option<string>>, taskType: string)
      returns (r: Result<Details>)
      modifies this`calls
      ensures calls == old(calls) + [FollowUp(pharmacyName, phone, email, taskType)] && r == tasks(calls)
    {
      calls := calls + [FollowUp(pharmacyName, phone, email, taskType)];
      r := tasks(calls);
    }

    method Complete(context: string, strategy: Strategy, window: seq<ConversationMessage>) returns (r: Result<string>)
      modifies this`calls
      ensures calls == old(calls) + [Completion(context, strategy, window)] && r == model(calls)
    {
      calls := calls + [Completion(context, strategy, window)];
      r := model(calls);
    }

    method CompleteLegacy(pharmacy: Option<ApiRecord>, lead: LegacyLead, phone: string, history: seq<ConversationMessage>)
      returns (r: Result<string>)
      modifies this`calls
      ensures calls == old(calls) + [LegacyCompletion(pharmacy, lead, phone, history)] && r == model(calls)
    {
      calls := calls + [LegacyCompletion(pharmacy, lead, phone, history)];
      r := model(calls);
    }
  }
}

=== FILE: flow.dfy ===
/**
 * The conversation flow manager: it owns the session state, analyses each
 * user message into an intent and entities, merges entities into the lead
 * record and maps intent plus session to a response strategy.
 */
module Flow {
  import opened Wrappers
  import opened Text
  import opened Models
  import opened Analysis

  /**
   * The entities dictionary; a key is present exactly when its field is
   * `Some`. `preferredTime` is the one key that can be present with the value
   * `None` (a callback request without a recognised time phrase).
   */
  datatype Entities = Entities(
    email: Option<string>,
    preferredTime: Option<Option<string>>,
    pharmacyName: Option<string>,
    location: Option<string>,
    rxVolume: Option<int>,
    contactPerson: Option<string>)
  {
    /** Truthiness of the dictionary: some key is present. */
    predicate NonEmpty() {
      email.Some? || preferredTime.Some? || pharmacyName.Some? || location.Some?
      || rxVolume.Some? || contactPerson.Some?
    }

    /** Every key that reaches the lead record holds a truthy value. */
    predicate LeadValuesTruthy() {
      (email.Some? ==> email.value != "") && (pharmacyName.Some? ==> pharmacyName.value != "")
      && (location.Some? ==> location.value != "") && (rxVolume.Some? ==> rxVolume.value != 0)
      && (contactPerson.Some? ==> contactPerson.value != "")
    }
  }

  const NoEntities: Entities := Entities(None, None, None, None, None, None)

  /** The analysis dictionary; `suggestedActions` is absent for an empty message. */
  datatype MessageAnalysis = MessageAnalysis(
    intent: Intent,
    entities: Entities,
    confidence: real,
    suggestedActions: Option<seq<string>>)

  // ---------------------------------------------------------------------------
  // Merging entities into the lead

  /** `update_lead_data` on the lead itself: every present key overwrites its field. */
  function MergeEntities(lead: LeadData, e: Entities): (r: LeadData)
    ensures r.phone == lead.phone && r.interests == lead.interests && r.notes == lead.notes
    ensures e.email.Some? ==> r.email == e.email
    ensures e.pharmacyName.Some? ==> r.pharmacyName == e.pharmacyName
    ensures e.location.Some? ==> r.location == e.location
    ensures e.rxVolume.Some? ==> r.rxVolume == e.rxVolume
    ensures e.contactPerson.Some? ==> r.contactPerson == e.contactPerson
  {
    lead.(
      email := if e.email.Some? then e.email else lead.email,
      pharmacyName := if e.pharmacyName.Some? then e.pharmacyName else lead.pharmacyName,
      location := if e.location.Some? then e.location else lead.location,
      rxVolume := if e.rxVolume.Some? then e.rxVolume else lead.rxVolume,
      contactPerson := if e.contactPerson.Some? then e.contactPerson else lead.contactPerson)
  }

  /** Keys of `later` override keys of `earlier`. */
  function Overlay(earlier: Entities, later: Entities): (e: Entities)
    ensures e.NonEmpty() <==> earlier.NonEmpty() || later.NonEmpty()
  {
    Entities(
      if later.email.Some? then later.email else earlier.email,
      if later.preferredTime.Some? then later.preferredTime else earlier.preferredTime,
      if later.pharmacyName.Some? then later.pharmacyName else earlier.pharmacyName,
      if later.location.Some? then later.location else earlier.location,
      if later.rxVolume.Some? then later.rxVolume else earlier.rxVolume,
      if later.contactPerson.Some? then later.contactPerson else earlier.contactPerson)
  }

  /** Only present keys matter: an absent key leaves its field exactly as it was. */
  lemma MergeKeepsAbsentFields(lead: LeadData, e: Entities)
    ensures e.email.None? ==> MergeEntities(lead, e).email == lead.email
    ensures e.pharmacyName.None? ==> MergeEntities(lead, e).pharmacyName == lead.pharmacyName
    ensures e.location.None? ==> MergeEntities(lead, e).location == lead.location
    ensures e.rxVolume.None? ==> MergeEntities(lead, e).rxVolume == lead.rxVolume
    ensures e.contactPerson.None? ==> MergeEntities(lead, e).contactPerson == lead.contactPerson
    ensures e.email.Some? ==> MergeEntities(lead, e).email == e.email
    ensures e.pharmacyName.Some? ==> MergeEntities(lead, e).pharmacyName == e.pharmacyName
    ensures e.location.Some? ==> MergeEntities(lead, e).location == e.location
    ensures e.rxVolume.Some? ==> MergeEntities(lead, e).rxVolume == e.rxVolume
    ensures e.contactPerson.Some? ==> MergeEntities(lead, e).contactPerson == e.contactPerson
  {
  }

  /** A time preference alone does not touch the lead. */
  lemma MergeIgnoresPreferredTime(lead: LeadData, t: Option<string>)
    ensures MergeEntities(lead, NoEntities.(preferredTime := Some(t))) == lead
  {
  }

  /** Merging the same entities twice is merging them once. */
  lemma MergeIdempotent(lead: LeadData, e: Entities)
    ensures MergeEntities(MergeEntities(lead, e), e) == MergeEntities(lead, e)
  {
  }

  /** Last write wins: two merges in a row are one merge of the overlaid entities. */
  lemma MergeLastWriteWins(lead: LeadData, e1: Entities, e2: Entities)
    ensures MergeEntities(MergeEntities(lead, e1), e2) == MergeEntities(lead, Overlay(e1, e2))
  {
  }

  /** Merging truthy values never lowers the completion percentage, and can only complete a lead. */
  lemma MergeNeverLowersCompletion(lead: LeadData, e: Entities)
    requires e.LeadValuesTruthy()
    ensures MergeEntities(lead, e).CompletionPercentage() >= lead.CompletionPercentage()
    ensures lead.IsComplete() ==> MergeEntities(lead, e).IsComplete()
  {
    var r := MergeEntities(lead, e);
    assert Truthy(lead.pharmacyName) ==> Truthy(r.pharmacyName);
    assert Truthy(lead.contactPerson) ==> Truthy(r.contactPerson);
    assert Truthy(lead.email) ==> Truthy(r.email);
    assert Truthy(lead.location) ==> Truthy(r.location);
    assert TruthyInt(lead.rxVolume) ==> TruthyInt(r.rxVolume);
  }

  /** A whitespace-only capture stored as an empty name lowers completion: the guard above is needed. */
  lemma EmptyNameLowersCompletion(lead: LeadData)
    requires Truthy(lead.pharmacyName)
    ensures MergeEntities(lead, NoEntities.(pharmacyName := Some(""))).CompletionPercentage()
      == lead.CompletionPercentage() - 20
  {
  }

  // ---------------------------------------------------------------------------
  // Response strategy

  datatype ResponseType =
    | Conversational
    | AskForEmail
    | SendEmail
    | ScheduleCallback
    | AcknowledgeIntro
    | PricingDiscussion
  {
    function Value(): string {
      match this
      case Conversational => "conversational"
      case AskForEmail => "ask_for_email"
      case SendEmail => "send_email"
      case ScheduleCallback => "schedule_callback"
      case AcknowledgeIntro => "acknowledge_intro"
      case PricingDiscussion => "pricing_discussion"
    }

    /** The response types the dispatch hands to the language model, with no action run. */
    predicate ModelAnswers() {
      !(AskForEmail? || SendEmail? || ScheduleCallback?)
    }

    /** The priority actions that go with each response type. */
    function PriorityActions(): seq<string> {
      match this
      case Conversational => []
      case AskForEmail => ["collect_email"]
      case SendEmail => ["send_email"]
      case ScheduleCallback => ["schedule_callback"]
      case AcknowledgeIntro => ["update_lead_data", "assess_fit"]
      case PricingDiscussion => ["assess_volume", "present_value_prop"]
    }
  }

  datatype Personalization = Medium | High {
    function Value(): string {
      match this
      case Medium => "medium"
      case High => "high"
    }
  }

  datatype Strategy = Strategy(
    responseType: ResponseType,
    priorityActions: seq<string>,
    contextHints: seq<string>,
    personalization: Personalization)

  /** `f"{x}"` for an optional string: Python prints a missing value as `None`. */
  function ShowOptional(o: Option<string>): (s: string)
    ensures o.Some? ==> s == o.value
  {
    if o.Some? then o.value else "None"
  }

  /** The hint that the intent rule contributes. */
  function IntentHints(a: MessageAnalysis): (h: seq<string>)
    ensures |h| <= 1
    ensures h != [] <==> a.intent == RequestCallback && a.entities.preferredTime.Some?
    ensures h != [] ==> h[0] == "preferred_time: " + ShowOptional(a.entities.preferredTime.value)
  {
    if a.intent == RequestCallback && a.entities.preferredTime.Some? then
      ["preferred_time: " + ShowOptional(a.entities.preferredTime.value)]
    else []
  }

  /** The hints the session contributes, after the intent's. */
  function SessionHints(st: ConversationState?): (h: seq<string>)
    reads st
    ensures h == [] <==> st == null
    ensures st != null && st.IsKnownPharmacy() ==>
      h == ["known_pharmacy", "pharmacy_type: " + st.pharmacyData.value.Tier().Value()]
    ensures st != null && !st.IsKnownPharmacy() ==> h[0] == "new_lead"
    ensures st != null && !st.IsKnownPharmacy() ==>
      |h| == (if st.leadData.Some? then 2 else 1)
    ensures st != null && !st.IsKnownPharmacy() && st.leadData.Some? ==>
      h[1] == "lead_completeness: " + IntToString(st.leadData.value.CompletionPercentage()) + "%"
  {
    if st == null then []
    else if st.IsKnownPharmacy() then
      ["known_pharmacy", "pharmacy_type: " + st.pharmacyData.value.Tier().Value()]
    else if st.leadData.Some? then
      ["new_lead", "lead_completeness: " + IntToString(st.leadData.value.CompletionPercentage()) + "%"]
    else ["new_lead"]
  }

  /** Exactly one of the two session markers is given for a started session. */
  lemma SessionMarkerExclusive(st: ConversationState?)
    requires st != null
    ensures "known_pharmacy" in SessionHints(st) <==> st.IsKnownPharmacy()
    ensures "new_lead" in SessionHints(st) <==> !st.IsKnownPharmacy()
  {
    var h := SessionHints(st);
    if st.IsKnownPharmacy() {
      assert h[1][0] == 'p';
    } else if st.leadData.Some? {
      assert h[1][1] == 'e';
    }
  }

  /**
   * The parts of the context line: phone, status and message count, then
   * the caller's record, on the session's values.
   */
  function SessionContextParts(
    phone: string, status: ConversationStatus, messageCount: nat,
    pharmacy: Option<PharmacyData>, lead: Option<LeadData>): (parts: seq<string>)
    requires pharmacy.Some? || lead.Some?
    ensures |parts| >= 5
    ensures parts[..3] == ["PHONE: " + phone, "STATUS: " + status.Value(), "MESSAGES: " + IntToString(messageCount)]
    ensures pharmacy.Some? ==>
      |parts| == 7 + (if Truthy(pharmacy.value.email) then 1 else 0)
      && parts[3] == "KNOWN PHARMACY: " + pharmacy.value.name
      && parts[4] == "LOCATION: " + pharmacy.value.LocationDisplay()
      && parts[5] == "TYPE: " + pharmacy.value.Tier().Value()
      && parts[6] == "VOLUME: " + (if TruthyInt(pharmacy.value.rxVolume)
                                   then IntToString(pharmacy.value.rxVolume.value) else "Unknown")
      && (Truthy(pharmacy.value.email) ==> parts[7] == "EMAIL: " + pharmacy.value.email.value)
    ensures pharmacy.None? ==>
      var l := lead.value;
      |parts| == 5 + (if Truthy(l.email) then 1 else 0) + (if TruthyInt(l.rxVolume) then 1 else 0)
      && parts[3] == "NEW LEAD: " + (if Truthy(l.pharmacyName) then l.pharmacyName.value else "Unknown")
      && parts[4] == "COMPLETENESS: " + IntToString(l.CompletionPercentage()) + "%"
      && (Truthy(l.email) ==> parts[5] == "EMAIL: " + l.email.value)
      && (TruthyInt(l.rxVolume) ==> parts[|parts| - 1] == "VOLUME: " + IntToString(l.rxVolume.value))
  {
    var header := ["PHONE: " + phone, "STATUS: " + status.Value(), "MESSAGES: " + IntToString(messageCount)];
    if pharmacy.Some? then
      var p := pharmacy.value;
      header
      + ["KNOWN PHARMACY: " + p.name, "LOCATION: " + p.LocationDisplay(), "TYPE: " + p.Tier().Value(),
         "VOLUME: " + (if TruthyInt(p.rxVolume) then IntToString(p.rxVolume.value) else "Unknown")]
      + (if Truthy(p.email) then ["EMAIL: " + p.email.value] else [])
    else
      var l := lead.value;
      header
      + ["NEW LEAD: " + (if Truthy(l.pharmacyName) then l.pharmacyName.value else "Unknown"),
         "COMPLETENESS: " + IntToString(l.CompletionPercentage()) + "%"]
      + (if Truthy(l.email) then ["EMAIL: " + l.email.value] else [])
      + (if TruthyInt(l.rxVolume) then ["VOLUME: " + IntToString(l.rxVolume.value)] else [])
  }

  /** The context line of a session: its parts joined by " | ", so it opens with the phone. */
  function SessionContext(
    phone: string, status: ConversationStatus, messageCount: nat,
    pharmacy: Option<PharmacyData>, lead: Option<LeadData>): (ctx: string)
    requires pharmacy.Some? || lead.Some?
    ensures "PHONE: " + phone <= ctx
    ensures forall i :: 0 <= i < |SessionContextParts(phone, status, messageCount, pharmacy, lead)| ==>
      Contains(ctx, SessionContextParts(phone, status, messageCount, pharmacy, lead)[i])
  {
    var parts := SessionContextParts(phone, status, messageCount, pharmacy, lead);
    JoinStartsWithFirst(parts, " | ");
    JoinContainsAll(parts, " | ");
    Join(parts, " | ")
  }

  // ---------------------------------------------------------------------------
  // The flow manager

  class ConversationFlowManager {
    var state: ConversationState?

    constructor ()
      ensures state == null
    {
      state := null;
    }

    /** Starts a session: a lead record exactly when no pharmacy data is given. */
    method StartConversation(phone: string, pharmacy: Option<PharmacyData>) returns (st: ConversationState)
      modifies this
      ensures fresh(st) && state == st
      ensures st.phoneNumber == phone && st.status == Active
      ensures st.pharmacyData == pharmacy
      ensures st.leadData == (if pharmacy.Some? then None else Some(NewLead(phone)))
      ensures st.messages == [] && st.actionsTaken == []
      ensures st.Valid()
    {
      var lead := if pharmacy.Some? then None else Some(NewLead(phone));
      st := new ConversationState(phone, Active, pharmacy, lead);
      state := st;
    }

    /**
     * Analyses one message. The session is consulted only for an email request
     * that carries no address, so only then must a session exist.
     */
    method AnalyzeUserMessage(message: string) returns (a: MessageAnalysis)
      requires message != "" && IsEmailRequest(Lower(message)) && ExtractEmails(message) == {} ==> state != null
      ensures a.intent == ClassifyIntent(message)
      ensures a.confidence == Confidence(a.intent)
      ensures message == "" ==> a.entities == NoEntities && a.suggestedActions.None?
      ensures a.entities.email.Some? <==> message != "" && ExtractEmails(message) != {}
      ensures a.entities.email.Some? ==> a.entities.email.value in ExtractEmails(message)
      ensures a.entities.preferredTime.Some? <==> a.intent == RequestCallback
      ensures a.intent == RequestCallback ==>
        a.entities.preferredTime == Some(ExtractTimePreference(Lower(message)))
      ensures a.entities.pharmacyName.Some? || a.entities.location.Some? ==> a.intent == PharmacyIntroduction
      ensures a.intent == PharmacyIntroduction ==>
        a.entities.pharmacyName == ExtractPharmacyInfo(message).pharmacyName
        && a.entities.location == ExtractPharmacyInfo(message).location
      ensures a.entities.rxVolume.Some? <==> a.intent == PricingInquiry && TruthyInt(ExtractRxVolume(message))
      ensures a.entities.rxVolume.Some? ==> a.entities.rxVolume == ExtractRxVolume(message)
      ensures a.entities.contactPerson.None?
      ensures message != "" ==> a.suggestedActions.Some?
      ensures a.suggestedActions.Some? && a.suggestedActions.value != [] <==>
        a.intent == RequestEmail && ExtractEmails(message) == {} && !state.HasEmail()
      ensures a.suggestedActions.Some? && a.suggestedActions.value != [] ==>
        a.suggestedActions.value == ["ask_for_email"]
    {
      if message == "" {
        return MessageAnalysis(Unclear, NoEntities, 0.0, None);
      }
      var entities := NoEntities;
      var suggested: seq<string> := [];

      var emails := ExtractEmails(message);
      if emails != {} {
        // `list(set(...))[0]`: any one of the addresses
        var e :| e in emails;
        entities := entities.(email := Some(e));
      }

      // the keyword rules are tried in the same order as `ClassifyIntent` tries them
      var intent := ClassifyIntent(message);
      if intent == RequestEmail && emails == {} && !state.HasEmail() {
        suggested := suggested + ["ask_for_email"];
      }
      var confidence := Confidence(intent);
      entities := IntentEntities(message, intent, entities);
      a := MessageAnalysis(intent, entities, confidence, Some(suggested));
    }

    /** The entities `analyze_user_message` reads for the intent, on top of the email in `base`. */
    static method IntentEntities(message: string, intent: Intent, base: Entities) returns (e: Entities)
      ensures e.email == base.email
      ensures e.preferredTime == (if intent == RequestCallback then Some(ExtractTimePreference(Lower(message))) else base.preferredTime)
      ensures intent == PharmacyIntroduction ==>
        e.pharmacyName == ExtractPharmacyInfo(message).pharmacyName && e.location == ExtractPharmacyInfo(message).location
      ensures intent != PharmacyIntroduction ==> e.pharmacyName == base.pharmacyName && e.location == base.location
      ensures e.rxVolume == (if intent == PricingInquiry && TruthyInt(ExtractRxVolume(message)) then ExtractRxVolume(message) else base.rxVolume)
      ensures e.contactPerson == base.contactPerson
    {
      e := base;
      if intent == RequestCallback {
        e := e.(preferredTime := Some(ExtractTimePreference(Lower(message))));
      } else if intent == PharmacyIntroduction {
        var info := ExtractPharmacyInfo(message);
        e := e.(pharmacyName := info.pharmacyName, location := info.location);
      } else if intent == PricingInquiry {
        var volume := ExtractRxVolume(message);
        if volume.Some? && volume.value != 0 {
          e := e.(rxVolume := Some(volume.value));
        }
      }
    }

    /** Merges the entities into the lead record, if the session has one. */
    method UpdateLeadData(entities: Entities)
      modifies state
      ensures state == old(state)
      ensures state != null ==> (state.leadData ==
        if old(state.leadData).Some? then Some(MergeEntities(old(state.leadData).value, entities))
        else old(state.leadData))
      ensures state != null ==> (state.pharmacyData == old(state.pharmacyData)
        && state.messages == old(state.messages) && state.actionsTaken == old(state.actionsTaken)
        && state.status == old(state.status))
      ensures state != null && old(state.Valid()) ==> state.Valid()
    {
      if state == null || state.leadData.None? {
        return;
      }
      state.leadData := Some(MergeEntities(state.leadData.value, entities));
    }

    /**
     * Maps the analysis and the session to a strategy: the intent's rule
     * first, then the session's hints appended last.
     */
    method DetermineResponseStrategy(a: MessageAnalysis) returns (s: Strategy)
      requires a.intent == RequestEmail ==> state != null
      ensures s.responseType == AskForEmail <==> a.intent == RequestEmail && !state.HasEmail()
      ensures s.responseType == SendEmail <==> a.intent == RequestEmail && state.HasEmail()
      ensures s.responseType == ScheduleCallback <==> a.intent == RequestCallback
      ensures s.responseType == AcknowledgeIntro <==> a.intent == PharmacyIntroduction
      ensures s.responseType == PricingDiscussion <==> a.intent == PricingInquiry
      ensures s.responseType == Conversational <==> a.intent in {Unclear, GeneralInquiry, Greeting}
      ensures s.priorityActions == s.responseType.PriorityActions()
      ensures s.personalization == High <==>
        a.intent == PharmacyIntroduction || (a.intent == PricingInquiry && state != null && state.pharmacyData.Some?)
      ensures s.contextHints == IntentHints(a) + SessionHints(state)
    {
      var responseType := Conversational;
      var priority: seq<string> := [];
      var hints: seq<string> := [];
      var personalization := Medium;

      if a.intent == RequestEmail {
        if !state.HasEmail() {
          responseType := AskForEmail;
          priority := ["collect_email"];
        } else {
          responseType := SendEmail;
          priority := ["send_email"];
        }
      } else if a.intent == RequestCallback {
        responseType := ScheduleCallback;
        priority := ["schedule_callback"];
        if a.entities.preferredTime.Some? {
          hints := hints + ["preferred_time: " + ShowOptional(a.entities.preferredTime.value)];
        }
      } else if a.intent == PharmacyIntroduction {
        responseType := AcknowledgeIntro;
        priority := ["update_lead_data", "assess_fit"];
        personalization := High;
      } else if a.intent == PricingInquiry {
        responseType := PricingDiscussion;
        priority := ["assess_volume", "present_value_prop"];
        if state != null && state.pharmacyData.Some? {
          personalization := High;
        }
      }

      if state != null {
        if state.IsKnownPharmacy() {
          hints := hints + ["known_pharmacy"];
          hints := hints + ["pharmacy_type: " + state.pharmacyData.value.Tier().Value()];
        } else {
          hints := hints + ["new_lead"];
          if state.leadData.Some? {
            hints := hints + ["lead_completeness: " + IntToString(state.leadData.value.CompletionPercentage()) + "%"];
          }
        }
      }
      s := Strategy(responseType, priority, hints, personalization);
    }

    /** The parts of the context line, from the session's current values. */
    function ContextParts(): (parts: seq<string>)
      reads this, state
      requires state != null && (state.pharmacyData.Some? || state.leadData.Some?)
      ensures parts == SessionContextParts(state.phoneNumber, state.status, |state.messages|,
                                           state.pharmacyData, state.leadData)
      ensures state.Valid() && state.EmailAddress().Some? ==> "EMAIL: " + state.EmailAddress().value in parts
    {
      SessionContextParts(state.phoneNumber, state.status, |state.messages|, state.pharmacyData, state.leadData)
    }

    /** The context line handed to the language model. */
    function ConversationContext(): (ctx: string)
      reads this, state
      requires state == null || state.pharmacyData.Some? || state.leadData.Some?
      ensures state == null ==> ctx == "No active conversation"
      ensures state != null ==>
        ctx == SessionContext(state.phoneNumber, state.status, |state.messages|, state.pharmacyData, state.leadData)
    {
      if state == null then "No active conversation"
      else SessionContext(state.phoneNumber, state.status, |state.messages|, state.pharmacyData, state.leadData)
    }
  }
}

=== FILE: legacy.dfy ===
/**
 * The older, self-contained assistant. It keeps the raw directory dictionary,
 * a three-key lead dictionary and the message history, recognises email and
 * callback requests by keywords, fills one of two email templates, and asks
 * the language model for every other reply.
 *
 * Its phone number does not exist until a conversation is started; reading it
 * before raises, which is modelled as `phoneNumber == None`.
 */
module Legacy {
  import opened Wrappers
  import opened Text
  import opened Models
  import opened Effects
  import opened Prompt

  const UnknownPharmacyGreeting: string :=
    "Thank you for calling Pharmesol! "
    + "I don't have your information in our "
    + "system yet. \n\n    Could you please "
    + "tell me:\n    1. Your pharmacy name\n"
    + "    2. Your location\n    3. "
    + "Approximately how many prescriptions "
    + "you fill per month\n\n    This will help "
    + "me understand how we can best support "
    + "your pharmacy's needs."

  const KnownGreetingOpening: string := "Great! I see you're calling from "

  const KnownGreetingClosing: string :=
    "\n\n    How can Pharmesol help you today? "
    + "We specialize in supporting pharmacies "
    + "like yours with reliable supply chain "
    + "solutions and competitive pricing."

  const AskForAddress: string :=
    "I'd be happy to send you information! "
    + "Could you please provide your email "
    + "address?"

  const TechnicalDifficulties: string :=
    "I apologize, but I'm experiencing some "
    + "technical difficulties"
    + (". Let me take down your information "
       + "manually and have someone from our team "
       + "reach out to you.")

  const NoPhoneError: string :=
    "'PharmacyChatbot' object has no "
    + "attribute 'phone_number'"

  const DefaultName: string := "your pharmacy"

  /** Python truthiness of the pharmacy dictionary: present and not empty. */
  predicate IsKnown(data: Option<ApiRecord>) {
    data.Some? && data.value.NonEmpty()
  }

  /** Two filled-in slots `x` and `y` between the fixed texts `a`, `b` and `c`. */
  function TwoSlots(a: string, x: string, b: string, y: string, c: string): (g: string)
    ensures a <= g && Contains(g, x) && Contains(g, y)
  {
    ContainsInfix(a + x + b, y, c);
    ContainsInfix(a, x, b + y + c);
    assert a + x + b + y + c == a + x + (b + y + c);
    a + x + b + y + c
  }

  /** `_create_known_pharmacy_greeting`: the name, the location fragment, the volume sentence, the closing. */
  function KnownPharmacyGreeting(api: ApiRecord): (g: string)
    requires api.NonEmpty()
    ensures KnownGreetingOpening + api.name.GetOr(DefaultName) <= g
    ensures Contains(g, FormatLocationInfo(Some(api)))
    ensures Contains(g, FormatRxVolumeInfo(Some(api)))
  {
    TwoSlots(KnownGreetingOpening + api.name.GetOr(DefaultName), FormatLocationInfo(Some(api)),
      ". ", FormatRxVolumeInfo(Some(api)), KnownGreetingClosing)
  }

  /** A pharmacy with a city or a state hears its location, as the display of the same record shows it. */
  lemma {:induction false} KnownGreetingShowsLocation(api: ApiRecord)
    requires api.NonEmpty() && (Truthy(api.city) || Truthy(api.state))
    ensures Contains(KnownPharmacyGreeting(api), " in " + FromApiResponse(api).LocationDisplay())
  {
    LocationInfoAgreesWithDisplay(api);
  }

  /** The greeting of `start_conversation`. */
  function OpeningGreeting(data: Option<ApiRecord>): (g: string)
    ensures IsKnown(data) ==> KnownGreetingOpening <= g
    ensures !IsKnown(data) ==> g == UnknownPharmacyGreeting
  {
    if IsKnown(data) then KnownPharmacyGreeting(data.value) else UnknownPharmacyGreeting
  }

  /** `_is_requesting_email`: an email keyword in the lowered message, or an `@` anywhere. */
  predicate IsRequestingEmail(message: string) {
    ContainsAny(Lower(message), ["email", "send me", "mail me", "information", "details"]) || '@' in message
  }

  /** `_is_requesting_callback`: a callback keyword in the lowered message. */
  predicate IsRequestingCallback(message: string) {
    ContainsAny(Lower(message), ["callback", "call back", "call me", "schedule", "later"])
  }

  /** `_contains_contact_info`: an `@` or a digit. */
  predicate ContainsContactInfo(message: string) {
    '@' in message || exists i | 0 <= i < |message| :: IsDigit(message[i])
  }

  /** A word taken for an address: it holds an `@` and a `.`. */
  predicate LooksLikeEmail(w: string) {
    '@' in w && '.' in w
  }

  /** Word `k` looks like an address and no word before it does. */
  predicate IsFirstEmail(words: seq<string>, k: int) {
    0 <= k < |words| && LooksLikeEmail(words[k]) && forall j | 0 <= j < k :: !LooksLikeEmail(words[j])
  }

  /** Word `k` looks like an address and no later word among the first `n` does. */
  predicate IsLastEmail(words: seq<string>, k: int, n: int) {
    0 <= k < n <= |words| && LooksLikeEmail(words[k]) && forall j | k < j < n :: !LooksLikeEmail(words[j])
  }

  /** The first address among the words, as `_handle_email_request` looks for it. */
  function FirstEmailIn(words: seq<string>): (e: Option<string>)
    ensures e.Some? ==> exists k :: IsFirstEmail(words, k) && e.value == words[k]
    ensures e.None? <==> forall k | 0 <= k < |words| :: !LooksLikeEmail(words[k])
  {
    if words == [] then None
    else if LooksLikeEmail(words[0]) then
      assert IsFirstEmail(words, 0);
      Some(words[0])
    else
      var e := FirstEmailIn(words[1..]);
      assert forall k | 1 <= k < |words| :: words[k] == words[1..][k - 1];
      assert e.Some? ==> exists k :: IsFirstEmail(words, k) && e.value == words[k] by {
        if e.Some? {
          var k :| IsFirstEmail(words[1..], k) && e.value == words[1..][k];
          assert IsFirstEmail(words, k + 1);
        }
      }
      e
  }

  /** The address the scan of the first `n` words leaves: every address overwrites the one before, so the last wins. */
  function LastEmailBefore(words: seq<string>, n: nat): (e: Option<string>)
    requires n <= |words|
    ensures e.Some? ==> exists k :: IsLastEmail(words, k, n) && e.value == words[k]
    ensures e.None? <==> forall k | 0 <= k < n :: !LooksLikeEmail(words[k])
    decreases n
  {
    if n == 0 then None
    else if LooksLikeEmail(words[n - 1]) then
      assert IsLastEmail(words, n - 1, n);
      Some(words[n - 1])
    else
      var e := LastEmailBefore(words, n - 1);
      assert e.Some? ==> exists k :: IsLastEmail(words, k, n) && e.value == words[k] by {
        if e.Some? {
          var k :| IsLastEmail(words, k, n - 1) && e.value == words[k];
          assert IsLastEmail(words, k, n);
        }
      }
      e
  }

  /** When exactly one word is an address, the first-match and the last-match scans agree on it. */
  lemma {:induction false} SoleAddressFoundByBothScans(words: seq<string>, k: nat)
    requires k < |words| && LooksLikeEmail(words[k])
    requires forall j | 0 <= j < |words| && j != k :: !LooksLikeEmail(words[j])
    ensures FirstEmailIn(words) == Some(words[k])
    ensures LastEmailBefore(words, |words|) == Some(words[k])
  {
    var first := FirstEmailIn(words);
    var j :| IsFirstEmail(words, j) && first.value == words[j];
    var last := LastEmailBefore(words, |words|);
    var i :| IsLastEmail(words, i, |words|) && last.value == words[i];
  }

  /** A store word of the name pattern, in any case. */
  predicate IsStoreWord(w: string) {
    var l := Lower(w);
    l == "pharmacy" || l == "drug" || l == "store"
  }

  /** The name read at the store word `i`: that word and up to two words before it. */
  function NameEndingAt(words: seq<string>, i: nat): (name: string)
    requires 0 < i < |words|
    ensures i >= 2 ==> name == words[i - 2] + " " + words[i - 1] + " " + words[i]
    ensures i == 1 ==> name == words[0] + " " + words[1]
  {
    var parts := words[(if i >= 2 then i - 2 else 0)..i + 1];
    if i >= 2 then
      assert parts == [words[i - 2], words[i - 1], words[i]];
      assert Join(parts[1..], " ") == words[i - 1] + " " + words[i] by {
        assert parts[1..] == [words[i - 1], words[i]];
        assert parts[1..][1..] == [words[i]];
      }
      Join(parts, " ")
    else
      assert parts == [words[0], words[1]] && parts[1..] == [words[1]];
      assert Join(parts[1..], " ") == words[1];
      Join(parts, " ")
  }

  /** Word `j` is the last store word among the first `n`, not counting the first word. */
  predicate IsLastStoreWord(words: seq<string>, j: int, n: int) {
    0 < j < n <= |words| && IsStoreWord(words[j]) && forall k | j < k < n :: !IsStoreWord(words[k])
  }

  /** The position of the last store word among the first `n`, not counting the first word; 0 when there is none. */
  function LastStoreIndex(words: seq<string>, n: nat): (j: nat)
    requires n <= |words|
    ensures j == 0 <==> forall k | 0 < k < n :: !IsStoreWord(words[k])
    ensures j != 0 ==> IsLastStoreWord(words, j, n)
    decreases n
  {
    if n <= 1 then 0
    else if IsStoreWord(words[n - 1]) then n - 1
    else
      var j := LastStoreIndex(words, n - 1);
      assert j != 0 ==> IsLastStoreWord(words, j, n);
      j
  }

  /** The name the scan of the first `n` words leaves: the last store word after the first word wins. */
  function LastStoreName(words: seq<string>, n: nat): (name: Option<string>)
    requires n <= |words|
    ensures name.None? <==> forall j | 0 < j < n :: !IsStoreWord(words[j])
    ensures name.Some? ==> var j := LastStoreIndex(words, n);
      IsLastStoreWord(words, j, n) && name.value == NameEndingAt(words, j)
  {
    var j := LastStoreIndex(words, n);
    if j == 0 then None else Some(NameEndingAt(words, j))
  }

  /** `list.index`: the first position of `x`. */
  function IndexOf<T(==)>(s: seq<T>, x: T): (i: nat)
    requires x in s
    ensures i < |s| && s[i] == x && x !in s[..i]
  {
    if s[0] == x then 0
    else
      var i := IndexOf(s[1..], x);
      assert s[..i + 1] == [s[0]] + s[1..][..i];
      1 + i
  }

  /** The words in lower case. */
  function LowerWords(words: seq<string>): (ls: seq<string>)
    ensures |ls| == |words| && forall k | 0 <= k < |words| :: ls[k] == Lower(words[k])
  {
    seq(|words|, k requires 0 <= k < |words| => Lower(words[k]))
  }

  /** Word `k` is the first "in", in any case. */
  predicate IsFirstIn(words: seq<string>, k: int) {
    0 <= k < |words| && Lower(words[k]) == "in" && forall j | 0 <= j < k :: Lower(words[j]) != "in"
  }

  /** The word after the first "in" (in any case), unless that "in" is the last word. */
  function LocationAfterIn(words: seq<string>): (loc: Option<string>)
    ensures loc.Some? <==> exists k | 0 <= k < |words| - 1 :: Lower(words[k]) == "in"
    ensures loc.Some? ==> exists k | 0 <= k < |words| - 1 :: IsFirstIn(words, k) && loc.value == words[k + 1]
  {
    var lowered := LowerWords(words);
    if "in" in lowered then
      var idx := IndexOf(lowered, "in");
      assert forall j | 0 <= j < idx :: lowered[..idx][j] == lowered[j];
      assert IsFirstIn(words, idx);
      if idx + 1 < |words| then Some(words[idx + 1]) else None
    else None
  }

  /** The address scan of `_extract_lead_information`: every word that looks like an address overwrites the last. */
  method ScanForEmail(words: seq<string>, lead: LegacyLead) returns (l: LegacyLead)
    ensures var found := LastEmailBefore(words, |words|);
      l == if found.Some? then lead.(email := found) else lead
  {
    l := lead;
    var i := 0;
    while i < |words|
      invariant 0 <= i <= |words|
      invariant l == if LastEmailBefore(words, i).Some? then lead.(email := LastEmailBefore(words, i)) else lead
    {
      if '@' in words[i] && '.' in words[i] {
        l := l.(email := Some(words[i]));
      }
      i := i + 1;
    }
  }

  /** One more word of the name scan: a store word after the first word replaces the name, any other keeps it. */
  lemma StoreNameStep(words: seq<string>, i: nat)
    requires i < |words|
    ensures LastStoreIndex(words, i + 1) == if IsStoreWord(words[i]) && i > 0 then i else LastStoreIndex(words, i)
  {
  }

  /** The name scan of `_extract_lead_information`: every store word after the first word overwrites the last name. */
  method ScanForStoreName(words: seq<string>, lead: LegacyLead) returns (l: LegacyLead)
    ensures var name := LastStoreName(words, |words|);
      l == if name.Some? then lead.(pharmacyName := name) else lead
  {
    l := lead;
    var i := 0;
    while i < |words|
      invariant 0 <= i <= |words|
      invariant var j := LastStoreIndex(words, i); l == if j == 0 then lead else lead.(pharmacyName := Some(NameEndingAt(words, j)))
    {
      StoreNameStep(words, i);
      if IsStoreWord(words[i]) && i > 0 {
        l := l.(pharmacyName := Some(NameEndingAt(words, i)));
      }
      i := i + 1;
    }
  }

  /** The lead after `_extract_lead_information` has read `message`. */
  function ExtractedLead(lead: LegacyLead, message: string): (l: LegacyLead)
    ensures lead.email.Some? ==> l.email.Some?
    ensures lead.pharmacyName.Some? ==> l.pharmacyName.Some?
    ensures lead.location.Some? ==> l.location.Some?
    ensures l.email != lead.email ==> l.email.Some? && LooksLikeEmail(l.email.value) && l.email.value in Words(message)
    ensures l.pharmacyName != lead.pharmacyName ==>
      l.pharmacyName.Some? && exists j | 0 < j < |Words(message)| ::
        IsStoreWord(Words(message)[j]) && l.pharmacyName.value == NameEndingAt(Words(message), j)
    ensures l.location != lead.location ==> l.location.Some? && l.location.value in Words(message)
    ensures var found := LastEmailBefore(Words(message), |Words(message)|);
      l.email == if found.Some? then found else lead.email
    ensures var name := LastStoreName(Words(message), |Words(message)|);
      l.pharmacyName ==
        if (Contains(Lower(message), "pharmacy") || Contains(Lower(message), "drug")) && name.Some? then name
        else lead.pharmacyName
    ensures var loc := LocationAfterIn(Words(message));
      l.location ==
        if (Contains(Lower(message), "located") || Contains(Lower(message), "in ")) && loc.Some? then loc
        else lead.location
  {
    var words := Words(message);
    var low := Lower(message);
    var found := LastEmailBefore(words, |words|);
    assert found.Some? ==> found.value in words by {
      if found.Some? {
        var k :| IsLastEmail(words, k, |words|) && found.value == words[k];
      }
    }
    var withEmail := if found.Some? then lead.(email := found) else lead;
    var name := LastStoreName(words, |words|);
    assert name.Some? ==> IsLastStoreWord(words, LastStoreIndex(words, |words|), |words|);
    var withName :=
      if (Contains(low, "pharmacy") || Contains(low, "drug")) && name.Some? then withEmail.(pharmacyName := name)
      else withEmail;
    var loc := LocationAfterIn(words);
    if (Contains(low, "located") || Contains(low, "in ")) && loc.Some? then withName.(location := loc)
    else withName
  }

  /** The address `_handle_email_request` sends to: the first in the message, else a stored non-empty one. */
  function EmailTarget(message: string, lead: LegacyLead): (to: Option<string>)
    ensures to.None? <==> FirstEmailIn(Words(message)).None? && !Truthy(lead.email)
    ensures FirstEmailIn(Words(message)).Some? ==> to == FirstEmailIn(Words(message))
    ensures to.Some? ==> to.value != ""
  {
    var found := FirstEmailIn(Words(message));
    if found.Some? then found else if Truthy(lead.email) then lead.email else None
  }

  /** The email `_handle_email_request` fills in for the current pharmacy and lead. */
  function LegacyEmailFor(data: Option<ApiRecord>, lead: LegacyLead): (mail: Email)
    ensures mail.body.LegacyBody? && mail.body.contact == "there"
    ensures mail.body.template == ExistingPharmacyTemplate <==> IsKnown(data)
    ensures mail.body.pharmacyName == (if IsKnown(data) then data.value.name.GetOr(DefaultName) else lead.pharmacyName.GetOr(DefaultName))
    ensures var name := mail.body.pharmacyName;
      |name| <= |mail.subject| && mail.subject[|mail.subject| - |name|..] == name
  {
    if IsKnown(data) then
      var name := data.value.name.GetOr(DefaultName);
      // the template for a known pharmacy has no slot for the benefit text
      Email("Following up on your call - " + name, LegacyBody(ExistingPharmacyTemplate, "there", name, ""))
    else
      var name := lead.pharmacyName.GetOr(DefaultName);
      // a lead never holds a volume, so its benefits are those of volume 0
      Email(
        "Thank you for your interest in " + "Pharmesol - " + name,
        LegacyBody(NewLeadTemplate, "there", name, GetRxVolumeBenefits(Some(0))))
  }

  /** A new lead's email always carries the single "scalable solutions" bullet. */
  lemma {:induction false} NewLeadEmailHasOneBullet(data: Option<ApiRecord>, lead: LegacyLead)
    requires !IsKnown(data)
    ensures Split(LegacyEmailFor(data, lead).body.benefitText, '\n') == ScalableBenefits()
  {
    BenefitsAreBulletLines(Some(0));
  }

  const SentMarker: string := "sent detailed information"

  /** The confirmation after an email is sent. */
  function SentReply(email: string): (s: string)
    ensures Contains(s, SentMarker) && Contains(s, email)
  {
    TwoSlots("Perfect! I've ", SentMarker, " about Pharmesol's services to ", email,
      ". You should receive it within " + "the next few minutes.")
  }

  /** The time slot a callback request asks for; "tomorrow" outranks "afternoon", which outranks "morning". */
  function CallbackTime(message: string): (t: string)
    ensures var low := Lower(message);
      && (t == "tomorrow during business hours" <==> Contains(low, "tomorrow"))
      && (t == "this afternoon" <==> !Contains(low, "tomorrow") && Contains(low, "afternoon"))
      && (t == "tomorrow morning" <==>
            !Contains(low, "tomorrow") && !Contains(low, "afternoon") && Contains(low, "morning"))
      && (t == "during business hours" <==>
            !Contains(low, "tomorrow") && !Contains(low, "afternoon") && !Contains(low, "morning"))
  {
    var low := Lower(message);
    if Contains(low, "tomorrow") then "tomorrow during business hours"
    else if Contains(low, "afternoon") then "this afternoon"
    else if Contains(low, "morning") then "tomorrow morning"
    else "during business hours"
  }

  /** "tomorrow" outranks the time of day: a message naming tomorrow and an afternoon is booked for tomorrow. */
  lemma TomorrowOutranksTimeOfDay(message: string)
    requires Contains(Lower(message), "tomorrow")
    ensures CallbackTime(message) == "tomorrow during business hours"
    ensures CallbackTime(message) != "this afternoon" && CallbackTime(message) != "tomorrow morning"
  {
  }

  /** Whom a callback is booked for: the directory name, else a non-empty lead name, else "there". */
  function CallbackContact(data: Option<ApiRecord>, lead: LegacyLead): (name: string)
    ensures IsKnown(data) ==> name == data.value.name.GetOr(DefaultName)
    ensures !IsKnown(data) && Truthy(lead.pharmacyName) ==> name == lead.pharmacyName.value
    ensures !IsKnown(data) && !Truthy(lead.pharmacyName) ==> name == "there"
    ensures !IsKnown(data) ==> name != ""
  {
    if IsKnown(data) then data.value.name.GetOr(DefaultName)
    else if Truthy(lead.pharmacyName) then lead.pharmacyName.value
    else "there"
  }

  /** The name `end_conversation` thanks: the directory name, else the lead's name, either defaulted. */
  function ClosingName(data: Option<ApiRecord>, lead: LegacyLead): string {
    if IsKnown(data) then data.value.name.GetOr(DefaultName) else lead.pharmacyName.GetOr(DefaultName)
  }

  /** The callback and the closing name the same pharmacy exactly when one is known by name. */
  lemma CallbackAndClosingAgree(data: Option<ApiRecord>, lead: LegacyLead)
    ensures CallbackContact(data, lead) == ClosingName(data, lead) <==> IsKnown(data) || Truthy(lead.pharmacyName)
  {
    if !IsKnown(data) && !Truthy(lead.pharmacyName) {
      assert CallbackContact(data, lead)[0] == 't';
      if lead.pharmacyName.Some? {
        assert ClosingName(data, lead) == "";
      } else {
        assert ClosingName(data, lead)[0] == 'y';
      }
    }
  }

  const NotesOpening: string := "Interested in Pharmesol services. " + "Conversation context: "

  /** The callback notes: how many messages the history holds. */
  function CallbackNotes(historyLength: nat): (notes: string)
    ensures NotesOpening <= notes
    ensures Contains(notes, NatToString(historyLength))
  {
    var count := NatToString(historyLength);
    ContainsInfix(NotesOpening, count, " messages exchanged.");
    NotesOpening + count + " messages exchanged."
  }

  /** The contact email of the follow-up task: present only when the lead holds a non-empty one. */
  function FollowUpEmail(lead: LegacyLead): (e: Option<Option<string>>)
    ensures e.Some? <==> Truthy(lead.email)
    ensures e.Some? ==> e.value == lead.email
  {
    if Truthy(lead.email) then Some(lead.email) else None
  }

  /** Each of three texts placed between four others is contained in the whole. */
  lemma {:induction false} ContainsEachOfThree(a: string, x: string, b: string, y: string, c: string, z: string, d: string)
    ensures var s := a + x + b + y + c + z + d;
      Contains(s, x) && Contains(s, y) && Contains(s, z)
  {
    var s := a + x + b + y + c + z + d;
    ContainsInfix(a, x, b + y + c + z + d);
    assert s == a + x + (b + y + c + z + d);
    ContainsInfix(a + x + b, y, c + z + d);
    assert s == a + x + b + y + (c + z + d);
    ContainsInfix(a + x + b + y + c, z, d);
  }

  const CallbackReplyClosing: string :=
    ". One of our senior sales "
    + "representatives will call you to discuss "
    + "how we can support your pharmacy's needs."

  /** The confirmation after a callback is booked. */
  function CallbackReply(time: string, phone: string): (s: string)
    ensures Contains(s, "scheduled a callback") && Contains(s, time) && Contains(s, phone)
  {
    ContainsEachOfThree("Excellent! I've ", "scheduled a callback", " for you ", time, " at ", phone, CallbackReplyClosing);
    "Excellent! I've " + "scheduled a callback" + " for you " + time + " at " + phone + CallbackReplyClosing
  }

  /** The closing of `end_conversation`. */
  function Closing(name: string): (s: string)
    ensures Contains(s, name)
  {
    var head := "Thank you for your time today. " + "I look forward to supporting ";
    ContainsInfix(head, name, "'s continued success.");
    head + name + "'s continued success."
  }

  /** The reply of `_generate_llm_response`: the stripped completion, or an apology when it raised. */
  function LlmOutcome(reply: Result<string>): (s: string)
    ensures reply.Raised? ==> s == TechnicalDifficulties && Contains(s, "technical difficulties")
    ensures reply.Ok? ==> s == Strip(reply.value)
    ensures reply.Ok? ==> |s| <= |reply.value| && (s == [] || (!IsSpace(s[0]) && !IsSpace(s[|s| - 1])))
  {
    ContainsInfix(
      "I apologize, but I'm experiencing some ",
      "technical difficulties",
      ". Let me take down your information " + "manually and have someone from our team " + "reach out to you.");
    if reply.Ok? then Strip(reply.value) else TechnicalDifficulties
  }

  /** The actions one message shows: "email_sent", then "callback_scheduled", for assistant messages only. */
  function MessageActions(m: ConversationMessage): (actions: seq<string>)
    ensures m.role == User ==> actions == []
    ensures |actions| <= 2
    ensures "email_sent" in actions <==>
      m.role == Assistant && (Contains(Lower(m.content), SentMarker) || Contains(Lower(m.content), "email"))
    ensures "callback_scheduled" in actions <==>
      m.role == Assistant && (Contains(Lower(m.content), "scheduled a callback") || Contains(Lower(m.content), "callback"))
    ensures |actions| == 2 ==> actions == ["email_sent", "callback_scheduled"]
  {
    if m.role != Assistant then []
    else
      var c := Lower(m.content);
      (if Contains(c, SentMarker) || Contains(c, "email") then ["email_sent"] else [])
      + (if Contains(c, "scheduled a callback") || Contains(c, "callback") then ["callback_scheduled"] else [])
  }

  /** The body of the loop of `_get_actions_taken`: the actions one message shows. */
  method ActionsShownBy(message: ConversationMessage) returns (actions: seq<string>)
    ensures actions == MessageActions(message)
  {
    actions := [];
    if message.role == Assistant {
      var content := Lower(message.content);
      if Contains(content, SentMarker) || Contains(content, "email") {
        actions := actions + ["email_sent"];
      }
      if Contains(content, "scheduled a callback") || Contains(content, "callback") {
        actions := actions + ["callback_scheduled"];
      }
    }
  }

  /** `_get_actions_taken` over a history, message by message. */
  function ActionsTakenOf(h: seq<ConversationMessage>): (actions: seq<string>)
    ensures |actions| <= 2 * |h|
    ensures forall k | 0 <= k < |actions| :: actions[k] == "email_sent" || actions[k] == "callback_scheduled"
    decreases |h|
  {
    if h == [] then [] else ActionsTakenOf(h[..|h| - 1]) + MessageActions(h[|h| - 1])
  }

  /** One more message adds exactly the actions it shows. */
  lemma ActionsTakenSnoc(h: seq<ConversationMessage>, m: ConversationMessage)
    ensures ActionsTakenOf(h + [m]) == ActionsTakenOf(h) + MessageActions(m)
  {
    assert (h + [m])[..|h|] == h;
  }

  /** A caller's message adds no action to the summary. */
  lemma {:induction false} UserMessageAddsNoAction(h: seq<ConversationMessage>, message: string)
    ensures ActionsTakenOf(h + [ConversationMessage(User, message)]) == ActionsTakenOf(h)
  {
    ActionsTakenSnoc(h, ConversationMessage(User, message));
  }

  // ---------------------------------------------------------------------------
  // What each branch of `process_user_message` does, as a function of the fields and the trace

  /** What a branch did: its reply or raise, the lead after it, and the trace after it. */
  datatype LegacyEffect = LegacyEffect(outcome: Result<string>, lead: LegacyLead, calls: seq<Call>)

  /** The sending half of `_handle_email_request` after the trace `calls`: a new lead stores the address and is logged. */
  function SendTemplateEffect(env: Environment, to: string, pharmacy: Option<ApiRecord>, lead: LegacyLead, calls: seq<Call>)
    : LegacyEffect
  {
    var mail := LegacyEmailFor(pharmacy, lead);
    var sent := calls + [Mail(to, mail.subject, mail.body)];
    if env.mailer(sent).Raised? then LegacyEffect(Raised(env.mailer(sent).error), lead, sent)
    else if IsKnown(pharmacy) then LegacyEffect(Ok(SentReply(to)), lead, sent)
    else
      var stored := lead.(email := Some(to));
      var logged := sent + [LegacyLog(stored)];
      if env.leadLog(logged).Raised? then LegacyEffect(Raised(env.leadLog(logged).error), stored, logged)
      else LegacyEffect(Ok(SentReply(to)), stored, logged)
  }

  /** `_handle_email_request` after the trace `calls`. */
  function EmailRequestEffect(env: Environment, message: string, pharmacy: Option<ApiRecord>, lead: LegacyLead, calls: seq<Call>)
    : LegacyEffect
  {
    var to := EmailTarget(message, lead);
    if to.None? then LegacyEffect(Ok(AskForAddress), lead, calls)
    else SendTemplateEffect(env, to.value, pharmacy, lead, calls)
  }

  /** `_handle_callback_request` after the trace `calls`, for a history of `historyLength` messages. */
  function CallbackRequestEffect(
    env: Environment, message: string, phone: Option<string>, pharmacy: Option<ApiRecord>, lead: LegacyLead,
    historyLength: nat, calls: seq<Call>): LegacyEffect
  {
    if phone.None? then LegacyEffect(Raised(NoPhoneError), lead, calls)
    else
      var time := CallbackTime(message);
      var contact := CallbackContact(pharmacy, lead);
      var booked := calls + [Callback(phone.value, Some(time), contact, CallbackNotes(historyLength))];
      if env.scheduler(booked).Raised? then LegacyEffect(Raised(env.scheduler(booked).error), lead, booked)
      else
        var followed := booked + [FollowUp(contact, phone.value, FollowUpEmail(lead), "callback_follow_up")];
        if env.tasks(followed).Raised? then LegacyEffect(Raised(env.tasks(followed).error), lead, followed)
        else LegacyEffect(Ok(CallbackReply(time, phone.value)), lead, followed)
  }

  /**
   * The last branch of `process_user_message` after the trace `calls`: the
   * lead is read from a message with contact details, then the model sees
   * the fields and `history`, which already ends with the caller's message.
   */
  function ModelReplyEffect(
    env: Environment, message: string, phone: Option<string>, pharmacy: Option<ApiRecord>, lead: LegacyLead,
    history: seq<ConversationMessage>, calls: seq<Call>): LegacyEffect
  {
    var read := if ContainsContactInfo(message) then ExtractedLead(lead, message) else lead;
    if phone.None? then LegacyEffect(Ok(TechnicalDifficulties), read, calls)
    else
      var asked := calls + [LegacyCompletion(pharmacy, read, phone.value, history)];
      LegacyEffect(Ok(LlmOutcome(env.model(asked))), read, asked)
  }

  /** The summary of `get_conversation_summary`. */
  datatype LegacySummary = LegacySummary(
    phoneNumber: string,
    pharmacyData: Option<ApiRecord>,
    leadData: LegacyLead,
    conversationLength: nat,
    actionsTaken: seq<string>)

  class PharmacyChatbot {
    var conversationHistory: seq<ConversationMessage>
    var pharmacyData: Option<ApiRecord>
    var leadData: LegacyLead
    /** `None` until a conversation is started. */
    var phoneNumber: Option<string>
    const env: Environment

    constructor (env: Environment)
      ensures this.env == env
      ensures conversationHistory == [] && pharmacyData == None && leadData == EmptyLegacyLead && phoneNumber == None
    {
      this.env := env;
      conversationHistory := [];
      pharmacyData := None;
      leadData := EmptyLegacyLead;
      phoneNumber := None;
    }

    /** `start_conversation`: a fresh history holding the greeting; the lead is kept. */
    method StartConversation(phone: string, data: Option<ApiRecord>) returns (greeting: string)
      modifies this`phoneNumber, this`pharmacyData, this`conversationHistory
      ensures phoneNumber == Some(phone) && pharmacyData == data
      ensures greeting == OpeningGreeting(data)
      ensures conversationHistory == [ConversationMessage(Assistant, greeting)]
    {
      phoneNumber := Some(phone);
      pharmacyData := data;
      conversationHistory := [];
      if IsKnown(data) {
        greeting := KnownPharmacyGreeting(data.value);
      } else {
        greeting := UnknownPharmacyGreeting;
      }
      conversationHistory := conversationHistory + [ConversationMessage(Assistant, greeting)];
    }

    /** `_extract_lead_information`: the two word scans and the location lookup. */
    method ExtractLeadInformation(message: string)
      modifies this`leadData
      ensures leadData == ExtractedLead(old(leadData), message)
    {
      var words := Words(message);
      var lead := ScanForEmail(words, leadData);
      var low := Lower(message);
      if Contains(low, "pharmacy") || Contains(low, "drug") {
        lead := ScanForStoreName(words, lead);
      }
      if Contains(low, "located") || Contains(low, "in ") {
        var loc := LocationAfterIn(words);
        if loc.Some? {
          lead := lead.(location := loc);
        }
      }
      leadData := lead;
    }

    /** `_handle_email_request`: ask for an address, or send the template and, for a new lead, log it. */
    method HandleEmailRequest(message: string) returns (r: Result<string>)
      modifies this`leadData, env`calls
      ensures var to := EmailTarget(message, old(leadData));
        to.None? ==> r == Ok(AskForAddress) && env.calls == old(env.calls) && leadData == old(leadData)
      ensures var to := EmailTarget(message, old(leadData)); var mail := LegacyEmailFor(pharmacyData, old(leadData));
        to.Some? ==> var sent := old(env.calls) + [Mail(to.value, mail.subject, mail.body)];
        IsKnown(pharmacyData) || env.mailer(sent).Raised? ==>
          env.calls == sent && leadData == old(leadData)
          && (r.Ok? <==> env.mailer(sent).Ok?) && (r.Ok? ==> r.value == SentReply(to.value))
      ensures var to := EmailTarget(message, old(leadData)); var mail := LegacyEmailFor(pharmacyData, old(leadData));
        to.Some? ==> var sent := old(env.calls) + [Mail(to.value, mail.subject, mail.body)];
        !IsKnown(pharmacyData) && env.mailer(sent).Ok? ==>
          leadData == old(leadData).(email := to) && env.calls == sent + [LegacyLog(leadData)]
          && (r.Ok? <==> env.leadLog(env.calls).Ok?) && (r.Ok? ==> r.value == SentReply(to.value))
      ensures var to := EmailTarget(message, old(leadData));
        (to.Some? && r.Ok? ==> r.value == SentReply(to.value))
        && (leadData == old(leadData) || (!IsKnown(pharmacyData) && leadData == old(leadData).(email := to)))
      ensures LegacyEffect(r, leadData, env.calls) == old(EmailRequestEffect(env, message, pharmacyData, leadData, env.calls))
    {
      var to := EmailTarget(message, leadData);
      if to.None? {
        return Ok(AskForAddress);
      }
      r := SendTemplateEmail(to.value);
    }

    /** The sending half of `_handle_email_request`, once the address `to` is known. */
    method SendTemplateEmail(to: string) returns (r: Result<string>)
      modifies this`leadData, env`calls
      ensures var mail := LegacyEmailFor(pharmacyData, old(leadData));
        var sent := old(env.calls) + [Mail(to, mail.subject, mail.body)];
        if IsKnown(pharmacyData) || env.mailer(sent).Raised? then
          env.calls == sent && leadData == old(leadData)
          && (r.Ok? <==> env.mailer(sent).Ok?) && (r.Ok? ==> r.value == SentReply(to))
        else
          leadData == old(leadData).(email := Some(to)) && env.calls == sent + [LegacyLog(leadData)]
          && (r.Ok? <==> env.leadLog(env.calls).Ok?) && (r.Ok? ==> r.value == SentReply(to))
      ensures LegacyEffect(r, leadData, env.calls) == old(SendTemplateEffect(env, to, pharmacyData, leadData, env.calls))
    {
      var mail := LegacyEmailFor(pharmacyData, leadData);
      var mailed := env.SendEmail(to, mail.subject, mail.body);
      if mailed.Raised? {
        return Raised(mailed.error);
      }
      if !IsKnown(pharmacyData) {
        leadData := leadData.(email := Some(to));
        var logged := env.LogLegacyLead(leadData);
        if logged.Raised? {
          return Raised(logged.error);
        }
      }
      r := Ok(SentReply(to));
    }

    /** `_handle_callback_request`: book the callback, then always a follow-up task. */
    method HandleCallbackRequest(message: string) returns (r: Result<string>)
      modifies env`calls
      ensures phoneNumber.None? ==> r == Raised(NoPhoneError) && env.calls == old(env.calls)
      ensures phoneNumber.Some? ==>
        var contact := CallbackContact(pharmacyData, leadData);
        var booked := old(env.calls) + [Callback(phoneNumber.value, Some(CallbackTime(message)), contact, CallbackNotes(|conversationHistory|))];
        if env.scheduler(booked).Raised? then env.calls == booked && r.Raised?
        else
          env.calls == booked + [FollowUp(contact, phoneNumber.value, FollowUpEmail(leadData), "callback_follow_up")]
          && (r.Ok? <==> env.tasks(env.calls).Ok?)
          && (r.Ok? ==> r.value == CallbackReply(CallbackTime(message), phoneNumber.value))
      ensures LegacyEffect(r, leadData, env.calls)
        == old(CallbackRequestEffect(env, message, phoneNumber, pharmacyData, leadData, |conversationHistory|, env.calls))
    {
      var time := CallbackTime(message);
      var contact := CallbackContact(pharmacyData, leadData);
      if phoneNumber.None? {
        return Raised(NoPhoneError);
      }
      var booked := env.ScheduleCallback(phoneNumber.value, Some(time), contact, CallbackNotes(|conversationHistory|));
      if booked.Raised? {
        return Raised(booked.error);
      }
      var task := env.CreateFollowUpTask(contact, phoneNumber.value, FollowUpEmail(leadData), "callback_follow_up");
      if task.Raised? {
        return Raised(task.error);
      }
      r := Ok(CallbackReply(time, phoneNumber.value));
    }

    /** `_generate_llm_response`: the model sees the directory data, the lead, the phone and the history. */
    method GenerateLlmResponse() returns (reply: string)
      modifies env`calls
      ensures phoneNumber.None? ==> reply == TechnicalDifficulties && env.calls == old(env.calls)
      ensures phoneNumber.Some? ==>
        env.calls == old(env.calls) + [LegacyCompletion(pharmacyData, leadData, phoneNumber.value, conversationHistory)]
        && reply == LlmOutcome(env.model(env.calls))
    {
      if phoneNumber.None? {
        // building the system message reads the missing phone number inside the `try`
        return TechnicalDifficulties;
      }
      var completion := env.CompleteLegacy(pharmacyData, leadData, phoneNumber.value, conversationHistory);
      reply := LlmOutcome(completion);
    }

    /**
     * `process_user_message`: the email branch is tried before the callback
     * branch, and neither records its reply in the history.
     */
    method ProcessUserMessage(message: string) returns (r: Result<string>)
      modifies this`conversationHistory, this`leadData, env`calls
      ensures IsRequestingEmail(message) || IsRequestingCallback(message) ==>
        conversationHistory == old(conversationHistory) + [ConversationMessage(User, message)]
      ensures IsRequestingEmail(message) ==>
        var to := EmailTarget(message, old(leadData));
        (to.None? ==> r == Ok(AskForAddress) && env.calls == old(env.calls))
        && (to.Some? && r.Ok? ==> r.value == SentReply(to.value))
        && (leadData == old(leadData) || (!IsKnown(pharmacyData) && leadData == old(leadData).(email := to)))
      ensures !IsRequestingEmail(message) && IsRequestingCallback(message) ==>
        leadData == old(leadData)
        && (phoneNumber.None? ==> r.Raised? && env.calls == old(env.calls))
        && (r.Ok? ==> phoneNumber.Some? && r.value == CallbackReply(CallbackTime(message), phoneNumber.value))
      ensures !IsRequestingEmail(message) && !IsRequestingCallback(message) ==>
        r.Ok?
        && conversationHistory == old(conversationHistory) + [ConversationMessage(User, message), ConversationMessage(Assistant, r.value)]
        && leadData == (if ContainsContactInfo(message) then ExtractedLead(old(leadData), message) else old(leadData))
        && (phoneNumber.None? ==> r.value == TechnicalDifficulties && env.calls == old(env.calls))
      ensures IsRequestingEmail(message) ==>
        LegacyEffect(r, leadData, env.calls) == EmailRequestEffect(env, message, pharmacyData, old(leadData), old(env.calls))
      ensures !IsRequestingEmail(message) && IsRequestingCallback(message) ==>
        LegacyEffect(r, leadData, env.calls)
        == CallbackRequestEffect(env, message, phoneNumber, pharmacyData, old(leadData),
                                 |old(conversationHistory)| + 1, old(env.calls))
      ensures !IsRequestingEmail(message) && !IsRequestingCallback(message) ==>
        LegacyEffect(r, leadData, env.calls)
        == ModelReplyEffect(env, message, phoneNumber, pharmacyData, old(leadData),
                            old(conversationHistory) + [ConversationMessage(User, message)], old(env.calls))
    {
      if IsRequestingEmail(message) || IsRequestingCallback(message) {
        r := AnswerRequest(message);
      } else {
        conversationHistory := conversationHistory + [ConversationMessage(User, message)];
        var reply := ReplyWithModel(message);
        r := Ok(reply);
      }
    }

    /**
     * The first two branches of `process_user_message`: the caller's message
     * is recorded, then an email request is answered before a callback request.
     */
    method AnswerRequest(message: string) returns (r: Result<string>)
      requires IsRequestingEmail(message) || IsRequestingCallback(message)
      modifies this`conversationHistory, this`leadData, env`calls
      ensures conversationHistory == old(conversationHistory) + [ConversationMessage(User, message)]
      ensures IsRequestingEmail(message) ==>
        var to := EmailTarget(message, old(leadData));
        (to.None? ==> r == Ok(AskForAddress) && env.calls == old(env.calls))
        && (to.Some? && r.Ok? ==> r.value == SentReply(to.value))
        && (leadData == old(leadData) || (!IsKnown(pharmacyData) && leadData == old(leadData).(email := to)))
      ensures !IsRequestingEmail(message) ==>
        leadData == old(leadData)
        && (phoneNumber.None? ==> r.Raised? && env.calls == old(env.calls))
        && (r.Ok? ==> phoneNumber.Some? && r.value == CallbackReply(CallbackTime(message), phoneNumber.value))
      ensures IsRequestingEmail(message) ==>
        LegacyEffect(r, leadData, env.calls) == EmailRequestEffect(env, message, pharmacyData, old(leadData), old(env.calls))
      ensures !IsRequestingEmail(message) ==>
        LegacyEffect(r, leadData, env.calls)
        == CallbackRequestEffect(env, message, phoneNumber, pharmacyData, old(leadData),
                                 |old(conversationHistory)| + 1, old(env.calls))
    {
      conversationHistory := conversationHistory + [ConversationMessage(User, message)];
      if IsRequestingEmail(message) {
        r := HandleEmailRequest(message);
      } else {
        r := HandleCallbackRequest(message);
      }
    }

    /** The last branch of `process_user_message`: read the lead from the message if it has contact details, then ask the model. */
    method ReplyWithModel(message: string) returns (reply: string)
      modifies this`conversationHistory, this`leadData, env`calls
      ensures leadData == (if ContainsContactInfo(message) then ExtractedLead(old(leadData), message) else old(leadData))
      ensures conversationHistory == old(conversationHistory) + [ConversationMessage(Assistant, reply)]
      ensures phoneNumber.None? ==> reply == TechnicalDifficulties && env.calls == old(env.calls)
      ensures phoneNumber.Some? ==>
        env.calls == old(env.calls) + [LegacyCompletion(pharmacyData, leadData, phoneNumber.value, old(conversationHistory))]
        && reply == LlmOutcome(env.model(env.calls))
      ensures LegacyEffect(Ok(reply), leadData, env.calls)
        == old(ModelReplyEffect(env, message, phoneNumber, pharmacyData, leadData, conversationHistory, env.calls))
    {
      if ContainsContactInfo(message) {
        ExtractLeadInformation(message);
      }
      reply := GenerateLlmResponse();
      conversationHistory := conversationHistory + [ConversationMessage(Assistant, reply)];
    }

    /** `end_conversation`: the closing names the pharmacy and is recorded. */
    method EndConversation() returns (closing: string)
      modifies this`conversationHistory
      ensures closing == Closing(ClosingName(pharmacyData, leadData))
      ensures conversationHistory == old(conversationHistory) + [ConversationMessage(Assistant, closing)]
    {
      closing := Closing(ClosingName(pharmacyData, leadData));
      conversationHistory := conversationHistory + [ConversationMessage(Assistant, closing)];
    }

    /** `_get_actions_taken`: one pass over the history. */
    method GetActionsTaken() returns (actions: seq<string>)
      ensures actions == ActionsTakenOf(conversationHistory)
    {
      actions := [];
      var i := 0;
      while i < |conversationHistory|
        invariant 0 <= i <= |conversationHistory|
        invariant actions == ActionsTakenOf(conversationHistory[..i])
      {
        assert conversationHistory[..i + 1][..i] == conversationHistory[..i];
        var shown := ActionsShownBy(conversationHistory[i]);
        actions := actions + shown;
        i := i + 1;
      }
      assert conversationHistory[..i] == conversationHistory;
    }

    /** `get_conversation_summary`: raises before a conversation is started. */
    method GetConversationSummary() returns (r: Result<LegacySummary>)
      ensures phoneNumber.None? ==> r == Raised(NoPhoneError)
      ensures phoneNumber.Some? ==> r == Ok(LegacySummary(
        phoneNumber.value, pharmacyData, leadData, |conversationHistory|, ActionsTakenOf(conversationHistory)))
    {
      if phoneNumber.None? {
        return Raised(NoPhoneError);
      }
      var actions := GetActionsTaken();
      r := Ok(LegacySummary(phoneNumber.value, pharmacyData, leadData, |conversationHistory|, actions));
    }
  }
}

=== FILE: models.dfy ===
/**
 * The session model of the sales assistant: pharmacy records from the
 * directory, the lead record assembled for unknown callers, conversation
 * messages and the per-call `ConversationState`.
 *
 * Python's truthiness is written out: an optional string counts as present
 * only when it is non-empty (`Truthy`), an optional number only when it is
 * non-zero (`TruthyInt`).
 */
module Models {
  import opened Wrappers
  import opened Text

  datatype ConversationStatus = Active | Completed | PendingEmail | PendingCallback {
    /** The enum's string value. */
    function Value(): string {
      match this
      case Active => "active"
      case Completed => "completed"
      case PendingEmail => "pending_email"
      case PendingCallback => "pending_callback"
    }
  }

  datatype PharmacyType = HighVolume | MediumVolume | LowVolume | Startup {
    /** The enum's string value. */
    function Value(): string {
      match this
      case HighVolume => "high_volume"
      case MediumVolume => "medium_volume"
      case LowVolume => "low_volume"
      case Startup => "startup"
    }

    /** Position of the tier from the smallest (startup) to the largest. */
    function Rank(): nat {
      match this
      case Startup => 0
      case LowVolume => 1
      case MediumVolume => 2
      case HighVolume => 3
    }
  }

  /** Python truthiness of an optional string. */
  predicate Truthy(o: Option<string>) {
    o.Some? && o.value != ""
  }

  /** Python truthiness of an optional number. */
  predicate TruthyInt(o: Option<int>) {
    o.Some? && o.value != 0
  }

  /** The tier of a monthly prescription volume; a missing or zero volume is a startup. */
  function VolumeTier(rxVolume: Option<int>): (t: PharmacyType)
    ensures t == HighVolume <==> TruthyInt(rxVolume) && rxVolume.value >= 10000
    ensures t == MediumVolume <==> TruthyInt(rxVolume) && 5000 <= rxVolume.value < 10000
    ensures t == LowVolume <==> TruthyInt(rxVolume) && 1000 <= rxVolume.value < 5000
    ensures t == Startup <==> !TruthyInt(rxVolume) || rxVolume.value < 1000
  {
    if !TruthyInt(rxVolume) then Startup
    else if rxVolume.value >= 10000 then HighVolume
    else if rxVolume.value >= 5000 then MediumVolume
    else if rxVolume.value >= 1000 then LowVolume
    else Startup
  }

  /** A larger volume never gives a lower tier. */
  lemma VolumeTierMonotone(a: int, b: int)
    requires a <= b
    ensures VolumeTier(Some(a)).Rank() <= VolumeTier(Some(b)).Rank()
  {
  }

  /** A directory record as the HTTP API returns it; an absent key is `None`. */
  datatype ApiRecord = ApiRecord(
    name: Option<string>,
    phone: Option<string>,
    city: Option<string>,
    state: Option<string>,
    rxVolume: Option<int>,
    email: Option<string>,
    contactPerson: Option<string>)
  {
    /** Python truthiness of the record as a dictionary: some key is present. */
    predicate NonEmpty() {
      name.Some? || phone.Some? || city.Some? || state.Some? || rxVolume.Some? || email.Some? || contactPerson.Some?
    }
  }

  /** A known pharmacy, found in the directory by phone number. */
  datatype PharmacyData = PharmacyData(
    name: string,
    phone: string,
    city: Option<string>,
    state: Option<string>,
    rxVolume: Option<int>,
    email: Option<string>,
    contactPerson: Option<string>)
  {
    /** The location for display: city and state, either one alone, or a placeholder. */
    function LocationDisplay(): (s: string)
      ensures Truthy(city) ==> city.value <= s
      ensures Truthy(state) ==> |state.value| <= |s| && s[|s| - |state.value|..] == state.value
      ensures Truthy(city) && Truthy(state) ==>
        |s| == |city.value| + 2 + |state.value| && s[|city.value|..|city.value| + 2] == ", "
      ensures Truthy(city) && !Truthy(state) ==> s == city.value
      ensures !Truthy(city) && Truthy(state) ==> s == state.value
      ensures !Truthy(city) && !Truthy(state) ==> s == "Unknown location"
    {
      if Truthy(city) && Truthy(state) then city.value + ", " + state.value
      else if Truthy(city) then city.value
      else if Truthy(state) then state.value
      else "Unknown location"
    }

    /** The volume tier, always recomputed from the stored volume. */
    function Tier(): PharmacyType {
      VolumeTier(rxVolume)
    }
  }

  /** Builds a pharmacy from a directory record, with defaults for a missing name or phone. */
  function FromApiResponse(api: ApiRecord): (p: PharmacyData)
    ensures p.name == (if api.name.Some? then api.name.value else "Unknown Pharmacy")
    ensures p.phone == (if api.phone.Some? then api.phone.value else "")
    ensures p.city == api.city && p.state == api.state && p.rxVolume == api.rxVolume
    ensures p.email == api.email && p.contactPerson == api.contactPerson
  {
    PharmacyData(
      api.name.GetOr("Unknown Pharmacy"), api.phone.GetOr(""),
      api.city, api.state, api.rxVolume, api.email, api.contactPerson)
  }

  /** What is known so far about a caller who is not in the directory. */
  datatype LeadData = LeadData(
    phone: string,
    pharmacyName: Option<string>,
    contactPerson: Option<string>,
    email: Option<string>,
    location: Option<string>,
    rxVolume: Option<int>,
    interests: seq<string>,
    notes: string)
  {
    /** The minimum needed to follow up: a pharmacy name and an email. */
    predicate IsComplete() {
      Truthy(pharmacyName) && Truthy(email)
    }

    /** How many of the five tracked fields are filled in. */
    function FilledFields(): (n: nat)
      ensures n <= 5
    {
      (if Truthy(pharmacyName) then 1 else 0) + (if Truthy(contactPerson) then 1 else 0)
      + (if Truthy(email) then 1 else 0) + (if Truthy(location) then 1 else 0)
      + (if TruthyInt(rxVolume) then 1 else 0)
    }

    /** `int(completed / 5 * 100)`, exact for the six possible counts. */
    function CompletionPercentage(): (pct: nat)
      ensures pct == 20 * FilledFields()
      ensures pct <= 100 && pct % 20 == 0
    {
      (FilledFields() * 100) / 5
    }
  }

  /** A fresh lead holding only the caller's phone number. */
  function NewLead(phone: string): (l: LeadData)
    ensures l.phone == phone && l.CompletionPercentage() == 0 && !l.IsComplete()
  {
    LeadData(phone, None, None, None, None, None, [], "")
  }

  /** Completion is 100% exactly when all five tracked fields are filled in. */
  lemma CompletionFull(l: LeadData)
    ensures l.CompletionPercentage() == 100 <==>
      Truthy(l.pharmacyName) && Truthy(l.contactPerson) && Truthy(l.email)
      && Truthy(l.location) && TruthyInt(l.rxVolume)
  {
  }

  /** A complete lead has at least two of the five fields. */
  lemma CompleteLeadAtLeastForty(l: LeadData)
    requires l.IsComplete()
    ensures l.CompletionPercentage() >= 40
  {
  }

  datatype Role = User | Assistant {
    function Value(): string {
      match this
      case User => "user"
      case Assistant => "assistant"
    }
  }

  /** One turn of the conversation; timestamps and metadata are not modelled. */
  datatype ConversationMessage = ConversationMessage(role: Role, content: string)

  predicate NoDuplicates<T(==)>(s: seq<T>) {
    forall i, j :: 0 <= i < j < |s| ==> s[i] != s[j]
  }

  /** The list of actions after `add_action(a)`: appended only when absent. */
  function AddOnce(actions: seq<string>, a: string): (r: seq<string>)
    ensures a in r
    ensures forall x :: x in r <==> x in actions || x == a
  {
    if a in actions then actions else actions + [a]
  }

  /** Adding an action keeps the list free of duplicates. */
  lemma AddOnceNoDuplicates(actions: seq<string>, a: string)
    requires NoDuplicates(actions)
    ensures NoDuplicates(AddOnce(actions, a))
  {
  }

  /** Adding the same action twice is the same as adding it once. */
  lemma AddOnceIdempotent(actions: seq<string>, a: string)
    ensures AddOnce(AddOnce(actions, a), a) == AddOnce(actions, a)
  {
  }

  /** Earlier actions keep their positions: the old list is a prefix of the new one. */
  lemma AddOncePreservesOrder(actions: seq<string>, a: string)
    ensures actions <= AddOnce(actions, a)
    ensures |AddOnce(actions, a)| <= |actions| + 1
  {
  }

  /** The name to address the caller's pharmacy by, given the session's directory and lead records. */
  function NameOnRecord(pharmacy: Option<PharmacyData>, lead: Option<LeadData>): (name: string)
    ensures pharmacy.Some? ==> name == pharmacy.value.name
    ensures pharmacy.None? && lead.Some? && Truthy(lead.value.pharmacyName) ==> name == lead.value.pharmacyName.value
    ensures pharmacy.None? && (lead.None? || !Truthy(lead.value.pharmacyName)) ==> name == "your pharmacy"
  {
    if pharmacy.Some? then pharmacy.value.name
    else if lead.Some? && Truthy(lead.value.pharmacyName) then lead.value.pharmacyName.value
    else "your pharmacy"
  }

  /** The address on record: the directory's when it is truthy, else the lead's when it is truthy. */
  function EmailOnRecord(pharmacy: Option<PharmacyData>, lead: Option<LeadData>): (e: Option<string>)
    ensures e.Some? ==> e.value != ""
    ensures pharmacy.Some? && Truthy(pharmacy.value.email) ==> e == pharmacy.value.email
    ensures e.Some? && !(pharmacy.Some? && Truthy(pharmacy.value.email)) ==> lead.Some? && e == lead.value.email
    ensures e.None? <==> !(pharmacy.Some? && Truthy(pharmacy.value.email)) && !(lead.Some? && Truthy(lead.value.email))
  {
    if pharmacy.Some? && Truthy(pharmacy.value.email) then pharmacy.value.email
    else if lead.Some? && Truthy(lead.value.email) then lead.value.email
    else None
  }

  /** The state of one call. */
  class ConversationState {
    const phoneNumber: string
    var status: ConversationStatus
    var pharmacyData: Option<PharmacyData>
    var leadData: Option<LeadData>
    var messages: seq<ConversationMessage>
    var actionsTaken: seq<string>

    /** Exactly one of pharmacy data and lead data is present, and no action is recorded twice. */
    ghost predicate Valid()
      reads this
    {
      (pharmacyData.Some? <==> leadData.None?) && NoDuplicates(actionsTaken)
    }

    constructor (phone: string, status: ConversationStatus, pharmacy: Option<PharmacyData>, lead: Option<LeadData>)
      ensures phoneNumber == phone && this.status == status
      ensures pharmacyData == pharmacy && leadData == lead
      ensures messages == [] && actionsTaken == []
    {
      phoneNumber := phone;
      this.status := status;
      pharmacyData := pharmacy;
      leadData := lead;
      messages := [];
      actionsTaken := [];
    }

    predicate IsKnownPharmacy()
      reads this`pharmacyData, this`leadData
    {
      pharmacyData.Some?
    }

    /** The name to address the caller's pharmacy by. */
    function CurrentPharmacyName(): string
      reads this`pharmacyData, this`leadData
    {
      NameOnRecord(pharmacyData, leadData)
    }

    /** The address on record, from the directory first. */
    function EmailAddress(): Option<string>
      reads this`pharmacyData, this`leadData
    {
      EmailOnRecord(pharmacyData, leadData)
    }

    predicate HasEmail()
      reads this`pharmacyData, this`leadData
      ensures HasEmail() <==> EmailAddress().Some?
    {
      (pharmacyData.Some? && Truthy(pharmacyData.value.email)) || (leadData.Some? && Truthy(leadData.value.email))
    }

    /** Appends one message; earlier messages are unchanged. */
    method AddMessage(role: Role, content: string)
      modifies this`messages
      ensures messages == old(messages) + [ConversationMessage(role, content)]
      ensures Valid() == old(Valid())
    {
      messages := messages + [ConversationMessage(role, content)];
    }

    /** Records an action unless it was recorded before. */
    method AddAction(action: string)
      modifies this`actionsTaken
      ensures actionsTaken == AddOnce(old(actionsTaken), action)
      ensures old(Valid()) ==> Valid()
    {
      if action !in actionsTaken {
        actionsTaken := actionsTaken + [action];
      }
    }
  }
}

=== FILE: prompt.dfy ===
/**
 * Formatting helpers of the prompt templates: the location fragment and the
 * volume sentence of the older assistant's greeting, and the volume-specific
 * benefit bullets of its emails. A pharmacy here is the directory's raw
 * dictionary.
 */
module Prompt {
  import opened Wrappers
  import opened Text
  import opened Models

  /** `format_location_info`: " in " followed by whichever of city and state are present. */
  function FormatLocationInfo(data: Option<ApiRecord>): (s: string)
    ensures data.None? || !data.value.NonEmpty() ==> s == ""
    ensures data.Some? ==> (s == "" <==> !Truthy(data.value.city) && !Truthy(data.value.state))
    ensures s != "" ==> " in " <= s
  {
    if data.None? || !data.value.NonEmpty() then ""
    else
      var parts := (if Truthy(data.value.city) then [data.value.city.value] else [])
        + (if Truthy(data.value.state) then [data.value.state.value] else []);
      if parts != [] then " in " + Join(parts, ", ") else ""
  }

  /** The fragment agrees with the location display of the same record. */
  lemma {:induction false} LocationInfoAgreesWithDisplay(api: ApiRecord)
    requires Truthy(api.city) || Truthy(api.state)
    ensures FormatLocationInfo(Some(api)) == " in " + FromApiResponse(api).LocationDisplay()
  {
    if Truthy(api.city) && Truthy(api.state) {
      assert Join([api.city.value, api.state.value], ", ") == api.city.value + ", " + Join([api.state.value], ", ");
    } else if Truthy(api.city) {
      assert [api.city.value] + [] == [api.city.value];
    } else {
      assert [] + [api.state.value] == [api.state.value];
    }
  }

  const LearnMoreMessage: string :=
    "I'd love to learn more about your prescription volume to see how we can best support you."
  const HighVolumeMessage: string :=
    "With your high prescription volume, you'd be an excellent fit for our premium tier services, including dedicated account management and priority inventory allocation."
  const MediumVolumeMessage: string :=
    "Your prescription volume puts you in a great position to benefit from our bulk pricing and reliable delivery schedules."
  const LowVolumeMessage: string :=
    "Even with your current volume, we can offer competitive pricing and room to grow with our flexible service options."
  const UnknownVolumeMessage: string :=
    "Understanding your prescription volume helps us tailor our services to your specific needs."

  /** The volume message for each tier; below the low tier the "unknown" message is used. */
  function TierMessage(t: PharmacyType): string {
    match t
    case HighVolume => HighVolumeMessage
    case MediumVolume => MediumVolumeMessage
    case LowVolume => LowVolumeMessage
    case Startup => UnknownVolumeMessage
  }

  /** `format_rx_volume_info`: the learn-more request without a volume, else the tier's message. */
  function FormatRxVolumeInfo(data: Option<ApiRecord>): (s: string)
    ensures data.None? || !TruthyInt(data.value.rxVolume) ==> s == LearnMoreMessage
    ensures data.Some? && TruthyInt(data.value.rxVolume) ==> s == TierMessage(VolumeTier(data.value.rxVolume))
  {
    if data.None? || !data.value.NonEmpty() || !TruthyInt(data.value.rxVolume) then LearnMoreMessage
    else
      var v := data.value.rxVolume.value;
      if v >= 10000 then HighVolumeMessage
      else if v >= 5000 then MediumVolumeMessage
      else if v >= 1000 then LowVolumeMessage
      else UnknownVolumeMessage
  }

  /** A line of the benefit text: a bullet, a space, and no line break. */
  predicate IsBulletLine(line: string) {
    |line| > 2 && line[0] == '•' && line[1] == ' ' && '\n' !in line
  }

  /** Joining words that hold no line break with spaces gives text without a line break. */
  lemma {:induction false} JoinWordsHasNoNewline(words: seq<string>)
    requires forall k :: 0 <= k < |words| ==> '\n' !in words[k]
    ensures '\n' !in Join(words, " ")
    decreases |words|
  {
    if |words| > 1 {
      JoinWordsHasNoNewline(words[1..]);
      assert Join(words, " ") == words[0] + " " + Join(words[1..], " ");
    }
  }

  /**
   * A bullet line; its text is given word by word, so that the absence of a
   * line break can be checked one short word at a time.
   */
  function Bullet(words: seq<string>): (line: string)
    requires words != [] && words[0] != ""
    requires forall k :: 0 <= k < |words| ==> '\n' !in words[k]
    ensures IsBulletLine(line)
  {
    JoinWordsHasNoNewline(words);
    "• " + Join(words, " ")
  }

  predicate AllBulletLines(lines: seq<string>) {
    forall k :: 0 <= k < |lines| ==> IsBulletLine(lines[k])
  }

  function ScalableBenefits(): (lines: seq<string>)
    ensures |lines| == 1 && AllBulletLines(lines)
  {
    [Bullet(["Scalable", "solutions", "that", "grow", "with", "your", "business"])]
  }

  function HighVolumeBenefits(): (lines: seq<string>)
    ensures |lines| == 4 && AllBulletLines(lines)
  {
    [Bullet(["Premium", "tier", "pricing", "with", "volume", "discounts"]),
     Bullet(["Dedicated", "account", "manager"]),
     Bullet(["Priority", "inventory", "allocation"]),
     Bullet(["Emergency", "delivery", "services"])]
  }

  function MediumVolumeBenefits(): (lines: seq<string>)
    ensures |lines| == 3 && AllBulletLines(lines)
  {
    [Bullet(["Volume-based", "pricing", "tiers"]),
     Bullet(["Flexible", "delivery", "scheduling"]),
     Bullet(["Account", "management", "support"])]
  }

  function GrowingBenefits(): (lines: seq<string>)
    ensures |lines| == 3 && AllBulletLines(lines)
  {
    [Bullet(["Competitive", "pricing", "structure"]),
     Bullet(["Growth-oriented", "service", "options"]),
     Bullet(["Flexible", "minimum", "order", "requirements"])]
  }

  /** The benefit bullets for a volume, before they are joined. */
  function BenefitLines(rxVolume: Option<int>): (lines: seq<string>)
    ensures |lines| == (if !TruthyInt(rxVolume) then 1 else if rxVolume.value >= 10000 then 4 else 3)
    ensures AllBulletLines(lines)
  {
    if !TruthyInt(rxVolume) then ScalableBenefits()
    else if rxVolume.value >= 10000 then HighVolumeBenefits()
    else if rxVolume.value >= 5000 then MediumVolumeBenefits()
    else GrowingBenefits()
  }

  /** `get_rx_volume_benefits`: the bullets joined by newlines. */
  function GetRxVolumeBenefits(rxVolume: Option<int>): string {
    Join(BenefitLines(rxVolume), "\n")
  }

  /** Splitting the benefit text on newlines gives back exactly the bullets, each starting with "•". */
  lemma BenefitsAreBulletLines(rxVolume: Option<int>)
    ensures var lines := Split(GetRxVolumeBenefits(rxVolume), '\n');
      lines == BenefitLines(rxVolume)
      && |lines| == (if !TruthyInt(rxVolume) then 1 else if rxVolume.value >= 10000 then 4 else 3)
      && forall k :: 0 <= k < |lines| ==> IsBulletLine(lines[k])
  {
    SplitJoin(BenefitLines(rxVolume), '\n');
  }

  /** The text neither starts nor ends with a newline. */
  lemma {:induction false} BenefitsHaveNoTrailingNewline(rxVolume: Option<int>)
    ensures var s := GetRxVolumeBenefits(rxVolume); s != "" && s[0] != '\n' && s[|s| - 1] != '\n'
  {
    var lines := BenefitLines(rxVolume);
    var s := GetRxVolumeBenefits(rxVolume);
    BenefitsAreBulletLines(rxVolume);
    JoinStartsWithFirst(lines, "\n");
    assert s[0] == lines[0][0];
    JoinEndsWithLast(lines, "\n");
    var last := lines[|lines| - 1];
    assert s[|s| - 1] == last[|last| - 1];
  }
}

=== FILE: text.dfy ===
/**
 * String primitives that the Python code gets from `str`: `in`, `lower`,
 * `strip`, `split`, `join`, `replace`, `int(...)` and `f"{n}"`.
 *
 * Characters are handled in their ASCII reading only: `Lower` folds `A`-`Z`,
 * whitespace is the six ASCII whitespace characters and digits are `0`-`9`.
 */
module Text {
  import opened Wrappers

  predicate IsSpace(c: char) {
    c == ' ' || c == '\t' || c == '\n' || c == '\r' || c == '\U{000B}' || c == '\U{000C}'
  }

  predicate IsDigit(c: char) {
    '0' <= c <= '9'
  }

  predicate IsLetter(c: char) {
    'a' <= c <= 'z' || 'A' <= c <= 'Z'
  }

  predicate AllDigits(s: string) {
    forall i :: 0 <= i < |s| ==> IsDigit(s[i])
  }

  function LowerChar(c: char): (d: char)
    ensures IsLetter(c) <==> IsLetter(d)
    ensures IsDigit(c) <==> IsDigit(d)
    ensures IsSpace(c) <==> IsSpace(d)
    ensures !('A' <= d <= 'Z')
  {
    if 'A' <= c <= 'Z' then (c as int + 32) as char else c
  }

  /** `s.lower()`, ASCII only: the same length, every position folded. */
  function Lower(s: string): (r: string)
    ensures |r| == |s|
    ensures forall i :: 0 <= i < |s| ==> r[i] == LowerChar(s[i])
  {
    seq(|s|, i requires 0 <= i < |s| => LowerChar(s[i]))
  }

  /** `t` occurs in `s` starting at index `i`. */
  predicate OccursAt(s: string, t: string, i: int) {
    0 <= i && i + |t| <= |s| && s[i..i + |t|] == t
  }

  /** Python's substring test `t in s`. */
  predicate Contains(s: string, t: string) {
    exists i | 0 <= i <= |s| - |t| :: OccursAt(s, t, i)
  }

  /** `any(k in s for k in keys)`. */
  predicate ContainsAny(s: string, keys: seq<string>) {
    exists k | k in keys :: Contains(s, k)
  }

  lemma ContainsWitness(s: string, t: string, i: int)
    requires OccursAt(s, t, i)
    ensures Contains(s, t)
  {
  }

  lemma ContainsInfix(a: string, t: string, b: string)
    ensures Contains(a + t + b, t)
  {
    assert (a + t + b)[|a|..|a| + |t|] == t;
    ContainsWitness(a + t + b, t, |a|);
  }

  /** A substring of a substring is a substring. */
  lemma ContainsTransitive(s: string, t: string, u: string)
    requires Contains(s, t) && Contains(t, u)
    ensures Contains(s, u)
  {
    var i :| 0 <= i <= |s| - |t| && OccursAt(s, t, i);
    var j :| 0 <= j <= |t| - |u| && OccursAt(t, u, j);
    forall k | 0 <= k < |u|
      ensures s[i + j + k] == u[k]
    {
      assert s[i..i + |t|][j + k] == t[j + k];
      assert t[j..j + |u|][k] == t[j + k];
    }
    assert s[i + j..i + j + |u|] == u;
    ContainsWitness(s, u, i + j);
  }

  /** `sep.join(parts)`. */
  function Join(parts: seq<string>, sep: string): string
    decreases |parts|
  {
    if |parts| == 0 then ""
    else if |parts| == 1 then parts[0]
    else parts[0] + sep + Join(parts[1..], sep)
  }

  /** A join begins with its first part. */
  lemma {:induction false} JoinStartsWithFirst(parts: seq<string>, sep: string)
    requires |parts| >= 1
    ensures parts[0] <= Join(parts, sep)
  {
    if |parts| > 1 {
      assert Join(parts, sep) == parts[0] + (sep + Join(parts[1..], sep));
    }
  }

  /** A join ends with its last part. */
  lemma {:induction false} JoinEndsWithLast(parts: seq<string>, sep: string)
    requires |parts| >= 1
    ensures var j := Join(parts, sep); var last := parts[|parts| - 1];
      |last| <= |j| && j[|j| - |last|..] == last
    decreases |parts|
  {
    if |parts| > 1 {
      JoinEndsWithLast(parts[1..], sep);
      var rest := Join(parts[1..], sep);
      assert Join(parts, sep) == (parts[0] + sep) + rest;
    }
  }

  /** Every part occurs in the join. */
  lemma {:induction false} JoinContainsEach(parts: seq<string>, sep: string, i: int)
    requires 0 <= i < |parts|
    ensures Contains(Join(parts, sep), parts[i])
    decreases |parts|
  {
    if |parts| == 1 {
      ContainsInfix("", parts[0], "");
      assert "" + parts[0] + "" == Join(parts, sep);
    } else if i == 0 {
      ContainsInfix("", parts[0], sep + Join(parts[1..], sep));
      assert "" + parts[0] + (sep + Join(parts[1..], sep)) == Join(parts, sep);
    } else {
      var rest := Join(parts[1..], sep);
      JoinContainsEach(parts[1..], sep, i - 1);
      ContainsInfix(parts[0] + sep, rest, "");
      assert parts[0] + sep + rest + "" == Join(parts, sep);
      ContainsTransitive(Join(parts, sep), rest, parts[i]);
    }
  }

  /** Every part occurs in the join, for all parts at once. */
  lemma JoinContainsAll(parts: seq<string>, sep: string)
    ensures forall i :: 0 <= i < |parts| ==> Contains(Join(parts, sep), parts[i])
  {
    forall i | 0 <= i < |parts|
      ensures Contains(Join(parts, sep), parts[i])
    {
      JoinContainsEach(parts, sep, i);
    }
  }

  /** Index of the first `c` in `s`. */
  function IndexOfChar(s: string, c: char): (i: nat)
    requires c in s
    ensures i < |s| && s[i] == c && c !in s[..i]
  {
    if s[0] == c then 0 else 1 + IndexOfChar(s[1..], c)
  }

  /** `s.split(c)` for a one-character separator. */
  function Split(s: string, c: char): (parts: seq<string>)
    ensures |parts| >= 1
    decreases |s|
  {
    if c !in s then [s]
    else
      var i := IndexOfChar(s, c);
      [s[..i]] + Split(s[i + 1..], c)
  }

  /** Splitting a join on a separator that no part contains gives the parts back. */
  lemma {:induction false} SplitJoin(parts: seq<string>, c: char)
    requires |parts| >= 1
    requires forall k :: 0 <= k < |parts| ==> c !in parts[k]
    ensures Split(Join(parts, [c]), c) == parts
    decreases |parts|
  {
    if |parts| == 1 {
      assert Join(parts, [c]) == parts[0];
    } else {
      var rest := Join(parts[1..], [c]);
      var s := Join(parts, [c]);
      assert s == parts[0] + [c] + rest;
      assert s[|parts[0]|] == c;
      assert s[..|parts[0]|] == parts[0];
      var i := IndexOfChar(s, c);
      assert i == |parts[0]|;
      assert s[i + 1..] == rest;
      SplitJoin(parts[1..], c);
    }
  }

  /** `s` without its leading whitespace. */
  function TrimStart(s: string): (r: string)
    ensures |r| <= |s| && r == s[|s| - |r|..]
    ensures r == [] || !IsSpace(r[0])
    ensures forall i :: 0 <= i < |s| - |r| ==> IsSpace(s[i])
  {
    if s != [] && IsSpace(s[0]) then TrimStart(s[1..]) else s
  }

  /** `s` without its trailing whitespace. */
  function TrimEnd(s: string): (r: string)
    ensures |r| <= |s| && r == s[..|r|]
    ensures r == [] || !IsSpace(r[|r| - 1])
    ensures forall i :: |r| <= i < |s| ==> IsSpace(s[i])
  {
    if s != [] && IsSpace(s[|s| - 1]) then TrimEnd(s[..|s| - 1]) else s
  }

  /** `s.strip()`: neither end of the result is whitespace. */
  function Strip(s: string): (r: string)
    ensures r == [] || (!IsSpace(r[0]) && !IsSpace(r[|r| - 1]))
    ensures |r| <= |s|
  {
    TrimEnd(TrimStart(s))
  }

  /** A word of `str.split()`: non-empty and free of whitespace. */
  predicate IsWord(w: string) {
    w != [] && forall i :: 0 <= i < |w| ==> !IsSpace(w[i])
  }

  /** Length of the leading run of non-whitespace characters. */
  function WordLength(s: string): (n: nat)
    ensures n <= |s|
    ensures forall i :: 0 <= i < n ==> !IsSpace(s[i])
    ensures n == |s| || IsSpace(s[n])
  {
    if s == [] || IsSpace(s[0]) then 0 else 1 + WordLength(s[1..])
  }

  /** `s.split()`: the maximal runs of non-whitespace characters, in order. */
  function Words(s: string): (ws: seq<string>)
    ensures forall k :: 0 <= k < |ws| ==> IsWord(ws[k])
    decreases |s|
  {
    var t := TrimStart(s);
    if t == [] then []
    else
      var n := WordLength(t);
      var rest := Words(t[n..]);
      assert IsWord(t[..n]);
      [t[..n]] + rest
  }

  /** `s.replace(c, "")` for one character. */
  function Remove(s: string, c: char): (r: string)
    ensures c !in r
    ensures |r| <= |s|
  {
    if s == [] then []
    else (if s[0] == c then [] else [s[0]]) + Remove(s[1..], c)
  }

  function DigitChar(d: nat): (c: char)
    requires d < 10
    ensures IsDigit(c)
  {
    ('0' as int + d) as char
  }

  /** The value of a string of decimal digits. */
  function DigitsValue(s: string): nat
    requires AllDigits(s)
  {
    if s == [] then 0 else DigitsValue(s[..|s| - 1]) * 10 + (s[|s| - 1] as int - '0' as int)
  }

  /** `int(s)` on ASCII input: a non-empty string of digits, else a `ValueError`. */
  function ParseNat(s: string): (r: Option<nat>)
    ensures r.Some? <==> s != [] && AllDigits(s)
  {
    if s != [] && AllDigits(s) then Some(DigitsValue(s)) else None
  }

  /** `str(n)` for a natural number. */
  function NatToString(n: nat): (s: string)
    ensures s != [] && AllDigits(s)
    decreases n
  {
    if n < 10 then [DigitChar(n)] else NatToString(n / 10) + [DigitChar(n % 10)]
  }

  /** `str(i)` for any integer. */
  function IntToString(i: int): string {
    if i < 0 then "-" + NatToString(-i) else NatToString(i)
  }

  /** Rendering a number and reading it back gives the number. */
  lemma {:induction false} ParseNatToString(n: nat)
    ensures ParseNat(NatToString(n)) == Some(n)
    decreases n
  {
    var s := NatToString(n);
    if n >= 10 {
      ParseNatToString(n / 10);
      assert s[..|s| - 1] == NatToString(n / 10);
      assert s[|s| - 1] as int - '0' as int == n % 10;
      assert DigitsValue(s) == (n / 10) * 10 + n % 10;
    } else {
      assert DigitsValue(s) == DigitsValue([]) * 10 + n;
    }
  }
}

=== FILE: wrappers.dfy ===
/**
 * Failure-carrying values shared by every module of the model.
 *
 * `Option` stands for Python's `Optional[...]` (a missing dictionary key or
 * a `None` value). `Result` stands for a call that either returns a value or
 * raises an exception; the exception's text is kept only as a string.
 */
module Wrappers {

  datatype Option<+T> = None | Some(value: T) {
    /** The wrapped value, or `default` when there is none. */
    function GetOr(default: T): T {
      match this
      case Some(v) => v
      case None => default
    }
  }

  /** What a call produced: a value, or an exception that it raised. */
  datatype Result<+T> = Ok(value: T) | Raised(error: string)
}
